=== FILE: README.md ===
# NumberShortestPath and MaximumReward in Dafny

A model of two small graph programs and the binary min-heap they share.

- **Vertices** (`vertex.dfy`, after `src/Vertex.java`): the vertex record. It holds an id, an adjacency list (neighbour ids with parallel edge weights) and a reward. It also has the `compareTo` order on tentative distances and the predecessor-list helpers `addPred`/`hasPred`. A distance is `Finite(n)` or `Infinity`, the latter standing for `Integer.MAX_VALUE`/`Long.MAX_VALUE`. The module also defines walks from a source and their lengths. "Shortest distances" is stated in those terms: a vertex has a finite distance exactly when some walk reaches it, and that distance is the least walk length.
- **VertexMinHeap** (`heap.dfy`): the 1-indexed binary min-heap of vertex ids.
  - `Q` is the heap and `X` is the cross-reference from an id to its slot.
  - The keys are the vertices' distances.
  - It models `buildHeap`, `percolateDown`, `percolateUp` (with its slot-0 sentinel), `exchange`, `isEmpty`, `decreaseKey` and `deleteMin`.
- **NumberShortestPath** (`nsp.dfy`, `nsp_proofs.dfy`): Dijkstra's algorithm that also counts shortest paths.
  - It skips vertices it settles without a predecessor.
  - While scanning the edges of the vertex just settled, it returns false at the first edge that leads to an already settled vertex other than the source whose distance is not strictly larger than the settled vertex's distance plus the edge weight.
  - The method's documentation says false means the graph has a cycle of weight zero or less. The test does not decide that (third to fifth rows of Findings). It rejects some graphs without any cycle, and it accepts a negative cycle away from the source and any cycle through the source. `NumberShortestPathRuns` runs the model on three such graphs.
- **NonPositiveCycles** (`cycle_check.dfy`): a decision procedure for "some cycle weighs zero or less", proved correct against walks. `NumberShortestPathRuns.ComputeAsDocumented` uses it to give the method the verdict its documentation describes. `NumberShortestPath.Compute` itself keeps the code's test, because the results below are about the runs the code performs.
- **NumberShortestPathCounts** (`nsp_counts.dfy`): what the path counts of an accepted run add up to.
- **MaximumReward**, in three modules:
  - `MaximumRewardFifo` (`reward_fifo.dfy`): the queue-driven label-correcting pass and its `relax` step.
  - `MaximumRewardDijkstra` (`reward_dijkstra.dfy`): the Dijkstra pass that records *every* tied predecessor. Its result is the shortest-path tree (a DAG).
  - `MaximumRewardCycle` (`reward_cycle.dfy`): the undirected `addEdge`, the backtracking depth-first search that enumerates cycles through the source, `backtraceToFindCycle` and `computeMaximumReward`.
    - A step `u -> v` earns `v`'s reward only when `u` is one of `v`'s predecessors in the tree.
    - The search never steps straight back to the vertex it came from.
    - It never re-enters a vertex already on the path, except the source.

Mutable per-vertex fields become sequences indexed by vertex id, held in one state record per algorithm. Each loop becomes a recursive function with a decreasing measure. The depth-first search carries its current path as a ghost parameter, because the code keeps that path only implicitly in its `cyclePred` links.

The main results:
- `NumberShortestPathProofs.ComputeShortest`: with non-negative weights, an accepted run leaves every distance equal to the least walk length from the source.
- `NumberShortestPathCounts.ComputeCounts`: for any weights, an accepted run leaves every vertex other than the source with a count equal to the sum of its tight entries' tail counts. An adjacency entry `q -> v` is tight when `q` is reached and `q`'s distance plus the weight equals `v`'s distance. Parallel entries count once each. With positive weights this sum is the number of shortest walks (the tight entries form an acyclic graph). That consequence is not proved here.
- `NonPositiveCycles.HasNonPositiveCycle`: true exactly when some closed walk of one or more edges weighs zero or less.
- `MaximumRewardFifo.ComputeShortest`: a run of the FIFO pass that finishes leaves every distance shortest.
- `MaximumRewardDijkstra.ShortestPathTree`: each vertex's predecessor list holds, without duplicates, exactly the reached vertices with an edge into it as long as the difference of the two distances. With non-negative weights those distances are the shortest walk lengths from the source, so the predecessors are exactly the next-to-last vertices of shortest walks.
- `MaximumRewardDijkstra.PredsAcyclic`: with positive weights the predecessor links have no cycle.
- `MaximumRewardCycle.RunCycleEnumerate` and `MaximumRewardCycle.MaximumRewardIsBest`:
  - The recorded cycle's reward bounds every *proper* cycle through the source (`ProperCycle`). A proper cycle is a simple cycle that visits at least two vertices other than the source.
  - That leaves out cycles the search never walks. A self-loop at the source is one. So is a two-edge cycle `source, v, source` over two parallel edges: the search skips every entry back to the vertex it came from (`src/MaximumReward.java:223-226`).
  - When the source has no self-loop and something was recorded, the recorded cycle is itself a proper cycle (`MaximumRewardIsBest`). With a self-loop at the source, `source, source` may be recorded instead (see Left out).
  - Its per-step rewards add up to the reported total.

Where the code departs from what its own comments and names intend, the model follows the code:
- The FIFO pass resets its per-vertex visit counter but never increments it. The rejection its comment labels "has non-positive cycle" (at `n` visits) therefore never fires, and on a negative cycle the pass does not terminate.
- The FIFO pass's `relax` has its path-count updates commented out, though its comments describe them, so only the source's count is ever set.
- `computeMaximumReward` is named for the largest cycle reward, but when the search records no cycle it returns the initial `Long.MIN_VALUE` and leaves the recorded cycle and its reward list empty (src/MaximumReward.java:198-200, 278-284). `MaximumRewardCycle.ComputeMaximumReward` returns the same, and `MaximumRewardIsBest` states that an empty record means no proper cycle earns more than `Long.MIN_VALUE`.
- `deleteMin` does not update the cross-reference of the id it moves. `DeleteMinAsWritten` models it as written, and Findings shows what it does to a run. The shortest-path passes (`NumberShortestPath`, `MaximumRewardDijkstra`, and through the latter `MaximumRewardCycle.ComputeMaximumReward`) run on the corrected `DeleteMin`, so what is proved about them holds for the repaired heap, not for the code as written.

## Model

| member | source | states |
|---|---|---|
| Vertices.CompareTo | src/Vertex.java:59-69 | returns -1, 0 or 1, negative exactly when the receiver's distance is below the other's and zero exactly when they are equal |
| Vertices.CompareToAntisymmetric | src/Vertex.java:59-69 | the comparison is reflexive-zero and antisymmetric |
| Vertices.NewVertex | src/Vertex.java:40-42 | a new vertex keeps its id and has no edges and no reward |
| Vertices.AddAdj | src/Vertex.java:44-47 | the vertex's edge list grows by exactly the new (neighbour, weight) pair at the end; id and reward unchanged |
| Vertices.HasPred | src/Vertex.java:55-57 | the linear scan answers true exactly when the id is in the predecessor list |
| Vertices.AddPred | src/Vertex.java:51-53 | appends: the old list is a prefix, and the members are the old members plus the new id |
| Vertices.NumNodes | src/NumberShortestPath.java:98-100 | the count excludes the unused slot 0: the vertex ids are exactly 1..n |
| Vertices.NewGraph | src/NumberShortestPath.java:125-131 | the graph holds one fresh vertex per slot 0..n, each with its own id |
| Vertices.WalkSnoc | src/NumberShortestPath.java:50-55 | extending a walk by one adjacency entry ends at that neighbour and adds that edge's weight |
| Vertices.ReachedStep | src/NumberShortestPath.java:50-55 | if a vertex is reached at length d, each neighbour is reached at d plus the edge weight |
| Vertices.ClosedIsShortest | src/NumberShortestPath.java:22-70 | distances that are realised by walks and that no edge can lower are exactly the shortest walk lengths |
| VertexMinHeap.NewHeap | src/VertexMinHeap.java:13-20 | the new heap counts every vertex but has no slots filled yet |
| VertexMinHeap.InHeapIffItem | src/VertexMinHeap.java:13-20 | with a consistent cross-reference, an id is queued exactly when it occupies a heap slot |
| VertexMinHeap.Exchange | src/VertexMinHeap.java:73-79 | swaps two slots and repoints both ids' cross-references, leaving every other id's alone; the queued ids are unchanged as a multiset |
| VertexMinHeap.SmallerChild | src/VertexMinHeap.java:42-55 | picks a child of the parent whose key is no larger than any child's |
| VertexMinHeap.PercolateDown | src/VertexMinHeap.java:42-55 | keeps the size, the slots outside the heap, the cross-reference and the multiset of queued ids |
| VertexMinHeap.PercolateDownRestores | src/VertexMinHeap.java:42-55 | sinking a hole whose only fault is at that slot restores heap order below the starting parent |
| VertexMinHeap.PercolateUp | src/VertexMinHeap.java:61-66 | loads the sentinel, returns the final slot of the moved id, and keeps the cross-reference and the queued ids |
| VertexMinHeap.SiftUp | src/VertexMinHeap.java:61-66 | the moved id ends at a slot no deeper than where it started; queued ids are kept |
| VertexMinHeap.SiftUpRestores | src/VertexMinHeap.java:61-66 | rising an id whose only fault is with its parent restores full heap order |
| VertexMinHeap.IsEmpty | src/VertexMinHeap.java:81-83 | true exactly when the heap size is zero, which with a consistent cross-reference means no id is queued |
| VertexMinHeap.RootIsMin | src/VertexMinHeap.java:105-111 | in an ordered heap slot 1 has the least key |
| VertexMinHeap.RootIsSoleFinite | src/NumberShortestPath.java:26-31 | the root is a queued id, and while the source is the only queued id with a finite distance it is the one deleteMin returns |
| VertexMinHeap.DecreaseKeyOrder | src/VertexMinHeap.java:90-99 | lowering a queued id's key and percolating it up keeps heap order |
| VertexMinHeap.DecreaseKey | src/VertexMinHeap.java:90-99 | a larger new key changes nothing; otherwise the key is set, the queued ids and membership are unchanged, and heap order is kept |
| VertexMinHeap.SameItemsSameMembers | src/VertexMinHeap.java:90-99 | two consistent heaps with the same queued ids have the same membership |
| VertexMinHeap.MoveLastToRoot | src/VertexMinHeap.java:105-106 | the last queued id moves into slot 1 and the heap has one slot fewer; unlike the code, the moved id's cross-reference names slot 1; slots 2 and up and every other id's cross-reference are unchanged |
| VertexMinHeap.MoveLastToRootFacts | src/VertexMinHeap.java:105-106 | after the move a consistent heap stays consistent, the root leaves the queued ids, and heap order holds everywhere except at slot 1 |
| VertexMinHeap.DeleteMinKeepsItems | src/VertexMinHeap.java:105-111 | removing the root removes exactly one copy of it from the queued ids and keeps the cross-reference consistent |
| VertexMinHeap.DeleteMinKeepsOrder | src/VertexMinHeap.java:105-111 | the heap stays ordered and the removed id's key is no larger than any queued id's |
| VertexMinHeap.DeleteMin | src/VertexMinHeap.java:105-111 | returns the least-key id and removes exactly it from the queue, keeping order and the cross-reference (corrected version) |
| VertexMinHeap.DeleteMinAsWritten | src/VertexMinHeap.java:105-111 | as written: returns slot 1 and shrinks the heap by one |
| VertexMinHeap.BuildLoop | src/VertexMinHeap.java:25-36 | percolating parents down from the middle yields an ordered heap of the same ids |
| VertexMinHeap.BuildHeap | src/VertexMinHeap.java:25-36 | a fresh heap holds exactly the ids 1..n, ordered, with each id's cross-reference naming its slot |
| VertexMinHeap.StartHeap | src/NumberShortestPath.java:24-28 | after buildHeap and decreaseKey(source, 0), every vertex is queued, the source at distance 0 and the others at infinity, in heap order |
| VertexMinHeap.LowerSource | src/NumberShortestPath.java:26-27 | lowering the source's key in an all-infinite heap keeps all ids queued and the heap ordered |
| VertexMinHeap.SourceHeapValid | src/VertexMinHeap.java:25-36 | the four-vertex heap of the finding is a valid, ordered heap after buildHeap and decreaseKey(1, 0) |
| VertexMinHeap.DeleteMinAsWrittenLosesVertex | src/VertexMinHeap.java:105-111 | as written, deleteMin then decreaseKey(4, 7) leaves 4 queued twice and 2 no longer queued |
| VertexMinHeap.DeleteMinAsWrittenStrandsVertex | src/VertexMinHeap.java:105-111 | as written, after vertex 1 is removed, decreaseKey(4, 1) leaves 4 queued twice and 2 out of the heap, and decreaseKey(2, 5) leaves 2 out |
| VertexMinHeap.DeleteMinAsWrittenSettlesTwice | src/VertexMinHeap.java:105-111 | continuing that run, deleteMin returns 4, decreaseKey(3, 101) follows, deleteMin returns 4 again, and only 3 is left queued |
| VertexMinHeap.DeleteMinKeepsVertex | src/VertexMinHeap.java:105-111 | with the corrected deleteMin the same sequence keeps each of 2, 3, 4 queued once |
| NumberShortestPath.AddEdge | src/NumberShortestPath.java:72-74 | adds one directed edge: the tail's edge list grows by that edge and no other vertex changes |
| NumberShortestPath.Improve | src/NumberShortestPath.java:50-55 | a strictly shorter route sets the neighbour's distance, its predecessor to u and its count to u's count |
| NumberShortestPath.ImproveKeepsInv | src/NumberShortestPath.java:50-55 | the improvement keeps the run invariant and leaves settled vertices untouched |
| NumberShortestPath.Tie | src/NumberShortestPath.java:56-59 | an equal-length route adds u's count to the neighbour's and changes nothing else |
| NumberShortestPath.TieKeepsInv | src/NumberShortestPath.java:56-59 | the tie keeps the run invariant and leaves settled vertices untouched |
| NumberShortestPath.RelaxEdge | src/NumberShortestPath.java:44-60 | settled neighbours and longer routes change nothing; shorter routes improve, equal ones add counts; no distance rises |
| NumberShortestPath.RelaxEdgeKeepsInv | src/NumberShortestPath.java:44-60 | relaxing an edge keeps the run invariant |
| NumberShortestPath.RelaxEdgeInLoop | src/NumberShortestPath.java:44-66 | relaxing changes no answer to the rejection test for any edge of u |
| NumberShortestPath.RelaxFrom | src/NumberShortestPath.java:40-67 | the scan of u's edges rejects exactly when some remaining edge leads to a settled non-source vertex not strictly farther than through u |
| NumberShortestPath.Settle | src/NumberShortestPath.java:30-33 | removes and settles an unsettled vertex with the least distance (the source first) |
| NumberShortestPath.Step | src/NumberShortestPath.java:30-67 | a settled vertex without predecessor is skipped; otherwise the step rejects exactly when one of its edges fails the test |
| NumberShortestPath.Run | src/NumberShortestPath.java:30-69 | an accepting run settles every vertex; a rejecting one leaves a witnessed violating edge |
| NumberShortestPath.Start | src/NumberShortestPath.java:22-28 | all vertices queued, the source at distance 0 with one path, the rest at infinity |
| NumberShortestPath.Compute | src/NumberShortestPath.java:22-70 | the source stays at distance 0 with count 1; finite distances are realised by walks; accept means all settled, reject means a violating edge exists |
| NumberShortestPath.Violates | src/NumberShortestPath.java:62-66 | the rejection test fires only on an edge into a settled vertex other than the source, and then exactly when that vertex's distance is at most u's plus the weight |
| NumberShortestPathProofs.SettledTargetViolates | src/NumberShortestPath.java:62-66 | with non-negative weights the test fires exactly on edges from the latest settled vertex into a settled vertex other than the source |
| NumberShortestPathProofs.EdgeGood | src/NumberShortestPath.java:44-66 | with non-negative weights, an edge that passes the test is left closed (it cannot lower its head) |
| NumberShortestPathProofs.RelaxFromGood | src/NumberShortestPath.java:40-67 | after a non-rejecting scan, every edge out of a settled vertex is closed |
| NumberShortestPathProofs.RelaxFromGoodReject | src/NumberShortestPath.java:62-66 | a failing edge makes the scan reject |
| NumberShortestPathProofs.SettleGood | src/NumberShortestPath.java:30-33 | settling keeps the settled distances in non-decreasing order |
| NumberShortestPathProofs.StepGood | src/NumberShortestPath.java:30-67 | a non-rejecting step leaves every edge out of a settled vertex closed |
| NumberShortestPathProofs.StepGoodUnreached | src/NumberShortestPath.java:35-38 | skipping an unreached vertex leaves every settled vertex's edges closed |
| NumberShortestPathProofs.RunGood | src/NumberShortestPath.java:30-69 | an accepting run ends with every edge closed |
| NumberShortestPathProofs.StartGood | src/NumberShortestPath.java:24-28 | the starting state trivially satisfies the settle-order invariants |
| NumberShortestPathProofs.AcceptedRunClosed | src/NumberShortestPath.java:22-70 | with non-negative weights, an accepted run leaves finite distances realised by walks and every edge closed |
| NumberShortestPathProofs.ComputeShortest | src/NumberShortestPath.java:22-70 | with non-negative weights, an accepted run's distances are exactly the shortest walk lengths (finite exactly when reachable) |
| NumberShortestPathCounts.EdgeCountsKeep | src/NumberShortestPath.java:49-66 | an entry into a settled vertex, or a longer route, adds nothing to any count; passing the rejection test, it is not tight, so the counts still match the tight entries scanned so far |
| NumberShortestPathCounts.EdgeCountsImprove | src/NumberShortestPath.java:50-55 | a strictly shorter route restarts the target's count at u's: every earlier entry into it stops being tight, and the new entry is the only tight one scanned |
| NumberShortestPathCounts.EdgeCountsTie | src/NumberShortestPath.java:56-59 | an equal-length route adds u's count once for the tight entry just scanned |
| NumberShortestPathCounts.RelaxEdgeCounts | src/NumberShortestPath.java:49-66 | relaxing an entry that passes the rejection test keeps every non-source count equal to the tight entries scanned so far |
| NumberShortestPathCounts.EdgeCounts | src/NumberShortestPath.java:49-66 | the same for the relaxation step of the edge loop |
| NumberShortestPathCounts.RelaxFromCounts | src/NumberShortestPath.java:40-67 | a scan of u's entries that does not reject leaves u fully scanned with the counts matched |
| NumberShortestPathCounts.RelaxFromCountsStep | src/NumberShortestPath.java:40-67 | one entry that passes the test, then the rest of the scan, keeps the counts matched |
| NumberShortestPathCounts.ScannedAll | src/NumberShortestPath.java:40-67 | a vertex whose every entry is scanned counts as a fully scanned settled vertex |
| NumberShortestPathCounts.SettleCounts | src/NumberShortestPath.java:30-33 | settling the minimum adds it to the settled vertices, none of its entries scanned, and changes no count |
| NumberShortestPathCounts.SkipCounts | src/NumberShortestPath.java:35-38 | a skipped unreached vertex has no tight entry, so skipping its edges changes no count |
| NumberShortestPathCounts.StepCounts | src/NumberShortestPath.java:30-67 | one iteration that does not reject keeps the counts matched |
| NumberShortestPathCounts.RunCounts | src/NumberShortestPath.java:30-69 | an accepted loop ends with every count equal to its vertex's tight entries from settled vertices |
| NumberShortestPathCounts.StartCounts | src/NumberShortestPath.java:24-28 | before the loop every vertex other than the source has count 0 and nothing is settled |
| NumberShortestPathCounts.SettledCountAll | src/NumberShortestPath.java:30-69 | with every vertex settled and scanned, the contributions are the full sum over the tight entries |
| NumberShortestPathCounts.ComputeCounts | src/NumberShortestPath.java:22-70 | on acceptance, for any weights, each non-source count is the sum of the counts of the tails of the vertex's tight entries (an unreached vertex has 0) |
| NonPositiveCycles.HasNonPositiveCycle | src/NumberShortestPath.java:17-21 | true exactly when some closed walk of one or more edges weighs zero or less: the graphs the documentation says are rejected |
| NonPositiveCycles.LeastWalk | src/NumberShortestPath.java:17-21 | a finite least weight over walks of k edges from u to v is the weight of an actual such walk |
| NonPositiveCycles.LeastBelow | src/NumberShortestPath.java:17-21 | every walk of k edges from u to v weighs at least the computed least weight |
| NonPositiveCycles.ShortCycle | src/NumberShortestPath.java:17-21 | a closed walk of weight zero or less gives one with fewer edges than the graph has slots |
| NonPositiveCycles.SplitCycle | src/NumberShortestPath.java:17-21 | cut where a closed walk passes a vertex twice, one of the two closed walks again weighs zero or less |
| NonPositiveCycles.DecideSound | src/NumberShortestPath.java:17-21 | a short closed walk found by the procedure is a closed walk of weight zero or less |
| NonPositiveCycles.DecideComplete | src/NumberShortestPath.java:17-21 | every closed walk of weight zero or less is found among the walks of fewer edges than slots |
| NonPositiveCycles.RankedHasNoCycle | src/NumberShortestPath.java:17-21 | when every edge climbs a ranking of the vertices, no walk returns to its start, so no cycle weighs zero or less |
| NumberShortestPathRuns.ComputeAsDocumented | src/NumberShortestPath.java:17-22 | the verdict is true exactly when no cycle weighs zero or less; distances and counts are those of the code's run |
| NumberShortestPathRuns.StartHeapThree | src/NumberShortestPath.java:24-27 | on three vertices, buildHeap and decreaseKey(1, 0) leave the ids in slot order with only vertex 1 at distance 0 |
| NumberShortestPathRuns.StartIsStartThree | src/NumberShortestPath.java:24-28 | every three-vertex run from vertex 1 starts in that state |
| NumberShortestPathRuns.NegativeStepThree | src/NumberShortestPath.java:40-66 | on the negative-cycle graph, settling 3 scans 3 -> 2 (weight -5) into settled 2 at distance 1, which is not at most 2 - 5, so the test does not fire |
| NumberShortestPathRuns.NegativeRun | src/NumberShortestPath.java:22-70 | on 1 -> 2 (1), 2 -> 3 (1), 3 -> 2 (-5) the run accepts, with distances 0, 1, 2 |
| NumberShortestPathRuns.NegativeCycleWalk | src/NumberShortestPath.java:17-21 | 2 -> 3 -> 2 in that graph is a closed walk of weight -4 |
| NumberShortestPathRuns.AcceptsNegativeCycle | src/NumberShortestPath.java:62-66 | the graph has a cycle of weight zero or less, yet the code accepts it while the documented verdict rejects it |
| NumberShortestPathRuns.AcyclicStepThree | src/NumberShortestPath.java:62-66 | on the acyclic graph, settling 3 scans 3 -> 2 (weight 5) into settled 2 at distance 1 <= 2 + 5, and the test fires |
| NumberShortestPathRuns.AcyclicRun | src/NumberShortestPath.java:22-70 | on 1 -> 2 (1), 1 -> 3 (2), 3 -> 2 (5) the run rejects |
| NumberShortestPathRuns.AcyclicRanked | src/NumberShortestPath.java:17-21 | that graph has no closed walk at all |
| NumberShortestPathRuns.RejectsAcyclicGraph | src/NumberShortestPath.java:62-66 | the graph has no cycle, yet the code rejects it while the documented verdict accepts it |
| NumberShortestPathRuns.StartHeapTwo | src/NumberShortestPath.java:24-27 | on two vertices, buildHeap and decreaseKey(1, 0) leave the ids in slot order with only vertex 1 at distance 0 |
| NumberShortestPathRuns.ZeroStepTwo | src/NumberShortestPath.java:62-66 | settling 2 scans 2 -> 1 into the source, which the test never fires on |
| NumberShortestPathRuns.ZeroRun | src/NumberShortestPath.java:22-70 | on 1 -> 2 (0), 2 -> 1 (0) the run accepts, with both distances 0 |
| NumberShortestPathRuns.ZeroCycleWalk | src/NumberShortestPath.java:17-21 | 1 -> 2 -> 1 in that graph is a closed walk of weight 0 |
| NumberShortestPathRuns.AcceptsZeroCycleThroughSource | src/NumberShortestPath.java:62-66 | the graph has a zero-weight cycle through the source, yet the code accepts it while the documented verdict rejects it |
| MaximumRewardFifo.Relax | src/MaximumReward.java:93-111 | reports a change exactly when the route through u is strictly shorter; then u becomes the only predecessor; on a tie u is appended; otherwise nothing changes |
| MaximumRewardFifo.RelaxEdge | src/MaximumReward.java:65-79 | no distance rises; a lowered neighbour is queued; queued vertices stay queued |
| MaximumRewardFifo.Lower | src/MaximumReward.java:73-78 | a lowered neighbour is enqueued unless already queued, keeping the queue duplicate-free |
| MaximumRewardFifo.RelaxAll | src/MaximumReward.java:64-80 | after relaxing all of u's edges every edge out of an unqueued vertex is closed |
| MaximumRewardFifo.RelaxEdgeKeepsClosed | src/MaximumReward.java:68-79 | relaxing u's next edge closes it without reopening any other edge of an unqueued vertex |
| MaximumRewardFifo.Loop | src/MaximumReward.java:54-83 | a finished loop succeeds with an empty queue and every edge closed |
| MaximumRewardFifo.Start | src/MaximumReward.java:37-52 | the source alone is queued at distance 0 with one path, every other vertex at infinity |
| MaximumRewardFifo.Compute | src/MaximumReward.java:36-84 | a finished run succeeds with an empty queue and only the source's count set |
| MaximumRewardFifo.ComputeShortest | src/MaximumReward.java:36-84 | a finished run's distances are exactly the shortest walk lengths, for any weights |
| MaximumRewardDijkstra.Improve | src/MaximumReward.java:154-162 | a strictly shorter route to an unsettled neighbour sets its distance and makes u its only predecessor |
| MaximumRewardDijkstra.ImproveKeepsPredsInv | src/MaximumReward.java:154-162 | after the improvement every recorded predecessor is still settled and reached, with an edge whose weight makes up its successor's current tentative distance, and none is listed twice |
| MaximumRewardDijkstra.TieKeepsPredsInv | src/MaximumReward.java:164-168 | adding a tied predecessor keeps every recorded one settled, reached and tight against the current tentative distances |
| MaximumRewardDijkstra.RelaxEdge | src/MaximumReward.java:149-168 | shorter routes replace the predecessors; equal ones add u once; all else is unchanged; settled distances are frozen |
| MaximumRewardDijkstra.RelaxEdgeKeepsRelaxed | src/MaximumReward.java:149-168 | after the edge, it too is relaxed: its head is no farther than through u, and u is recorded on a tie |
| MaximumRewardDijkstra.RelaxFrom | src/MaximumReward.java:145-169 | after the scan every edge out of every settled vertex is relaxed |
| MaximumRewardDijkstra.Settle | src/MaximumReward.java:134-138 | removes and settles an unsettled vertex with the least distance |
| MaximumRewardDijkstra.Step | src/MaximumReward.java:134-169 | settling a vertex and relaxing its edges keeps every settled edge relaxed |
| MaximumRewardDijkstra.Run | src/MaximumReward.java:134-170 | the run settles every vertex with every edge relaxed |
| MaximumRewardDijkstra.Start | src/MaximumReward.java:117-132 | all vertices queued with no predecessors, the source at 0 and the rest at infinity |
| MaximumRewardDijkstra.EdgeShortest | src/MaximumReward.java:149-168 | with non-negative weights, relaxing an edge of the latest settled vertex closes it, raises no distance, keeps settled distances below unsettled ones and keeps every finite distance the length of a walk |
| MaximumRewardDijkstra.ImproveShortest | src/MaximumReward.java:154-162 | the strictly shorter route through u is the length of a walk and stays no smaller than any settled distance |
| MaximumRewardDijkstra.KeepShortest | src/MaximumReward.java:149-168 | an edge that changes no distance is already closed: an unsettled head is no farther than through u, a settled one no farther than u |
| MaximumRewardDijkstra.RelaxFromShortest | src/MaximumReward.java:145-169 | after the scan every edge out of every settled vertex is closed, with the order and the walks kept |
| MaximumRewardDijkstra.SettleShortest | src/MaximumReward.java:134-138 | settling the minimum keeps settled distances at or below unsettled ones and leaves open only the new vertex's edges |
| MaximumRewardDijkstra.StepShortest | src/MaximumReward.java:134-169 | one iteration keeps the order and the walks and closes the settled vertex's edges |
| MaximumRewardDijkstra.RunShortest | src/MaximumReward.java:134-170 | the run ends with every edge closed and every finite distance realised by a walk |
| MaximumRewardDijkstra.StartShortest | src/MaximumReward.java:117-132 | before the loop nothing is settled and the source's distance 0 is the empty walk |
| MaximumRewardDijkstra.PassShortest | src/MaximumReward.java:117-171 | with non-negative weights the pass's distances are exactly the shortest walk lengths, infinite exactly when no walk reaches the vertex |
| MaximumRewardDijkstra.ShortestPathTree | src/MaximumReward.java:117-171 | p is recorded as a predecessor of v exactly when p has a finite distance and an edge from p makes v's distance, with no duplicates; with non-negative weights the distances are the shortest walk lengths |
| MaximumRewardDijkstra.PredsExact | src/MaximumReward.java:117-171 | at the end of a run the predecessor lists are exact: sound and complete |
| MaximumRewardDijkstra.PredNearer | src/MaximumReward.java:154-168 | with positive weights a predecessor is strictly nearer the source |
| MaximumRewardDijkstra.PredChainRises | src/MaximumReward.java:154-168 | distances strictly rise along any chain of predecessor links |
| MaximumRewardDijkstra.PredsAcyclic | src/MaximumReward.java:117-171 | with positive weights the predecessor links form no cycle |
| MaximumRewardCycle.AddEdge | src/MaximumReward.java:292-296 | an undirected edge appends an entry at each end (two at one vertex for a self-loop) and changes no other vertex |
| MaximumRewardCycle.AddEdgeCount | src/MaximumReward.java:292-296 | the multiplicity of each directed edge rises by one per end the new edge contributes |
| MaximumRewardCycle.AddEdgeKeepsSymmetric | src/MaximumReward.java:292-296 | adding undirected edges keeps every edge present equally often in both directions |
| MaximumRewardCycle.NewGraphSymmetric | src/MaximumReward.java:320-326 | the empty graph is symmetric |
| MaximumRewardCycle.Bonus | src/MaximumReward.java:228-230 | a step u -> v earns v's reward exactly when u is one of v's recorded predecessors, and nothing otherwise |
| MaximumRewardCycle.TreeBonus | src/MaximumReward.java:262 | over the Dijkstra pass's tree, a step earns v's reward exactly when u is reached and an edge u -> v is as long as the difference of their distances |
| MaximumRewardCycle.StepRewards | src/MaximumReward.java:178-196 | the per-position reward list: the source's reward, then each step's bonus |
| MaximumRewardCycle.StepRewardsSum | src/MaximumReward.java:178-196 | the per-position rewards add up to the path's reward |
| MaximumRewardCycle.PathRewardSnoc | src/MaximumReward.java:231-238 | extending a path by one step adds exactly that step's bonus |
| MaximumRewardCycle.ProperCycleStep | src/MaximumReward.java:222-243 | each step of a proper cycle follows an adjacency entry; only the last returns to the source |
| MaximumRewardCycle.CoveredViaBlocked | src/MaximumReward.java:222-236 | a continuation into a vertex already on the path, or back to the source too early, closes no proper cycle |
| MaximumRewardCycle.CoveredViaExplored | src/MaximumReward.java:236-242 | exploring a neighbour fully bounds every cycle continuing through it |
| MaximumRewardCycle.CoveredViaClosed | src/MaximumReward.java:212-220 | returning to the source bounds the one cycle that continuation closes |
| MaximumRewardCycle.CoveredAllCycles | src/MaximumReward.java:250-276 | once every continuation of the source is bounded, every proper cycle's reward is bounded |
| MaximumRewardCycle.Gains | src/MaximumReward.java:178-196 | the gain list of a path is each of its vertices' stored gainBonus |
| MaximumRewardCycle.BacktraceLoop | src/MaximumReward.java:187-192 | following cyclePred links back from the i-th vertex rebuilds the whole path and its gains |
| MaximumRewardCycle.Backtrace | src/MaximumReward.java:178-196 | backtracking from the closing vertex yields the path exactly, with the source's reward then each vertex's gain |
| MaximumRewardCycle.ClosingChain | src/MaximumReward.java:178-196 | at a return to the source the cyclePred links spell the cycle and the gains are the step rewards |
| MaximumRewardCycle.Enter | src/MaximumReward.java:236-240 | entering v marks it, links it to u and stores the step's bonus; the record is untouched |
| MaximumRewardCycle.Leave | src/MaximumReward.java:240-243 | leaving v clears its mark, link and bonus; the record is untouched |
| MaximumRewardCycle.EnterVertex | src/MaximumReward.java:231-240 | entering a fresh vertex extends the path by it and shrinks the set of unvisited vertices |
| MaximumRewardCycle.EnterSource | src/MaximumReward.java:231-240 | stepping into the source from a path of two or more vertices closes a proper cycle |
| MaximumRewardCycle.LeaveRestores | src/MaximumReward.java:240-243 | the rollback after the recursive call restores every non-source scratch field |
| MaximumRewardCycle.Explore | src/MaximumReward.java:209-244 | at the source it records the cycle exactly when its reward beats the best so far; elsewhere it bounds every cycle extending the path, restoring the scratch fields |
| MaximumRewardCycle.ExploreFrom | src/MaximumReward.java:222-243 | the loop over adjacency entries k.. bounds every cycle continuing through them |
| MaximumRewardCycle.ExploreEntry | src/MaximumReward.java:228-242 | one taken adjacency entry bounds every cycle continuing through it |
| MaximumRewardCycle.CloseEntry | src/MaximumReward.java:228-242 | an entry back to the source bounds the cycle it closes |
| MaximumRewardCycle.DeepenEntry | src/MaximumReward.java:228-242 | an entry to an unvisited vertex bounds every cycle continuing through it |
| MaximumRewardCycle.EnumerateEntry | src/MaximumReward.java:260-275 | one adjacency entry of the source bounds every cycle starting with it |
| MaximumRewardCycle.SelfLoopEntry | src/MaximumReward.java:260-275 | a self-loop at the source is recorded as the cycle source, source when its reward beats the best so far |
| MaximumRewardCycle.FirstStepEntry | src/MaximumReward.java:260-275 | a first step to another vertex bounds every cycle starting with it |
| MaximumRewardCycle.EnumerateFrom | src/MaximumReward.java:260-275 | the loop over the source's entries k.. bounds every cycle starting with them |
| MaximumRewardCycle.Fresh | src/MaximumReward.java:198-200 | only the source is visited and nothing is recorded (best reward Long.MIN_VALUE) |
| MaximumRewardCycle.RunCycleEnumerate | src/MaximumReward.java:250-276 | every proper cycle's reward is at most the recorded maximum, and the record is consistent |
| MaximumRewardCycle.EnumerationIsBest | src/MaximumReward.java:250-276 | the record is the best cycle: a bound on all proper cycles, itself a cycle the search can close, with per-step rewards summing to the total |
| MaximumRewardCycle.RecordedCycle | src/MaximumReward.java:178-196 | a recorded cycle starts and ends at the source and its per-step rewards sum to the reported maximum |
| MaximumRewardCycle.ComputeMaximumReward | src/MaximumReward.java:278-284 | the result is the best cycle over the predecessor lists of the shortest-path tree |
| MaximumRewardCycle.MaximumRewardIsBest | src/MaximumReward.java:278-284 | without a self-loop at the source, a recorded cycle is a proper cycle of maximal reward; an empty record means no proper cycle beats Long.MIN_VALUE |

## Left out

- The `main` methods, file reading, timing and result printing (including `printNumShortestPath`) are I/O.
- The `Edge` class and the `edges` list are only written, never read by the algorithms.
- The vertex fields no modelled operation reads (`inPath`, `next`, `accumReward`, `hasOutlet`, `cycleReward` and the reverse-edge fields) are not modelled.
- Machine integer widths are not modelled. Distances and rewards are unbounded integers, `Infinity` stands for the maximum value, and `Long.MIN_VALUE` is kept as a constant. This covers three things:
  - `u.dis + weight` overflowing;
  - the narrowing of a `long` distance to `decreaseKey(int newDis)`;
  - `compareTo` computing the difference of two distances.
- VertexMinHeap.BuildHeap: modelled only on a freshly constructed heap, which is the only way the programs call it.
- MaximumRewardDijkstra.Step: uses the corrected `DeleteMin`, like `Settle`. From a settled vertex still at infinity, the model relaxes nothing. The code adds a weight to `Long.MAX_VALUE`; that overflow could only affect vertices not reachable from the source. The code's own skip for them is commented out.
- MaximumRewardDijkstra.Start: starts from cleared `visited` flags. The code resets distances and predecessors but not `visited`, which is clear on a freshly built graph.
- MaximumRewardFifo.Compute: takes a step budget `fuel` and returns `OutOfFuel` when it runs out. The code does not terminate on a negative cycle, because the visit counter is never incremented.
- The FIFO pass's reset of the single-predecessor field `pred` is not modelled, because nothing in that pass reads it.
- NumberShortestPath.Settle, NumberShortestPath.Step, NumberShortestPath.Run and NumberShortestPath.Compute: use the corrected `DeleteMin`. With the code's `deleteMin` a run can settle a vertex twice and never settle another, and still accept (second row of Findings).
- NumberShortestPathProofs.AcceptedRunClosed: holds for runs on the corrected heap only. With the code's `deleteMin`, the Findings graph is accepted with an edge 2 -> 3 that is not closed.
- NumberShortestPathProofs.ComputeShortest: holds for runs on the corrected heap only. On the Findings graph the code accepts with distance 101 for vertex 3, whose shortest distance is 6.
- MaximumRewardDijkstra.Settle, MaximumRewardDijkstra.Run and MaximumRewardDijkstra.ShortestPathTree: use the corrected `DeleteMin`. With the code's `deleteMin` the pass can settle a vertex twice and leave another unsettled, so its distances and predecessor lists can differ from the ones stated here.
- MaximumRewardCycle.ComputeMaximumReward: works over the predecessor lists of the Dijkstra pass on the corrected heap.
- NumberShortestPathCounts.ComputeCounts: states each count as the sum over the vertex's tight entries. It does not prove that this sum is the number of shortest walks. That holds only when the tight entries form no cycle, which positive weights guarantee and zero-weight edges do not.
- NumberShortestPathRuns.ComputeAsDocumented: keeps the distances and counts of the code's run, whatever verdict it gives. What a run that checks for cycles first would compute for a graph with a negative cycle is not specified by the code.
- NumberShortestPath.AddEdge: requires both ends to be vertex ids. The code fails at once on an out-of-range `from`, and an out-of-range `to` fails later when the edge is relaxed. Input validation is outside the core.
- MaximumRewardCycle.RunCycleEnumerate: starts from the initial best-so-far fields. The code never resets `maxReward` between calls, and it is called once per program run.
- MaximumRewardCycle.MaximumRewardIsBest: requires no self-loop at the source. With one, the search may record the two-vertex cycle `source, source` once an earlier return to the source has cleared the source's `visited` flag. `RecordedCycle` and `EnumerationIsBest` still cover that case.

## Findings

| source | as written | input that shows it | evidently intended | confidence | as-written member | corrected member |
|---|---|---|---|---|---|---|
| src/VertexMinHeap.java:105-111 | `deleteMin` moves the last queued id into slot 1 without updating that id's cross-reference `X` | four vertices, heap built, `decreaseKey(1, 0)`, `deleteMin()`, then `decreaseKey(4, 7)`: vertex 4's stale `X` points at slot 4, so 4 ends up queued twice and vertex 2 drops out of the heap | set `X[Q[1]] = 1` after the move, so every queued id's cross-reference names its slot | not executed | VertexMinHeap.DeleteMinAsWrittenLosesVertex | VertexMinHeap.DeleteMinKeepsVertex |
| src/NumberShortestPath.java:30-33 | the shortest-path loop removes vertices with the `deleteMin` above, so a stale cross-reference reaches the run | source 1 and edges 1 -> 4 (weight 1), 1 -> 2 (5), 4 -> 3 (100), 2 -> 3 (1): vertex 4 is removed twice and vertex 2 never, and the run returns true with distance 101 and path count 2 for vertex 3, whose shortest distance is 6 | every vertex removed exactly once in order of distance, so an accepted run's distances are shortest | not executed | VertexMinHeap.DeleteMinAsWrittenSettlesTwice | NumberShortestPathProofs.ComputeShortest |
| src/NumberShortestPath.java:62-66 | documented (lines 17-21) to return false exactly when the graph has a cycle of weight zero or less, but the test rejects at an edge into a settled non-source vertex that is not strictly farther through the edge | source 1, edges 1 -> 2 (1), 1 -> 3 (2), 3 -> 2 (5): no cycle at all, yet settling 3 finds vertex 2 at 1 <= 2 + 5 and returns false | true for every graph without a cycle of weight zero or less | not executed | NumberShortestPathRuns.RejectsAcyclicGraph | NumberShortestPathRuns.ComputeAsDocumented |
| src/NumberShortestPath.java:62-66 | a negative cycle away from the source passes the test when its edges lower no settled distance enough | source 1, edges 1 -> 2 (1), 2 -> 3 (1), 3 -> 2 (-5): the cycle 2 -> 3 -> 2 weighs -4, yet the run returns true with distances 0, 1, 2 | false for every graph with a negative cycle | not executed | NumberShortestPathRuns.AcceptsNegativeCycle | NumberShortestPathRuns.ComputeAsDocumented |
| src/NumberShortestPath.java:62-66 | edges into the source are exempt from the test, so no cycle through the source is ever caught | source 1, edges 1 -> 2 (0), 2 -> 1 (0): the cycle weighs 0, yet the run returns true | false for every graph with a zero-weight cycle | not executed | NumberShortestPathRuns.AcceptsZeroCycleThroughSource | NumberShortestPathRuns.ComputeAsDocumented |

=== FILE: cycle_check.dfy ===
/**
  Cycles of total weight zero or less, and a procedure that decides whether
  a graph has one.

  The procedure computes, for every vertex `v` and every `k` from 1 to the
  number of vertices minus one, the least weight of a closed walk of
  exactly `k` edges at `v`. That bound on `k` is enough: a closed walk of
  weight zero or less that is longer passes some vertex twice, and one of
  the two closed walks it splits into there again weighs zero or less.
*/
module NonPositiveCycles {
  import opened Vertices

  /** A walk of at least one edge that ends where it starts. */
  ghost predicate ClosedWalk(g: Graph, v: nat, cs: seq<nat>) {
    ValidWalk(g, v, cs) && |cs| >= 1 && WalkEnd(g, v, cs) == v
  }

  /** Some closed walk has a total weight of zero or less. */
  ghost predicate NonPositiveCycle(g: Graph) {
    exists v, cs :: IsVertex(g, v) && ClosedWalk(g, v, cs) && WalkLength(g, v, cs) <= 0
  }

  /** The smaller of two distances. */
  function Min(a: Dist, b: Dist): (m: Dist)
    ensures Le(m, a) && Le(m, b) && (m == a || m == b)
  {
    if Less(b, a) then b else a
  }

  /** The least weight of a walk of exactly `k` edges from `u` to `v`;
      `Infinity` when there is none. */
  function Least(g: Graph, u: nat, v: nat, k: nat): Dist
    requires WellFormed(g) && u < |g|
    decreases k, 0
  {
    if k == 0 then (if u == v then Finite(0) else Infinity)
    else LeastVia(g, u, v, k - 1, |g[u].adj|)
  }

  /** The least weight of a walk from `u` to `v` that takes one of `u`'s
      first `j` entries and then `k` more edges. */
  function LeastVia(g: Graph, u: nat, v: nat, k: nat, j: nat): Dist
    requires WellFormed(g) && u < |g| && j <= |g[u].adj|
    decreases k, 1, j
  {
    if j == 0 then Infinity
    else Min(LeastVia(g, u, v, k, j - 1), Add(Least(g, g[u].adj[j - 1], v, k), g[u].adjWeight[j - 1]))
  }

  /** A finite least weight is the weight of an actual walk of `k` edges. */
  lemma {:induction false} LeastWalk(g: Graph, u: nat, v: nat, k: nat) returns (ks: seq<nat>)
    requires WellFormed(g) && u < |g| && Least(g, u, v, k).Finite?
    ensures ValidWalk(g, u, ks) && |ks| == k && WalkEnd(g, u, ks) == v
    ensures WalkLength(g, u, ks) == Least(g, u, v, k).value
    decreases k, 0
  {
    if k == 0 {
      ks := [];
    } else {
      ks := LeastViaWalk(g, u, v, k - 1, |g[u].adj|);
    }
  }

  lemma {:induction false} LeastViaWalk(g: Graph, u: nat, v: nat, k: nat, j: nat) returns (ks: seq<nat>)
    requires WellFormed(g) && u < |g| && j <= |g[u].adj| && LeastVia(g, u, v, k, j).Finite?
    ensures ValidWalk(g, u, ks) && |ks| == k + 1 && WalkEnd(g, u, ks) == v
    ensures WalkLength(g, u, ks) == LeastVia(g, u, v, k, j).value
    decreases k, 1, j
  {
    var i := j - 1;
    var t := g[u].adj[i];
    if LeastVia(g, u, v, k, j) == Add(Least(g, t, v, k), g[u].adjWeight[i]) {
      var rest := LeastWalk(g, t, v, k);
      ks := [i] + rest;
      assert ks[1..] == rest;
    } else {
      ks := LeastViaWalk(g, u, v, k, i);
    }
  }

  /** Taking entry `i` first is no better than the least over the first `j` entries. */
  lemma {:induction false} LeastViaBelow(g: Graph, u: nat, v: nat, k: nat, j: nat, i: nat)
    requires WellFormed(g) && u < |g| && i < j <= |g[u].adj|
    ensures Le(LeastVia(g, u, v, k, j), Add(Least(g, g[u].adj[i], v, k), g[u].adjWeight[i]))
    decreases j
  {
    if i < j - 1 {
      LeastViaBelow(g, u, v, k, j - 1, i);
      LeTransitive(LeastVia(g, u, v, k, j), LeastVia(g, u, v, k, j - 1),
                   Add(Least(g, g[u].adj[i], v, k), g[u].adjWeight[i]));
    }
  }

  /** No walk of `k` edges from `u` to `v` weighs less than the least weight. */
  lemma {:induction false} LeastBelow(g: Graph, u: nat, v: nat, ks: seq<nat>)
    requires WellFormed(g) && ValidWalk(g, u, ks) && WalkEnd(g, u, ks) == v
    ensures Le(Least(g, u, v, |ks|), Finite(WalkLength(g, u, ks)))
    decreases |ks|
  {
    if ks != [] {
      var i := ks[0];
      var t := g[u].adj[i];
      var w := g[u].adjWeight[i];
      LeastBelow(g, t, v, ks[1..]);
      LeastViaBelow(g, u, v, |ks| - 1, |g[u].adj|, i);
      assert Le(Add(Least(g, t, v, |ks| - 1), w), Finite(WalkLength(g, u, ks)));
      LeTransitive(Least(g, u, v, |ks|), Add(Least(g, t, v, |ks| - 1), w), Finite(WalkLength(g, u, ks)));
    }
  }

  /** Two walks, the second starting where the first ends, make one walk. */
  lemma {:induction false} WalkAppend(g: Graph, s: nat, a: seq<nat>, b: seq<nat>)
    requires WellFormed(g) && ValidWalk(g, s, a) && ValidWalk(g, WalkEnd(g, s, a), b)
    ensures ValidWalk(g, s, a + b) && WalkEnd(g, s, a + b) == WalkEnd(g, WalkEnd(g, s, a), b)
    ensures WalkLength(g, s, a + b) == WalkLength(g, s, a) + WalkLength(g, WalkEnd(g, s, a), b)
    decreases |a|
  {
    if a == [] {
      assert a + b == b;
    } else {
      assert (a + b)[1..] == a[1..] + b;
      WalkAppend(g, g[s].adj[a[0]], a[1..], b);
    }
  }

  /** A walk cut at position `i` is two walks, the second starting where the first ends. */
  lemma {:induction false} WalkSplit(g: Graph, s: nat, ks: seq<nat>, i: nat)
    requires WellFormed(g) && ValidWalk(g, s, ks) && i <= |ks|
    ensures ValidWalk(g, s, ks[..i]) && ValidWalk(g, WalkEnd(g, s, ks[..i]), ks[i..])
    ensures WalkEnd(g, s, ks) == WalkEnd(g, WalkEnd(g, s, ks[..i]), ks[i..])
    ensures WalkLength(g, s, ks) == WalkLength(g, s, ks[..i]) + WalkLength(g, WalkEnd(g, s, ks[..i]), ks[i..])
    decreases i
  {
    if i == 0 {
      assert ks[..0] == [] && ks[0..] == ks;
    } else {
      var t := g[s].adj[ks[0]];
      var pre, rest := ks[..i], ks[1..];
      WalkSplit(g, t, rest, i - 1);
      assert pre[0] == ks[0] && pre[1..] == rest[..i - 1];
      assert rest[i - 1..] == ks[i..];
      var m := WalkEnd(g, t, rest[..i - 1]);
      assert ValidWalk(g, s, pre);
      assert WalkEnd(g, s, pre) == m;
      assert WalkLength(g, s, pre) == g[s].adjWeight[ks[0]] + WalkLength(g, t, rest[..i - 1]);
    }
  }

  /** Distinct values drawn from `1..n-1` number at most `n - 1`. */
  lemma {:induction false} DistinctBound(s: seq<nat>, n: nat)
    requires n >= 1
    requires forall p :: 0 <= p < |s| ==> 1 <= s[p] < n
    requires forall p, q :: 0 <= p < q < |s| ==> s[p] != s[q]
    ensures |s| <= n - 1
    decreases |s|
  {
    if s != [] {
      var x := s[|s| - 1];
      var s' := seq(|s| - 1, a requires 0 <= a < |s| - 1 => if s[a] > x then s[a] - 1 else s[a]);
      DistinctBound(s', n - 1);
    }
  }

  /** The vertices a walk leaves from, in order. */
  ghost function Departures(g: Graph, s: nat, ks: seq<nat>): (r: seq<nat>)
    requires WellFormed(g) && ValidWalk(g, s, ks)
    ensures |r| == |ks|
    decreases |ks|
  {
    if ks == [] then [] else [s] + Departures(g, g[s].adj[ks[0]], ks[1..])
  }

  /** Step `p` of a walk leaves from where the first `p` steps end. */
  lemma {:induction false} DepartureAt(g: Graph, s: nat, ks: seq<nat>, p: nat)
    requires WellFormed(g) && IsVertex(g, s) && ValidWalk(g, s, ks) && p < |ks|
    ensures ValidWalk(g, s, ks[..p]) && Departures(g, s, ks)[p] == WalkEnd(g, s, ks[..p])
    ensures IsVertex(g, Departures(g, s, ks)[p])
    decreases p
  {
    var t := g[s].adj[ks[0]];
    if p == 0 {
      assert ks[..0] == [];
    } else {
      DepartureAt(g, t, ks[1..], p - 1);
      assert ks[..p][1..] == ks[1..][..p - 1];
    }
  }

  /** A closed walk of weight zero or less with at least as many edges as
      there are vertices splits into a shorter one of weight zero or less. */
  lemma {:induction false} ShortCycle(g: Graph, v: nat, cs: seq<nat>) returns (x: nat, ds: seq<nat>)
    requires WellFormed(g) && IsVertex(g, v) && ClosedWalk(g, v, cs) && WalkLength(g, v, cs) <= 0
    ensures IsVertex(g, x) && ClosedWalk(g, x, ds) && WalkLength(g, x, ds) <= 0 && |ds| < |g|
    decreases |cs|
  {
    if |cs| < |g| {
      x, ds := v, cs;
    } else {
      var vs := Departures(g, v, cs);
      forall p | 0 <= p < |vs| ensures 1 <= vs[p] < |g| {
        DepartureAt(g, v, cs, p);
      }
      if forall p, q :: 0 <= p < q < |vs| ==> vs[p] != vs[q] {
        DistinctBound(vs, |g|);
        assert false;
      }
      var i, j :| 0 <= i < j < |vs| && vs[i] == vs[j];
      x, ds := SplitCycle(g, v, cs, i, j);
    }
  }

  /** Cutting a closed walk where it passes the same vertex at steps `i`
      and `j`: either the loop between them or the rest weighs zero or less. */
  lemma {:induction false} SplitCycle(g: Graph, v: nat, cs: seq<nat>, i: nat, j: nat) returns (x: nat, ds: seq<nat>)
    requires WellFormed(g) && IsVertex(g, v) && ClosedWalk(g, v, cs) && WalkLength(g, v, cs) <= 0
    requires i < j < |cs| && Departures(g, v, cs)[i] == Departures(g, v, cs)[j]
    ensures IsVertex(g, x) && ClosedWalk(g, x, ds) && WalkLength(g, x, ds) <= 0 && |ds| < |g|
    decreases |cs|, 0
  {
    DepartureAt(g, v, cs, i);
    DepartureAt(g, v, cs, j);
    var y := WalkEnd(g, v, cs[..i]);
    WalkSplit(g, v, cs, j);
    WalkSplit(g, v, cs[..j], i);
    assert cs[..j][..i] == cs[..i];
    var a, b, c := cs[..i], cs[..j][i..], cs[j..];
    if WalkLength(g, y, b) <= 0 {
      x, ds := ShortCycle(g, y, b);
    } else {
      WalkAppend(g, v, a, c);
      x, ds := ShortCycle(g, v, a + c);
    }
  }

  /** Decides whether the graph has a cycle of total weight zero or less. */
  function HasNonPositiveCycle(g: Graph): (b: bool)
    requires WellFormed(g)
    ensures b <==> NonPositiveCycle(g)
  {
    DecideSound(g);
    DecideComplete(g);
    exists v, k :: 1 <= v < |g| && 1 <= k < |g| && Le(Least(g, v, v, k), Finite(0))
  }

  lemma DecideSound(g: Graph)
    requires WellFormed(g)
    ensures (exists v, k :: 1 <= v < |g| && 1 <= k < |g| && Le(Least(g, v, v, k), Finite(0))) ==> NonPositiveCycle(g)
  {
    if v, k :| 1 <= v < |g| && 1 <= k < |g| && Le(Least(g, v, v, k), Finite(0)) {
      var cs := LeastWalk(g, v, v, k);
      assert ClosedWalk(g, v, cs);
    }
  }

  lemma DecideComplete(g: Graph)
    requires WellFormed(g)
    ensures NonPositiveCycle(g) ==> exists v, k :: 1 <= v < |g| && 1 <= k < |g| && Le(Least(g, v, v, k), Finite(0))
  {
    if NonPositiveCycle(g) {
      var v, cs :| IsVertex(g, v) && ClosedWalk(g, v, cs) && WalkLength(g, v, cs) <= 0;
      var x, ds := ShortCycle(g, v, cs);
      LeastBelow(g, x, x, ds);
      LeTransitive(Least(g, x, x, |ds|), Finite(WalkLength(g, x, ds)), Finite(0));
    }
  }

  /** Numbering the vertices so that every edge goes up rules out every cycle. */
  lemma RankedHasNoCycle(g: Graph, rank: seq<int>)
    requires WellFormed(g) && |rank| == |g|
    requires forall u, j :: 0 <= u < |g| && 0 <= j < |g[u].adj| ==> rank[u] < rank[g[u].adj[j]]
    ensures forall v, cs :: IsVertex(g, v) && ValidWalk(g, v, cs) && |cs| >= 1 ==> WalkEnd(g, v, cs) != v
    ensures !NonPositiveCycle(g)
  {
    forall v, cs | IsVertex(g, v) && ValidWalk(g, v, cs) && |cs| >= 1
      ensures rank[v] < rank[WalkEnd(g, v, cs)]
    {
      WalkRises(g, rank, v, cs);
    }
  }

  lemma {:induction false} WalkRises(g: Graph, rank: seq<int>, s: nat, ks: seq<nat>)
    requires WellFormed(g) && |rank| == |g|
    requires forall u, j :: 0 <= u < |g| && 0 <= j < |g[u].adj| ==> rank[u] < rank[g[u].adj[j]]
    requires ValidWalk(g, s, ks) && |ks| >= 1
    ensures rank[s] < rank[WalkEnd(g, s, ks)]
    decreases |ks|
  {
    if |ks| > 1 {
      WalkRises(g, rank, g[s].adj[ks[0]], ks[1..]);
    }
  }
}

=== FILE: heap.dfy ===
/**
  The indexed binary min-heap over vertex ids.

  `q` is the heap proper, 1-indexed: slots `1..size` hold the ids still
  queued, and slot 0 is the sentinel `PercolateUp` loads with the moving id.
  `x` is the cross-reference table: `x[v]` is the slot of id `v`. The keys
  are the vertices' distances, which live outside the heap and are passed
  in as `keys` (indexed by vertex id).
*/
module VertexMinHeap {
  import opened Vertices

  datatype Heap = Heap(q: seq<nat>, x: seq<nat>, size: nat)

  /** A heap as the constructor leaves it before `BuildHeap`. */
  function NewHeap(n: nat): (h: Heap)
    ensures h.size == n && |h.q| == 1 && |h.x| == 1
  {
    Heap([0], [0], n)
  }

  /** Both tables have a slot per vertex id and every stored id is in range. */
  predicate Shape(h: Heap, n: nat) {
    && |h.q| == n + 1 && |h.x| == n + 1 && h.size <= n
    && (forall i :: 0 <= i < |h.q| ==> h.q[i] <= n)
  }

  /** The heap and the key table agree on the number of vertices. */
  predicate Fits(h: Heap, keys: seq<Dist>) {
    |keys| >= 1 && Shape(h, |keys| - 1)
  }

  /** Every occupied slot holds a real id whose cross-reference points back to it. */
  predicate XRef(h: Heap) {
    forall i :: 1 <= i <= h.size && i < |h.q| ==>
      1 <= h.q[i] < |h.x| && h.x[h.q[i]] == i
  }

  /** Id `v` is queued: its cross-reference names an occupied slot holding `v`. */
  predicate InHeap(h: Heap, v: int) {
    0 <= v < |h.x| && 1 <= h.x[v] <= h.size && h.x[v] < |h.q| && h.q[h.x[v]] == v
  }

  /** The ids in the occupied slots. */
  function Items(h: Heap): seq<nat>
    requires h.size < |h.q|
  {
    h.q[1..h.size + 1]
  }

  /** Heap order for every parent slot `p >= lo` except `p == skip`
      (`skip == 0` excludes nothing). */
  predicate OrderedFrom(h: Heap, keys: seq<Dist>, lo: nat, skip: nat)
    requires Fits(h, keys)
  {
    forall i :: 2 <= i <= h.size && lo <= i / 2 && i / 2 != skip ==>
      Le(keys[h.q[i / 2]], keys[h.q[i]])
  }

  /** Full heap order: no slot's key is below its parent's. */
  predicate Ordered(h: Heap, keys: seq<Dist>)
    requires Fits(h, keys)
  {
    OrderedFrom(h, keys, 1, 0)
  }

  lemma InHeapIffItem(h: Heap, v: nat)
    requires XRef(h) && h.size < |h.q|
    ensures InHeap(h, v) <==> v in Items(h)
  {
    if v in Items(h) {
      var i :| 0 <= i < |Items(h)| && Items(h)[i] == v;
      assert h.q[i + 1] == v;
    }
  }

  function Swap(s: seq<nat>, i: nat, j: nat): (r: seq<nat>)
    requires i < |s| && j < |s|
    ensures |r| == |s| && r[i] == s[j] && r[j] == s[i]
    ensures forall k :: 0 <= k < |s| && k != i && k != j ==> r[k] == s[k]
  {
    s[i := s[j]][j := s[i]]
  }

  lemma SwapKeepsItems(h: Heap, i: nat, j: nat, r: Heap)
    requires 1 <= i <= h.size && 1 <= j <= h.size && h.size < |h.q|
    requires r.q == Swap(h.q, i, j) && r.size == h.size
    ensures multiset(Items(r)) == multiset(Items(h))
  {
    var t := Items(h);
    var t' := t[i - 1 := t[j - 1]][j - 1 := t[i - 1]];
    assert Items(r) == t' by {
      assert |Items(r)| == |t'|;
      forall k | 0 <= k < |t'| ensures Items(r)[k] == t'[k] {
        assert Items(r)[k] == r.q[k + 1];
      }
    }
  }

  lemma ExchangeKeepsXRef(h: Heap, i: nat, j: nat, r: Heap)
    requires |h.q| >= 1 && Shape(h, |h.q| - 1) && XRef(h)
    requires 1 <= i <= h.size && 1 <= j <= h.size
    requires r.q == Swap(h.q, i, j) && r.size == h.size
    requires r.x == h.x[r.q[i] := i][r.q[j] := j]
    ensures XRef(r)
  {
    assert h.x[h.q[i]] == i && h.x[h.q[j]] == j;
    forall k | 1 <= k <= r.size && k < |r.q|
      ensures 1 <= r.q[k] < |r.x| && r.x[r.q[k]] == k
    {
      if k != i && k != j {
        assert r.q[k] == h.q[k] && h.x[h.q[k]] == k;
      }
    }
  }

  /** Swaps two slots and points both ids' cross-references at their new slots. */
  function Exchange(h: Heap, i: nat, j: nat): (r: Heap)
    requires |h.q| >= 1 && Shape(h, |h.q| - 1) && i < |h.q| && j < |h.q|
    ensures Shape(r, |h.q| - 1) && r.size == h.size
    ensures r.q == Swap(h.q, i, j)
    ensures r.x[r.q[j]] == j
    ensures h.q[i] != h.q[j] ==> r.x[r.q[i]] == i
    ensures forall v :: 0 <= v < |h.x| && v != h.q[i] && v != h.q[j] ==> r.x[v] == h.x[v]
    ensures XRef(h) && 1 <= i <= h.size && 1 <= j <= h.size ==>
      XRef(r) && multiset(Items(r)) == multiset(Items(h))
  {
    var q := Swap(h.q, i, j);
    var x := h.x[q[i] := i][q[j] := j];
    var r := Heap(q, x, h.size);
    ExchangeKeeps(h, i, j, r);
    r
  }

  /** Exchanging two queued slots of a consistent heap keeps it consistent
      and keeps its queued ids. */
  lemma ExchangeKeeps(h: Heap, i: nat, j: nat, r: Heap)
    requires |h.q| >= 1 && Shape(h, |h.q| - 1) && i < |h.q| && j < |h.q|
    requires r.q == Swap(h.q, i, j) && r.size == h.size
    requires r.x == h.x[r.q[i] := i][r.q[j] := j]
    ensures XRef(h) && 1 <= i <= h.size && 1 <= j <= h.size ==>
      XRef(r) && multiset(Items(r)) == multiset(Items(h))
  {
    if XRef(h) && 1 <= i <= h.size && 1 <= j <= h.size {
      ExchangeKeepsXRef(h, i, j, r);
      SwapKeepsItems(h, i, j, r);
    }
  }

  /** Sifts slot `hole` down, always towards the child with the strictly
      smaller key, while that child is strictly smaller. */
  function PercolateDown(h: Heap, keys: seq<Dist>, hole: nat): (r: Heap)
    requires Fits(h, keys) && 1 <= hole
    ensures Fits(r, keys) && r.size == h.size
    ensures forall k :: (k == 0 || h.size < k < |h.q|) ==> r.q[k] == h.q[k]
    ensures XRef(h) ==> XRef(r) && multiset(Items(r)) == multiset(Items(h))
    decreases h.size - hole
  {
    if hole * 2 > h.size then h
    else
      var child := SmallerChild(h, keys, hole);
      if Less(keys[h.q[child]], keys[h.q[hole]])
      then PercolateDown(Exchange(h, hole, child), keys, child)
      else h
  }

  /** The sift-up loop once slot 0 holds the moving id; returns the final slot. */
  function SiftUp(h: Heap, keys: seq<Dist>, hole: nat): (r: (Heap, nat))
    requires Fits(h, keys) && 1 <= hole < |h.q| && h.q[0] == h.q[hole]
    ensures Fits(r.0, keys) && r.0.size == h.size
    ensures 1 <= r.1 <= hole && r.0.q[r.1] == h.q[hole] && r.0.q[0] == h.q[0]
    ensures XRef(h) && hole <= h.size ==>
      XRef(r.0) && multiset(Items(r.0)) == multiset(Items(h))
    decreases hole
  {
    if Less(keys[h.q[hole]], keys[h.q[hole / 2]])
    then SiftUp(Exchange(h, hole, hole / 2), keys, hole / 2)
    else (h, hole)
  }

  /** Loads the sentinel slot 0 with the moving id, then sifts it up. Since the
      comparison at slot 1 is against the same id, the loop stops there and
      never exchanges into slot 0. */
  function PercolateUp(h: Heap, keys: seq<Dist>, hole: nat): (r: (Heap, nat))
    requires Fits(h, keys) && 1 <= hole < |h.q|
    ensures Fits(r.0, keys) && r.0.size == h.size
    ensures 1 <= r.1 <= hole && r.0.q[r.1] == h.q[hole] && r.0.q[0] == h.q[hole]
    ensures XRef(h) && hole <= h.size ==>
      XRef(r.0) && multiset(Items(r.0)) == multiset(Items(h))
  {
    var h0 := h.(q := h.q[0 := h.q[hole]]);
    LoadSentinel(h, hole);
    SiftUp(h0, keys, hole)
  }

  lemma LoadSentinel(h: Heap, hole: nat)
    requires |h.q| >= 1 && Shape(h, |h.q| - 1) && 1 <= hole < |h.q|
    ensures Shape(h.(q := h.q[0 := h.q[hole]]), |h.q| - 1)
    ensures XRef(h) ==> XRef(h.(q := h.q[0 := h.q[hole]]))
    ensures Items(h.(q := h.q[0 := h.q[hole]])) == Items(h)
  {
    var h0 := h.(q := h.q[0 := h.q[hole]]);
    assert forall i :: 1 <= i < |h.q| ==> h0.q[i] == h.q[i];
  }

  function IsEmpty(h: Heap): (b: bool)
    ensures b <==> h.size == 0
    ensures XRef(h) && h.size < |h.q| ==> (b <==> forall v :: !InHeap(h, v))
  {
    assert XRef(h) && 1 <= h.size < |h.q| ==> InHeap(h, h.q[1]);
    h.size == 0
  }

  /** The two children of slot `p` that exist. */
  predicate ChildOf(c: int, p: int, size: int) {
    (c == 2 * p || c == 2 * p + 1) && c <= size
  }

  /** The child `PercolateDown` compares against: the right one only when it
      exists and is strictly smaller. */
  function SmallerChild(h: Heap, keys: seq<Dist>, p: nat): (c: nat)
    requires Fits(h, keys) && 1 <= p && p * 2 <= h.size
    ensures ChildOf(c, p, h.size) && c / 2 == p
    ensures forall s :: ChildOf(s, p, h.size) ==> Le(keys[h.q[c]], keys[h.q[s]])
  {
    if p * 2 != h.size && Less(keys[h.q[p * 2 + 1]], keys[h.q[p * 2]])
    then p * 2 + 1 else p * 2
  }

  /** After exchanging `p` with its smaller child `c`, the sift-down
      precondition holds one level lower. */
  lemma PercolateDownStep(h: Heap, keys: seq<Dist>, k: nat, p: nat, c: nat)
    requires Fits(h, keys) && 1 <= k <= p && p * 2 <= h.size
    requires OrderedFrom(h, keys, k, p)
    requires p != k ==> (k <= p / 2 &&
      forall c :: ChildOf(c, p, h.size) ==> Le(keys[h.q[p / 2]], keys[h.q[c]]))
    requires c == SmallerChild(h, keys, p) && Less(keys[h.q[c]], keys[h.q[p]])
    ensures OrderedFrom(Exchange(h, p, c), keys, k, c)
    ensures forall cc :: ChildOf(cc, c, h.size) ==>
      Le(keys[Exchange(h, p, c).q[c / 2]], keys[Exchange(h, p, c).q[cc]])
  {
    var h' := Exchange(h, p, c);
    forall i | 2 <= i <= h.size && k <= i / 2 && i / 2 != c
      ensures Le(keys[h'.q[i / 2]], keys[h'.q[i]])
    {
      if i / 2 == p {
        assert ChildOf(i, p, h.size);
      } else if i == p {
        assert ChildOf(c, p, h.size);
      } else {
        assert i != c;
      }
    }
    forall cc | ChildOf(cc, c, h.size)
      ensures Le(keys[h'.q[c / 2]], keys[h'.q[cc]])
    {
      assert cc / 2 == c;
    }
  }

  /** Sifting down from `p` restores heap order over all parents `>= k`,
      provided order held everywhere from `k` except at `p`, and (when `p` has
      moved below `k`) `p`'s parent is no larger than `p`'s children. */
  lemma {:induction false} PercolateDownRestores(h: Heap, keys: seq<Dist>, k: nat, p: nat)
    requires Fits(h, keys) && 1 <= k <= p
    requires OrderedFrom(h, keys, k, p)
    requires p != k ==> (k <= p / 2 &&
      forall c :: ChildOf(c, p, h.size) ==> Le(keys[h.q[p / 2]], keys[h.q[c]]))
    ensures OrderedFrom(PercolateDown(h, keys, p), keys, k, 0)
    decreases h.size - p
  {
    if p * 2 > h.size {
      forall i | 2 <= i <= h.size && k <= i / 2
        ensures Le(keys[h.q[i / 2]], keys[h.q[i]])
      {
        assert i / 2 != p;
      }
    } else {
      var c := SmallerChild(h, keys, p);
      if Less(keys[h.q[c]], keys[h.q[p]]) {
        PercolateDownStep(h, keys, k, p, c);
        PercolateDownRestores(Exchange(h, p, c), keys, k, c);
      } else {
        forall i | 2 <= i <= h.size && k <= i / 2
          ensures Le(keys[h.q[i / 2]], keys[h.q[i]])
        {
          if i / 2 == p {
            assert ChildOf(i, p, h.size);
            LeTransitive(keys[h.q[p]], keys[h.q[c]], keys[h.q[i]]);
          }
        }
      }
    }
  }

  /** Sifting up from `p` restores full heap order, provided order held
      everywhere except between `p` and its parent, and `p`'s parent is no
      larger than `p`'s children. */
  lemma {:induction false} SiftUpRestores(h: Heap, keys: seq<Dist>, p: nat)
    requires Fits(h, keys) && 1 <= p <= h.size && h.q[0] == h.q[p]
    requires forall i :: 2 <= i <= h.size && i != p ==> Le(keys[h.q[i / 2]], keys[h.q[i]])
    requires p >= 2 ==> forall c :: ChildOf(c, p, h.size) ==> Le(keys[h.q[p / 2]], keys[h.q[c]])
    ensures Ordered(SiftUp(h, keys, p).0, keys)
    decreases p
  {
    if Less(keys[h.q[p]], keys[h.q[p / 2]]) {
      SiftUpStep(h, keys, p);
      SiftUpRestores(Exchange(h, p, p / 2), keys, p / 2);
    }
  }

  /** Exchanging `p` with its larger parent moves the one possible violation up a level. */
  lemma SiftUpStep(h: Heap, keys: seq<Dist>, p: nat)
    requires Fits(h, keys) && 1 <= p <= h.size && h.q[0] == h.q[p]
    requires forall i :: 2 <= i <= h.size && i != p ==> Le(keys[h.q[i / 2]], keys[h.q[i]])
    requires p >= 2 ==> forall c :: ChildOf(c, p, h.size) ==> Le(keys[h.q[p / 2]], keys[h.q[c]])
    requires Less(keys[h.q[p]], keys[h.q[p / 2]])
    ensures var h' := Exchange(h, p, p / 2);
      && (forall i :: 2 <= i <= h.size && i != p / 2 ==> Le(keys[h'.q[i / 2]], keys[h'.q[i]]))
      && (p / 2 >= 2 ==> forall c :: ChildOf(c, p / 2, h.size) ==> Le(keys[h'.q[p / 2 / 2]], keys[h'.q[c]]))
  {
    var pp := p / 2;
    var h' := Exchange(h, p, pp);
    forall i | 2 <= i <= h.size && i != pp
      ensures Le(keys[h'.q[i / 2]], keys[h'.q[i]])
    {
      if i == p {
      } else if i / 2 == pp {
        LeTransitive(keys[h.q[p]], keys[h.q[pp]], keys[h.q[i]]);
      } else if i / 2 == p {
        assert ChildOf(i, p, h.size);
      }
    }
    if pp >= 2 {
      forall c | ChildOf(c, pp, h.size)
        ensures Le(keys[h'.q[pp / 2]], keys[h'.q[c]])
      {
        assert c / 2 == pp;
        if c != p {
          assert Le(keys[h.q[pp / 2]], keys[h.q[pp]]);
          assert Le(keys[h.q[pp]], keys[h.q[c]]);
          LeTransitive(keys[h.q[pp / 2]], keys[h.q[pp]], keys[h.q[c]]);
        }
      }
    }
  }

  /** In an ordered heap the root holds a smallest key. */
  lemma {:induction false} RootIsMin(h: Heap, keys: seq<Dist>, i: nat)
    requires Fits(h, keys) && Ordered(h, keys) && 1 <= i <= h.size
    ensures Le(keys[h.q[1]], keys[h.q[i]])
    decreases i
  {
    if i > 1 {
      RootIsMin(h, keys, i / 2);
      LeTransitive(keys[h.q[1]], keys[h.q[i / 2]], keys[h.q[i]]);
    }
  }

  /** The root is a queued id; and when `s` is queued and is the only id
      with a finite key, the root is `s`. */
  lemma RootIsSoleFinite(h: Heap, keys: seq<Dist>, s: nat)
    requires Fits(h, keys) && XRef(h) && Ordered(h, keys) && h.size >= 1
    ensures InHeap(h, h.q[1]) && 1 <= h.q[1] < |keys|
    ensures InHeap(h, s) && keys[s].Finite? && (forall v :: 1 <= v < |keys| && v != s ==> keys[v] == Infinity)
      ==> h.q[1] == s
  {
    assert InHeap(h, h.q[1]);
    if InHeap(h, s) && keys[s].Finite? && h.q[1] != s {
      RootIsMin(h, keys, h.x[s]);
    }
  }

  lemma DecreaseKeyOrder(h: Heap, keys: seq<Dist>, index: nat, newDis: Dist)
    requires Fits(h, keys) && 1 <= index < |keys|
    requires XRef(h) && InHeap(h, index) && Ordered(h, keys)
    requires Le(newDis, keys[index])
    ensures Ordered(PercolateUp(h, keys[index := newDis], h.x[index]).0, keys[index := newDis])
  {
    var a := h.x[index];
    var keys' := keys[index := newDis];
    var h0 := h.(q := h.q[0 := h.q[a]]);
    assert forall j :: 1 <= j <= h.size && h.q[j] == index ==> j == a;
    forall i | 2 <= i <= h0.size && i != a
      ensures Le(keys'[h0.q[i / 2]], keys'[h0.q[i]])
    {
      if i / 2 == a {
        LeTransitive(newDis, keys[index], keys[h.q[i]]);
      }
    }
    if a >= 2 {
      forall c | ChildOf(c, a, h0.size)
        ensures Le(keys'[h0.q[a / 2]], keys'[h0.q[c]])
      {
        assert c / 2 == a;
        LeTransitive(keys[h.q[a / 2]], keys[index], keys[h.q[c]]);
      }
    }
    SiftUpRestores(h0, keys', a);
  }

  /** Lowers the key of `index` and sifts it up from its recorded slot; a
      request to raise the key is ignored. */
  function DecreaseKey(h: Heap, keys: seq<Dist>, index: nat, newDis: Dist): (r: (Heap, seq<Dist>))
    requires Fits(h, keys) && 1 <= index < |keys| && 1 <= h.x[index] < |h.q|
    ensures Fits(r.0, r.1) && r.0.size == h.size
    ensures Less(keys[index], newDis) ==> r == (h, keys)
    ensures !Less(keys[index], newDis) ==> r.1 == keys[index := newDis]
    ensures XRef(h) && InHeap(h, index) ==>
      && XRef(r.0) && multiset(Items(r.0)) == multiset(Items(h))
      && (forall v :: InHeap(r.0, v) <==> InHeap(h, v))
    ensures XRef(h) && InHeap(h, index) && Ordered(h, keys) ==> Ordered(r.0, r.1)
  {
    var a := h.x[index];
    if Less(keys[index], newDis) then (h, keys)
    else
      var keys' := keys[index := newDis];
      DecreaseKeyKeeps(h, keys, index, newDis);
      (PercolateUp(h, keys', a).0, keys')
  }

  /** Lowering a queued id's key and percolating it up keeps the heap
      consistent, keeps its members, and keeps an ordered heap ordered. */
  lemma DecreaseKeyKeeps(h: Heap, keys: seq<Dist>, index: nat, newDis: Dist)
    requires Fits(h, keys) && 1 <= index < |keys| && 1 <= h.x[index] < |h.q|
    requires Le(newDis, keys[index])
    ensures var r := PercolateUp(h, keys[index := newDis], h.x[index]).0;
      && (XRef(h) && InHeap(h, index) ==>
            XRef(r) && multiset(Items(r)) == multiset(Items(h)) && (forall v :: InHeap(r, v) <==> InHeap(h, v)))
      && (XRef(h) && InHeap(h, index) && Ordered(h, keys) ==> Ordered(r, keys[index := newDis]))
  {
    if XRef(h) && InHeap(h, index) {
      SameItemsSameMembers(h, PercolateUp(h, keys[index := newDis], h.x[index]).0);
      if Ordered(h, keys) {
        DecreaseKeyOrder(h, keys, index, newDis);
      }
    }
  }

  lemma SameItemsSameMembers(h: Heap, r: Heap)
    requires XRef(h) && XRef(r) && h.size < |h.q| && r.size < |r.q|
    requires multiset(Items(r)) == multiset(Items(h))
    ensures forall v :: InHeap(r, v) <==> InHeap(h, v)
  {
    forall v ensures InHeap(r, v) <==> InHeap(h, v) {
      if 0 <= v {
        InHeapIffItem(r, v);
        InHeapIffItem(h, v);
        assert v in Items(r) <==> v in multiset(Items(r));
        assert v in Items(h) <==> v in multiset(Items(h));
      }
    }
  }

  /** The state `deleteMin` hands to `PercolateDown`: the last occupied slot's
      id moved into slot 1, one slot fewer, and (unlike `deleteMin`) the
      moved id's cross-reference pointed at slot 1. */
  function MoveLastToRoot(h: Heap): (r: Heap)
    requires h.size >= 1 && h.size < |h.q| && h.q[h.size] < |h.x|
    ensures r.size == h.size - 1 && |r.q| == |h.q| && |r.x| == |h.x|
    ensures r.q[1] == h.q[h.size] && r.x[h.q[h.size]] == 1
    ensures forall i :: 2 <= i < |h.q| ==> r.q[i] == h.q[i]
    ensures forall v :: 0 <= v < |h.x| && v != h.q[h.size] ==> r.x[v] == h.x[v]
  {
    var last := h.q[h.size];
    Heap(h.q[1 := last], h.x[last := 1], h.size - 1)
  }

  lemma MoveLastToRootMultiset(h: Heap)
    requires h.size >= 1 && h.size < |h.q| && h.q[h.size] < |h.x|
    ensures multiset(Items(MoveLastToRoot(h))) == multiset(Items(h)) - multiset{h.q[1]}
  {
    var r := MoveLastToRoot(h);
    var n := h.size;
    if n == 1 {
      assert Items(h) == [h.q[1]];
      assert Items(r) == [];
    } else {
      assert Items(h) == [h.q[1]] + h.q[2..n] + [h.q[n]];
      assert Items(r) == [h.q[n]] + h.q[2..n];
    }
  }

  lemma MoveLastToRootXRef(h: Heap)
    requires h.size >= 1 && h.size < |h.q| && h.q[h.size] < |h.x| && XRef(h)
    ensures XRef(MoveLastToRoot(h))
  {
    var r := MoveLastToRoot(h);
    var n := h.size;
    forall i | 1 <= i <= r.size && i < |r.q| ensures 1 <= r.q[i] < |r.x| && r.x[r.q[i]] == i {
      if i != 1 {
        assert h.x[h.q[i]] == i && h.x[h.q[n]] == n;
        assert r.q[i] == h.q[i];
      }
    }
  }

  lemma MoveLastToRootFacts(h: Heap, keys: seq<Dist>)
    requires Fits(h, keys) && h.size >= 1 && XRef(h)
    ensures XRef(MoveLastToRoot(h))
    ensures forall v :: v in Items(MoveLastToRoot(h)) <==> v in Items(h) && v != h.q[1]
    ensures multiset(Items(MoveLastToRoot(h))) == multiset(Items(h)) - multiset{h.q[1]}
    ensures Ordered(h, keys) ==> OrderedFrom(MoveLastToRoot(h), keys, 1, 1)
  {
    MoveLastToRootXRef(h);
    MoveLastToRootItems(h);
  }

  lemma MoveLastToRootItems(h: Heap)
    requires |h.q| >= 1 && Shape(h, |h.q| - 1) && h.size >= 1 && XRef(h)
    ensures forall v :: v in Items(MoveLastToRoot(h)) <==> v in Items(h) && v != h.q[1]
    ensures multiset(Items(MoveLastToRoot(h))) == multiset(Items(h)) - multiset{h.q[1]}
  {
    var h1 := MoveLastToRoot(h);
    MoveLastToRootMultiset(h);
    assert h.q[1] !in Items(h1) by {
      forall j | 0 <= j < |Items(h1)| ensures Items(h1)[j] != h.q[1] {
        var k := if j == 0 then h.size else j + 1;
        assert Items(h1)[j] == h.q[k] && h.x[h.q[k]] == k;
      }
    }
    forall v ensures v in Items(h1) <==> v in Items(h) && v != h.q[1] {
      assert v in Items(h1) <==> v in multiset(Items(h1));
      assert v in Items(h) <==> v in multiset(Items(h));
    }
  }

  lemma DeleteMinKeepsItems(h: Heap, keys: seq<Dist>)
    requires Fits(h, keys) && h.size >= 1 && XRef(h)
    ensures XRef(PercolateDown(MoveLastToRoot(h), keys, 1))
    ensures multiset(Items(PercolateDown(MoveLastToRoot(h), keys, 1)))
      == multiset(Items(h)) - multiset{h.q[1]}
    ensures forall v :: InHeap(PercolateDown(MoveLastToRoot(h), keys, 1), v) <==> InHeap(h, v) && v != h.q[1]
  {
    var h1 := MoveLastToRoot(h);
    var r := PercolateDown(h1, keys, 1);
    MoveLastToRootFacts(h, keys);
    forall v ensures InHeap(r, v) <==> InHeap(h, v) && v != h.q[1] {
      if 0 <= v {
        InHeapIffItem(r, v);
        InHeapIffItem(h, v);
        assert v in Items(r) <==> v in multiset(Items(r));
        assert v in Items(h1) <==> v in multiset(Items(h1));
      }
    }
  }

  lemma DeleteMinKeepsOrder(h: Heap, keys: seq<Dist>)
    requires Fits(h, keys) && h.size >= 1 && XRef(h) && Ordered(h, keys)
    ensures Ordered(PercolateDown(MoveLastToRoot(h), keys, 1), keys)
    ensures forall v :: InHeap(h, v) ==> Le(keys[h.q[1]], keys[v])
  {
    MoveLastToRootFacts(h, keys);
    PercolateDownRestores(MoveLastToRoot(h), keys, 1, 1);
    forall v | InHeap(h, v) ensures Le(keys[h.q[1]], keys[v]) {
      RootIsMin(h, keys, h.x[v]);
    }
  }

  /** Removes and returns the id in slot 1. This is the corrected operation:
      the id moved into slot 1 also gets its cross-reference updated. */
  function DeleteMin(h: Heap, keys: seq<Dist>): (r: (nat, Heap))
    requires Fits(h, keys) && h.size >= 1
    ensures r.0 == h.q[1] && Fits(r.1, keys) && r.1.size == h.size - 1
    ensures XRef(h) ==> (XRef(r.1)
      && multiset(Items(r.1)) == multiset(Items(h)) - multiset{r.0}
      && (forall v :: InHeap(r.1, v) <==> InHeap(h, v) && v != r.0))
    ensures XRef(h) && Ordered(h, keys) ==>
      Ordered(r.1, keys) && forall v :: InHeap(h, v) ==> Le(keys[r.0], keys[v])
  {
    DeleteMinKeeps(h, keys);
    (h.q[1], PercolateDown(MoveLastToRoot(h), keys, 1))
  }

  /** The corrected removal keeps a consistent heap consistent and an
      ordered one ordered. */
  lemma DeleteMinKeeps(h: Heap, keys: seq<Dist>)
    requires Fits(h, keys) && h.size >= 1
    ensures var r := PercolateDown(MoveLastToRoot(h), keys, 1);
      && (XRef(h) ==>
            && XRef(r)
            && multiset(Items(r)) == multiset(Items(h)) - multiset{h.q[1]}
            && (forall v :: InHeap(r, v) <==> InHeap(h, v) && v != h.q[1]))
      && (XRef(h) && Ordered(h, keys) ==>
            Ordered(r, keys) && forall v :: InHeap(h, v) ==> Le(keys[h.q[1]], keys[v]))
  {
    if XRef(h) {
      DeleteMinKeepsItems(h, keys);
      if Ordered(h, keys) {
        DeleteMinKeepsOrder(h, keys);
      }
    }
  }

  /** `deleteMin` exactly as written: the id moved into slot 1 keeps its old
      cross-reference. */
  function DeleteMinAsWritten(h: Heap, keys: seq<Dist>): (r: (nat, Heap))
    requires Fits(h, keys) && h.size >= 1
    ensures r.0 == h.q[1] && Fits(r.1, keys) && r.1.size == h.size - 1
  {
    var last := h.q[h.size];
    var h1 := Heap(h.q[1 := last], h.x, h.size - 1);
    (h.q[1], PercolateDown(h1, keys, 1))
  }

  /** Floyd's construction, parents `i` down to 1. */
  function BuildLoop(h: Heap, keys: seq<Dist>, i: nat): (r: Heap)
    requires Fits(h, keys) && XRef(h) && OrderedFrom(h, keys, i + 1, 0)
    ensures Fits(r, keys) && r.size == h.size && XRef(r) && Ordered(r, keys)
    ensures multiset(Items(r)) == multiset(Items(h))
    decreases i
  {
    if i == 0 then h
    else
      PercolateDownRestores(h, keys, i, i);
      BuildLoop(PercolateDown(h, keys, i), keys, i - 1)
  }

  /** The table `[0, 1, ..., n]` `buildHeap` starts from. */
  function Identity(n: nat): (ids: seq<nat>)
    ensures |ids| == n + 1 && forall i :: 0 <= i <= n ==> ids[i] == i
  {
    seq(n + 1, i requires 0 <= i <= n => i)
  }

  /** The heap `buildHeap` has before its heapify loop: ids `1..n` in slot order. */
  function Filled(n: nat): (h: Heap)
    ensures h.size == n && Shape(h, n) && XRef(h)
    ensures forall v :: v in Items(h) <==> 1 <= v <= n
  {
    var h := Heap(Identity(n), Identity(n), n);
    assert forall v :: v in Items(h) <==> 1 <= v <= n by {
      forall v ensures v in Items(h) <==> 1 <= v <= n {
        if 1 <= v <= n { assert Items(h)[v - 1] == v; }
      }
    }
    h
  }

  lemma FilledUnordered(n: nat, keys: seq<Dist>)
    requires |keys| == n + 1
    ensures Fits(Filled(n), keys) && OrderedFrom(Filled(n), keys, n / 2 + 1, 0)
  {
  }

  lemma BuildHeapFacts(n: nat, keys: seq<Dist>, r: Heap)
    requires |keys| == n + 1
    requires Shape(r, n) && r.size == n && XRef(r)
    requires multiset(Items(r)) == multiset(Items(Filled(n)))
    ensures forall v :: InHeap(r, v) <==> 1 <= v <= n
    ensures forall i :: 1 <= i <= n ==>
      r.x[r.q[i]] == i && 1 <= r.x[i] <= n && r.q[r.x[i]] == i
  {
    var h1 := Filled(n);
    forall v ensures InHeap(r, v) <==> 1 <= v <= n {
      if 0 <= v {
        InHeapIffItem(r, v);
        assert v in Items(r) <==> v in multiset(Items(r));
        assert v in Items(h1) <==> v in multiset(Items(h1));
      }
    }
    forall i | 1 <= i <= n
      ensures r.x[r.q[i]] == i && 1 <= r.x[i] <= n && r.q[r.x[i]] == i
    {
      assert InHeap(r, i);
      assert 1 <= r.q[i] < |r.x|;
    }
  }

  /** Fills a freshly constructed heap with ids `1..n` in order and heapifies it. */
  function BuildHeap(h: Heap, keys: seq<Dist>): (r: Heap)
    requires h.q == [0] && h.x == [0] && |keys| == h.size + 1
    ensures Fits(r, keys) && r.size == h.size && XRef(r) && Ordered(r, keys)
    ensures forall v :: InHeap(r, v) <==> 1 <= v <= h.size
    ensures forall i :: 1 <= i <= r.size ==>
      r.x[r.q[i]] == i && 1 <= r.x[i] <= r.size && r.q[r.x[i]] == i
  {
    FilledUnordered(h.size, keys);
    var r := BuildLoop(Filled(h.size), keys, h.size / 2);
    BuildHeapFacts(h.size, keys, r);
    r
  }

  /** The heap built over `n` all-infinite distances, with `source` then lowered to 0. */
  function StartHeap(n: nat, source: nat): (r: (Heap, seq<Dist>))
    requires 1 <= source <= n
    ensures Fits(r.0, r.1) && XRef(r.0) && Ordered(r.0, r.1) && r.0.size == n
    ensures forall v :: InHeap(r.0, v) <==> 1 <= v <= n
    ensures |r.1| == n + 1 && forall v :: 0 <= v <= n ==> r.1[v] == if v == source then Finite(0) else Infinity
  {
    var keys := seq(n + 1, _ => Infinity);
    var h0 := BuildHeap(NewHeap(n), keys);
    LowerSource(n, source, keys, h0)
  }

  /** `decreaseKey(source, 0)` on a freshly built all-infinite heap. */
  function LowerSource(n: nat, source: nat, keys: seq<Dist>, h0: Heap): (r: (Heap, seq<Dist>))
    requires 1 <= source <= n && |keys| == n + 1
    requires forall v :: 0 <= v <= n ==> keys[v] == Infinity
    requires Fits(h0, keys) && XRef(h0) && Ordered(h0, keys) && h0.size == n
    requires forall v :: InHeap(h0, v) <==> 1 <= v <= n
    ensures Fits(r.0, r.1) && XRef(r.0) && Ordered(r.0, r.1) && r.0.size == n
    ensures forall v :: InHeap(r.0, v) <==> 1 <= v <= n
    ensures |r.1| == n + 1 && forall v :: 0 <= v <= n ==> r.1[v] == if v == source then Finite(0) else Infinity
  {
    assert InHeap(h0, source);
    DecreaseKey(h0, keys, source, Finite(0))
  }

  // A four-vertex scenario: every distance starts at infinity and vertex 1
  // then drops to 0, as at the start of a shortest-path run from vertex 1.

  function AllInfinite(): seq<Dist> { [Infinity, Infinity, Infinity, Infinity, Infinity] }
  function SourceAtZero(): seq<Dist> { [Infinity, Finite(0), Infinity, Infinity, Infinity] }

  /** The heap after `buildHeap` and `decreaseKey(1, 0)`. */
  function SourceHeap(): Heap { Heap([1, 1, 2, 3, 4], [0, 1, 2, 3, 4], 4) }

  lemma ScenarioBuild()
    ensures BuildHeap(NewHeap(4), AllInfinite()) == Heap([0, 1, 2, 3, 4], [0, 1, 2, 3, 4], 4)
  {
    var keys := AllInfinite();
    var f := Filled(4);
    assert f == Heap([0, 1, 2, 3, 4], [0, 1, 2, 3, 4], 4);
    assert SmallerChild(f, keys, 2) == 4;
    assert PercolateDown(f, keys, 2) == f;
    assert SmallerChild(f, keys, 1) == 2;
    assert PercolateDown(f, keys, 1) == f;
    assert BuildLoop(f, keys, 0) == f;
    assert BuildLoop(f, keys, 1) == f;
  }

  lemma ScenarioSource()
    ensures DecreaseKey(Heap([0, 1, 2, 3, 4], [0, 1, 2, 3, 4], 4), AllInfinite(), 1, Finite(0))
      == (SourceHeap(), SourceAtZero())
  {
    var h := Heap([0, 1, 2, 3, 4], [0, 1, 2, 3, 4], 4);
    assert AllInfinite()[1 := Finite(0)] == SourceAtZero();
    assert h.q[0 := 1] == [1, 1, 2, 3, 4];
    assert PercolateUp(h, SourceAtZero(), 1) == (h.(q := h.q[0 := 1]), 1);
    assert SiftUp(h.(q := h.q[0 := 1]), SourceAtZero(), 1) == (h.(q := h.q[0 := 1]), 1);
  }

  lemma ScenarioDeleteAsWritten()
    ensures DeleteMinAsWritten(SourceHeap(), SourceAtZero())
      == (1, Heap([1, 4, 2, 3, 4], [0, 1, 2, 3, 4], 3))
  {
    var h1 := Heap([1, 4, 2, 3, 4], [0, 1, 2, 3, 4], 3);
    assert [1, 1, 2, 3, 4][1 := 4] == [1, 4, 2, 3, 4];
    assert SmallerChild(h1, SourceAtZero(), 1) == 2;
    assert PercolateDown(h1, SourceAtZero(), 1) == h1;
  }

  lemma ScenarioDelete()
    ensures DeleteMin(SourceHeap(), SourceAtZero())
      == (1, Heap([1, 4, 2, 3, 4], [0, 1, 2, 3, 1], 3))
  {
    var h1 := Heap([1, 4, 2, 3, 4], [0, 1, 2, 3, 1], 3);
    assert MoveLastToRoot(SourceHeap()) == h1;
    assert SmallerChild(h1, SourceAtZero(), 1) == 2;
    assert PercolateDown(h1, SourceAtZero(), 1) == h1;
  }

  lemma ScenarioStaleDecrease(d: int)
    ensures DecreaseKey(Heap([1, 4, 2, 3, 4], [0, 1, 2, 3, 4], 3), SourceAtZero(), 4, Finite(d))
      == (Heap([4, 4, 4, 3, 2], [0, 1, 4, 3, 2], 3), SourceAtZero()[4 := Finite(d)])
  {
    var keys := SourceAtZero()[4 := Finite(d)];
    var h := Heap([1, 4, 2, 3, 4], [0, 1, 2, 3, 4], 3);
    var h0 := Heap([4, 4, 2, 3, 4], [0, 1, 2, 3, 4], 3);
    assert h.(q := h.q[0 := 4]) == h0;
    var e := Exchange(h0, 4, 2);
    assert e == Heap([4, 4, 4, 3, 2], [0, 1, 4, 3, 2], 3);
    assert SiftUp(e, keys, 2) == (e, 2);
    assert SiftUp(h0, keys, 4) == (e, 2);
    assert PercolateUp(h, keys, 4) == (e, 2);
  }

  /** The code's `deleteMin` breaks the cross-reference. In the scenario,
      deleting the minimum moves id 4 into slot 1 but leaves `x[4] == 4`; the
      `decreaseKey(4, 7)` that relaxing an edge 1 -> 4 of weight 7 issues
      then sifts up from slot 4, outside the heap. That pulls id 4 into slot 2
      a second time and pushes id 2 out of the heap for good. */
  lemma DeleteMinAsWrittenLosesVertex()
    ensures
      var (m, h2) := DeleteMinAsWritten(SourceHeap(), SourceAtZero());
      var h3 := DecreaseKey(h2, SourceAtZero(), 4, Finite(7)).0;
      && m == 1 && !XRef(h2)
      && multiset(Items(h3)) == multiset{4, 4, 3} && !InHeap(h3, 2)
  {
    ScenarioDeleteAsWritten();
    ScenarioStaleDecrease(7);
    var h2 := Heap([1, 4, 2, 3, 4], [0, 1, 2, 3, 4], 3);
    assert h2.x[h2.q[1]] != 1;
    var h3 := Heap([4, 4, 4, 3, 2], [0, 1, 4, 3, 2], 3);
    assert Items(h3) == [4, 4, 3];
  }

  /** The scenario's heap is a valid one: the bug needs no broken input. */
  lemma SourceHeapValid()
    ensures BuildHeap(NewHeap(4), AllInfinite()) == Heap([0, 1, 2, 3, 4], [0, 1, 2, 3, 4], 4)
    ensures DecreaseKey(Heap([0, 1, 2, 3, 4], [0, 1, 2, 3, 4], 4), AllInfinite(), 1, Finite(0))
      == (SourceHeap(), SourceAtZero())
    ensures XRef(SourceHeap()) && Ordered(SourceHeap(), SourceAtZero())
  {
    ScenarioBuild();
    ScenarioSource();
  }

  /** With the cross-reference update in place, the same steps keep ids 2, 3
      and 4 queued exactly once. */
  lemma DeleteMinKeepsVertex()
    ensures
      var (m, h2) := DeleteMin(SourceHeap(), SourceAtZero());
      var h3 := DecreaseKey(h2, SourceAtZero(), 4, Finite(7)).0;
      && m == 1 && XRef(h2)
      && multiset(Items(h3)) == multiset{4, 2, 3}
  {
    ScenarioDelete();
    var h2 := Heap([1, 4, 2, 3, 4], [0, 1, 2, 3, 1], 3);
    assert Items(h2) == [4, 2, 3];
    assert InHeap(h2, 4);
  }

  // The same heap driven by a shortest-path run from vertex 1 over the edges
  // 1 -> 4 (weight 1), 1 -> 2 (weight 5) and 4 -> 3 (weight 100).

  lemma ScenarioStrand()
    ensures DecreaseKey(Heap([4, 4, 4, 3, 2], [0, 1, 4, 3, 2], 3), [Infinity, Finite(0), Infinity, Infinity, Finite(1)], 2, Finite(5))
      == (Heap([2, 4, 4, 3, 2], [0, 1, 4, 3, 2], 3), [Infinity, Finite(0), Finite(5), Infinity, Finite(1)])
  {
    var keys := [Infinity, Finite(0), Finite(5), Infinity, Finite(1)];
    assert [Infinity, Finite(0), Infinity, Infinity, Finite(1)][2 := Finite(5)] == keys;
    var h := Heap([4, 4, 4, 3, 2], [0, 1, 4, 3, 2], 3);
    var h0 := Heap([2, 4, 4, 3, 2], [0, 1, 4, 3, 2], 3);
    assert h.(q := h.q[0 := 2]) == h0;
    assert SiftUp(h0, keys, 4) == (h0, 4);
    assert PercolateUp(h, keys, 4) == (h0, 4);
  }

  lemma ScenarioSecondDelete()
    ensures DeleteMinAsWritten(Heap([2, 4, 4, 3, 2], [0, 1, 4, 3, 2], 3), [Infinity, Finite(0), Finite(5), Infinity, Finite(1)])
      == (4, Heap([2, 4, 3, 3, 2], [0, 1, 4, 2, 1], 2))
  {
    var keys := [Infinity, Finite(0), Finite(5), Infinity, Finite(1)];
    var h1 := Heap([2, 3, 4, 3, 2], [0, 1, 4, 3, 2], 2);
    assert [2, 4, 4, 3, 2][1 := 3] == h1.q;
    assert SmallerChild(h1, keys, 1) == 2;
    var e := Exchange(h1, 1, 2);
    assert e == Heap([2, 4, 3, 3, 2], [0, 1, 4, 2, 1], 2);
    assert PercolateDown(e, keys, 2) == e;
  }

  lemma ScenarioThirdDelete()
    ensures DecreaseKey(Heap([2, 4, 3, 3, 2], [0, 1, 4, 2, 1], 2), [Infinity, Finite(0), Finite(5), Infinity, Finite(1)], 3, Finite(101))
      == (Heap([3, 4, 3, 3, 2], [0, 1, 4, 2, 1], 2), [Infinity, Finite(0), Finite(5), Finite(101), Finite(1)])
    ensures DeleteMinAsWritten(Heap([3, 4, 3, 3, 2], [0, 1, 4, 2, 1], 2), [Infinity, Finite(0), Finite(5), Finite(101), Finite(1)])
      == (4, Heap([3, 3, 3, 3, 2], [0, 1, 4, 2, 1], 1))
  {
    var keys := [Infinity, Finite(0), Finite(5), Finite(101), Finite(1)];
    assert [Infinity, Finite(0), Finite(5), Infinity, Finite(1)][3 := Finite(101)] == keys;
    var h := Heap([2, 4, 3, 3, 2], [0, 1, 4, 2, 1], 2);
    var h0 := Heap([3, 4, 3, 3, 2], [0, 1, 4, 2, 1], 2);
    assert h.(q := h.q[0 := 3]) == h0;
    assert SiftUp(h0, keys, 2) == (h0, 2);
    assert PercolateUp(h, keys, 2) == (h0, 2);
    var h1 := Heap([3, 3, 3, 3, 2], [0, 1, 4, 2, 1], 1);
    assert [3, 4, 3, 3, 2][1 := 3] == h1.q;
    assert PercolateDown(h1, keys, 1) == h1;
  }

  /** What the stale cross-reference does to a shortest-path run. After
      vertex 1 is settled, lowering 4 to 1 pulls 4 into slot 2 a second time
      and pushes 2 out of the heap, so lowering 2 to 5 cannot bring it back. */
  lemma DeleteMinAsWrittenStrandsVertex()
    ensures DeleteMinAsWritten(SourceHeap(), SourceAtZero()) == (1, Heap([1, 4, 2, 3, 4], [0, 1, 2, 3, 4], 3))
    ensures DecreaseKey(Heap([1, 4, 2, 3, 4], [0, 1, 2, 3, 4], 3), SourceAtZero(), 4, Finite(1))
      == (Heap([4, 4, 4, 3, 2], [0, 1, 4, 3, 2], 3), [Infinity, Finite(0), Infinity, Infinity, Finite(1)])
    ensures DecreaseKey(Heap([4, 4, 4, 3, 2], [0, 1, 4, 3, 2], 3), [Infinity, Finite(0), Infinity, Infinity, Finite(1)], 2, Finite(5))
      == (Heap([2, 4, 4, 3, 2], [0, 1, 4, 3, 2], 3), [Infinity, Finite(0), Finite(5), Infinity, Finite(1)])
    ensures !InHeap(Heap([2, 4, 4, 3, 2], [0, 1, 4, 3, 2], 3), 2)
  {
    ScenarioDeleteAsWritten();
    ScenarioStaleDecrease(1);
    assert SourceAtZero()[4 := Finite(1)] == [Infinity, Finite(0), Infinity, Infinity, Finite(1)];
    ScenarioStrand();
  }

  /** The rest of that run: vertex 4 is removed a second time, after its edge
      4 -> 3 gave 3 the distance 101, and the heap ends holding only 3, so
      vertex 2 is never removed although 1 -> 2 -> 3 is shorter. */
  lemma DeleteMinAsWrittenSettlesTwice()
    ensures DeleteMinAsWritten(Heap([2, 4, 4, 3, 2], [0, 1, 4, 3, 2], 3), [Infinity, Finite(0), Finite(5), Infinity, Finite(1)])
      == (4, Heap([2, 4, 3, 3, 2], [0, 1, 4, 2, 1], 2))
    ensures DecreaseKey(Heap([2, 4, 3, 3, 2], [0, 1, 4, 2, 1], 2), [Infinity, Finite(0), Finite(5), Infinity, Finite(1)], 3, Finite(101))
      == (Heap([3, 4, 3, 3, 2], [0, 1, 4, 2, 1], 2), [Infinity, Finite(0), Finite(5), Finite(101), Finite(1)])
    ensures DeleteMinAsWritten(Heap([3, 4, 3, 3, 2], [0, 1, 4, 2, 1], 2), [Infinity, Finite(0), Finite(5), Finite(101), Finite(1)])
      == (4, Heap([3, 3, 3, 3, 2], [0, 1, 4, 2, 1], 1))
    ensures Items(Heap([3, 3, 3, 3, 2], [0, 1, 4, 2, 1], 1)) == [3]
  {
    ScenarioSecondDelete();
    ScenarioThirdDelete();
  }
}

=== FILE: nsp.dfy ===
/**
  Dijkstra's algorithm on a directed graph that also counts shortest paths
  and rejects graphs in which an edge reaches an already settled vertex
  without lengthening its distance.

  The per-run vertex fields (`dis`, `pred`, `numPath`, `visited`) are the
  sequences of `NspState`, indexed by vertex id; the heap is the corrected
  `VertexMinHeap` (its `DeleteMin` keeps the cross-reference up to date).
*/
module NumberShortestPath {
  import opened Vertices
  import opened VertexMinHeap

  datatype NspState = NspState(
    heap: Heap,
    dis: seq<Dist>,
    pred: seq<nat>,
    numPath: seq<int>,
    visited: seq<bool>)

  /** Outcome of relaxing a vertex's edges: go on, or stop and report `false`. */
  datatype Outcome = Continue(st: NspState) | Reject(st: NspState)

  /** `addEdge`: records only the directed entry from -> to. */
  function AddEdge(g: Graph, from: nat, to: nat, weight: int): (r: Graph)
    requires WellFormed(g) && IsVertex(g, from) && IsVertex(g, to)
    ensures WellFormed(r) && |r| == |g|
    ensures Edges(r[from]) == Edges(g[from]) + [(to, weight)]
    ensures forall i :: 0 <= i < |g| && i != from ==> r[i] == g[i]
  {
    g[from := AddAdj(g[from], to, weight)]
  }

  ghost predicate Sized(g: Graph, st: NspState) {
    |st.dis| == |g| && |st.pred| == |g| && |st.numPath| == |g| && |st.visited| == |g|
  }

  /** Every recorded predecessor is settled, has a finite distance, and has
      an edge to its successor whose weight makes up the successor's distance. */
  ghost predicate PredInv(g: Graph, st: NspState)
    requires Sized(g, st)
  {
    forall v :: 1 <= v < |g| && st.pred[v] != 0 ==>
      && IsVertex(g, st.pred[v]) && st.visited[st.pred[v]] && st.dis[st.pred[v]].Finite?
      && PredWitness(g, st.dis, st.pred[v], v)
  }

  /** The heap is a valid heap over the distances and holds exactly the unsettled vertices. */
  ghost predicate HeapInv(g: Graph, st: NspState)
    requires Sized(g, st)
  {
    && Fits(st.heap, st.dis) && XRef(st.heap) && Ordered(st.heap, st.dis)
    && (forall v :: 1 <= v < |g| ==> (InHeap(st.heap, v) <==> !st.visited[v]))
  }

  /** The source has distance 0 and one path; until it is settled nothing
      else has happened. */
  ghost predicate SourceInv(g: Graph, source: nat, st: NspState)
    requires Sized(g, st) && IsVertex(g, source)
  {
    && st.dis[source] == Finite(0) && st.numPath[source] == 1
    && (!st.visited[source] ==>
          forall v :: 1 <= v < |g| && v != source ==> !st.visited[v] && st.dis[v] == Infinity)
  }

  /** A vertex other than the source has a finite distance exactly when it
      has a predecessor, and every finite distance comes with at least one path. */
  ghost predicate ReachInv(g: Graph, source: nat, st: NspState)
    requires Sized(g, st)
  {
    forall v :: 1 <= v < |g| ==>
      && (v != source ==> (st.dis[v].Finite? <==> st.pred[v] != 0))
      && (st.dis[v].Finite? ==> st.numPath[v] >= 1)
  }

  /** Every finite distance is the length of an actual walk from the source. */
  ghost predicate WalkInv(g: Graph, source: nat, st: NspState)
    requires Sized(g, st)
  {
    Realised(g, source, st.dis)
  }

  /** The run's invariant. */
  ghost predicate Inv(g: Graph, source: nat, st: NspState) {
    && WellFormed(g) && IsVertex(g, source) && Sized(g, st)
    && HeapInv(g, st) && SourceInv(g, source, st) && PredInv(g, st) && ReachInv(g, source, st)
    && WalkInv(g, source, st)
  }

  /** Settled vertices keep their distance, predecessor and count, and stay settled. */
  ghost predicate Frozen(st: NspState, st': NspState)
    requires |st.dis| == |st.pred| == |st.numPath| == |st.visited|
    requires |st'.dis| == |st'.pred| == |st'.numPath| == |st'.visited| == |st.dis|
  {
    forall v :: 0 <= v < |st.visited| && st.visited[v] ==>
      && st'.visited[v]
      && st'.dis[v] == st.dis[v] && st'.pred[v] == st.pred[v] && st'.numPath[v] == st.numPath[v]
  }

  lemma FrozenTrans(st: NspState, st1: NspState, st2: NspState)
    requires |st.dis| == |st.pred| == |st.numPath| == |st.visited|
    requires |st1.dis| == |st1.pred| == |st1.numPath| == |st1.visited| == |st.dis|
    requires |st2.dis| == |st2.pred| == |st2.numPath| == |st2.visited| == |st.dis|
    requires Frozen(st, st1) && Frozen(st1, st2)
    ensures Frozen(st, st2)
  {
  }

  /** Edge `k` of `u` reaches a settled vertex other than the source whose
      distance is not larger than going through `u`: the rejection test. */
  function Violates(g: Graph, source: nat, dis: seq<Dist>, visited: seq<bool>, u: nat, k: nat): (b: bool)
    requires WellFormed(g) && IsVertex(g, u) && k < |g[u].adj|
    requires |dis| == |g| && |visited| == |g|
    ensures b ==> visited[g[u].adj[k]] && g[u].adj[k] != source
    ensures var v := g[u].adj[k];
      visited[v] && v != source && dis[u].Finite? && dis[v].Finite? ==>
        (b <==> dis[v].value <= dis[u].value + g[u].adjWeight[k])
  {
    var v := g[u].adj[k];
    visited[v] && v != source && Le(dis[v], Add(dis[u], g[u].adjWeight[k]))
  }

  /** Once `u` (not the source's first extraction aside) is settled, the
      source is settled too, so nothing is pending on the source clause. */
  lemma SettledMeansSourceSettled(g: Graph, source: nat, st: NspState, u: nat)
    requires Inv(g, source, st) && IsVertex(g, u) && st.visited[u]
    ensures st.visited[source]
  {
  }

  /** What relaxing an edge needs to be well defined: the shapes agree and
      every unsettled vertex has a slot in the heap. */
  ghost predicate Ready(g: Graph, st: NspState) {
    && WellFormed(g) && Sized(g, st) && Fits(st.heap, st.dis)
    && (forall v :: 1 <= v < |g| && !st.visited[v] ==> 1 <= st.heap.x[v] < |st.heap.q|)
  }

  lemma InvReady(g: Graph, source: nat, st: NspState)
    requires Inv(g, source, st)
    ensures Ready(g, st)
  {
    forall v | 1 <= v < |g| && !st.visited[v] ensures 1 <= st.heap.x[v] < |st.heap.q| {
      assert InHeap(st.heap, v);
    }
  }

  /** The strict-improvement branch: new distance, `u` as predecessor, `u`'s count. */
  function Improve(g: Graph, source: nat, st: NspState, u: nat, k: nat): (r: NspState)
    requires Ready(g, st) && IsVertex(g, u) && k < |g[u].adj|
    requires !st.visited[g[u].adj[k]]
    requires Less(Add(st.dis[u], g[u].adjWeight[k]), st.dis[g[u].adj[k]])
    ensures r.visited == st.visited && r.heap.size == st.heap.size
    ensures var v := g[u].adj[k];
      r.dis == st.dis[v := Add(st.dis[u], g[u].adjWeight[k])]
      && r.pred == st.pred[v := u] && r.numPath == st.numPath[v := st.numPath[u]]
  {
    var v := g[u].adj[k];
    var nd := Add(st.dis[u], g[u].adjWeight[k]);
    var d := DecreaseKey(st.heap, st.dis, v, nd);
    st.(heap := d.0, dis := d.1, pred := st.pred[v := u], numPath := st.numPath[v := st.numPath[u]])
  }

  /** An improvement keeps the invariant: the target is queued, so the heap
      stays valid over the lowered key, and its new distance is one edge
      beyond `u`'s. */
  lemma ImproveKeepsInv(g: Graph, source: nat, st: NspState, u: nat, k: nat)
    requires Inv(g, source, st) && IsVertex(g, u) && st.visited[u] && st.dis[u].Finite?
    requires k < |g[u].adj|
    requires !st.visited[g[u].adj[k]]
    requires Less(Add(st.dis[u], g[u].adjWeight[k]), st.dis[g[u].adj[k]])
    ensures Inv(g, source, Improve(g, source, st, u, k)) && Frozen(st, Improve(g, source, st, u, k))
  {
    InvReady(g, source, st);
    var r := Improve(g, source, st, u, k);
    ImproveKeepsHeapInv(g, source, st, u, k);
    ImproveKeepsPredInv(g, st, r, u, k);
    ImproveKeepsReach(g, source, st, r, u, k);
    ImproveKeepsWalk(g, source, st, r, u, k);
  }

  lemma ImproveKeepsHeapInv(g: Graph, source: nat, st: NspState, u: nat, k: nat)
    requires Inv(g, source, st) && IsVertex(g, u) && st.visited[u] && st.dis[u].Finite?
    requires k < |g[u].adj|
    requires !st.visited[g[u].adj[k]]
    requires Less(Add(st.dis[u], g[u].adjWeight[k]), st.dis[g[u].adj[k]])
    ensures Sized(g, Improve(g, source, st, u, k)) && HeapInv(g, Improve(g, source, st, u, k))
  {
    var v := g[u].adj[k];
    var nd := Add(st.dis[u], g[u].adjWeight[k]);
    assert InHeap(st.heap, v);
  }

  lemma ImproveKeepsReach(g: Graph, source: nat, st: NspState, r: NspState, u: nat, k: nat)
    requires Inv(g, source, st) && IsVertex(g, u) && st.visited[u] && st.dis[u].Finite?
    requires k < |g[u].adj|
    requires !st.visited[g[u].adj[k]]
    requires r.visited == st.visited
    requires r.dis == st.dis[g[u].adj[k] := Add(st.dis[u], g[u].adjWeight[k])]
    requires r.pred == st.pred[g[u].adj[k] := u]
    requires r.numPath == st.numPath[g[u].adj[k] := st.numPath[u]]
    ensures Sized(g, r) && SourceInv(g, source, r) && ReachInv(g, source, r) && Frozen(st, r)
  {
    SettledMeansSourceSettled(g, source, st, u);
  }

  lemma ImproveKeepsWalk(g: Graph, source: nat, st: NspState, r: NspState, u: nat, k: nat)
    requires Inv(g, source, st) && IsVertex(g, u) && st.dis[u].Finite? && k < |g[u].adj|
    requires Sized(g, r) && r.dis == st.dis[g[u].adj[k] := Add(st.dis[u], g[u].adjWeight[k])]
    ensures WalkInv(g, source, r)
  {
    ReachedStep(g, source, u, st.dis[u].value, k);
  }

  lemma ImproveKeepsPredInv(g: Graph, st: NspState, r: NspState, u: nat, k: nat)
    requires WellFormed(g) && Sized(g, st) && Sized(g, r) && PredInv(g, st)
    requires IsVertex(g, u) && st.visited[u] && st.dis[u].Finite? && k < |g[u].adj|
    requires !st.visited[g[u].adj[k]]
    requires r.visited == st.visited
    requires r.dis == st.dis[g[u].adj[k] := Add(st.dis[u], g[u].adjWeight[k])]
    requires r.pred == st.pred[g[u].adj[k] := u]
    ensures PredInv(g, r)
  {
    var v := g[u].adj[k];
    forall y | 1 <= y < |g| && r.pred[y] != 0
      ensures IsVertex(g, r.pred[y]) && r.visited[r.pred[y]] && r.dis[r.pred[y]].Finite?
      ensures PredWitness(g, r.dis, r.pred[y], y)
    {
      if y == v {
        assert r.dis[y] == Add(r.dis[u], g[u].adjWeight[k]);
      } else {
        var p := st.pred[y];
        var j :| 0 <= j < |g[p].adj| && j < |g[p].adjWeight| && g[p].adj[j] == y
          && st.dis[y] == Add(st.dis[p], g[p].adjWeight[j]);
        assert r.dis[y] == Add(r.dis[p], g[p].adjWeight[j]);
      }
    }
  }

  /** The tie branch: `u`'s count is added to the target's. */
  function Tie(g: Graph, source: nat, st: NspState, u: nat, k: nat): (r: NspState)
    requires Sized(g, st) && WellFormed(g) && IsVertex(g, u) && k < |g[u].adj|
    ensures r.heap == st.heap && r.visited == st.visited && r.dis == st.dis && r.pred == st.pred
    ensures var v := g[u].adj[k]; r.numPath == st.numPath[v := st.numPath[v] + st.numPath[u]]
  {
    var v := g[u].adj[k];
    st.(numPath := st.numPath[v := st.numPath[v] + st.numPath[u]])
  }

  /** A tie keeps the invariant: only an unsettled, non-source count grows,
      and it was already at least one. */
  lemma TieKeepsInv(g: Graph, source: nat, st: NspState, u: nat, k: nat)
    requires Inv(g, source, st) && IsVertex(g, u) && st.visited[u] && st.dis[u].Finite?
    requires k < |g[u].adj|
    requires !st.visited[g[u].adj[k]]
    ensures Inv(g, source, Tie(g, source, st, u, k)) && Frozen(st, Tie(g, source, st, u, k))
  {
    var r := Tie(g, source, st, u, k);
    SettledMeansSourceSettled(g, source, st, u);
    assert HeapInv(g, r) && PredInv(g, r) && WalkInv(g, source, r);
  }

  /** Relaxes the edge `k` of `u` when its target `v` is unsettled: a strict
      improvement copies `u`'s count and makes `u` the predecessor, a tie
      adds `u`'s count, anything else changes nothing. */
  function RelaxEdge(g: Graph, source: nat, st: NspState, u: nat, k: nat): (r: NspState)
    requires Ready(g, st) && IsVertex(g, u) && k < |g[u].adj|
    ensures r.visited == st.visited && r.heap.size == st.heap.size
    ensures var v := g[u].adj[k];
      var nd := Add(st.dis[u], g[u].adjWeight[k]);
      && (st.visited[v] || Less(st.dis[v], nd) ==> r == st)
      && (!st.visited[v] && Less(nd, st.dis[v]) ==>
            r.dis == st.dis[v := nd] && r.pred == st.pred[v := u] && r.numPath == st.numPath[v := st.numPath[u]])
      && (!st.visited[v] && nd == st.dis[v] ==>
            r.dis == st.dis && r.pred == st.pred && r.numPath == st.numPath[v := st.numPath[v] + st.numPath[u]])
      && (!st.visited[v] ==> Le(r.dis[v], nd))
    ensures forall y :: 0 <= y < |g| ==> Le(r.dis[y], st.dis[y])
  {
    var v := g[u].adj[k];
    var nd := Add(st.dis[u], g[u].adjWeight[k]);
    if st.visited[v] then st
    else if Less(nd, st.dis[v]) then Improve(g, source, st, u, k)
    else if nd == st.dis[v] then Tie(g, source, st, u, k)
    else st
  }

  /** Relaxing an edge keeps the invariant and leaves settled vertices untouched. */
  lemma RelaxEdgeKeepsInv(g: Graph, source: nat, st: NspState, u: nat, k: nat)
    requires Inv(g, source, st) && IsVertex(g, u) && st.visited[u] && st.dis[u].Finite?
    requires k < |g[u].adj|
    ensures Inv(g, source, RelaxEdge(g, source, st, u, k)) && Frozen(st, RelaxEdge(g, source, st, u, k))
  {
    var v := g[u].adj[k];
    var nd := Add(st.dis[u], g[u].adjWeight[k]);
    if !st.visited[v] {
      if Less(nd, st.dis[v]) {
        ImproveKeepsInv(g, source, st, u, k);
      } else if nd == st.dis[v] {
        TieKeepsInv(g, source, st, u, k);
      }
    }
  }

  /** `RelaxEdge` seen from the edge loop: the invariant is kept, settled
      vertices are untouched, and the rejection test reads the same values
      before and after. */
  function RelaxEdgeInLoop(g: Graph, source: nat, st: NspState, u: nat, k: nat): (r: NspState)
    requires Inv(g, source, st) && IsVertex(g, u) && st.visited[u] && st.dis[u].Finite?
    requires k < |g[u].adj|
    ensures Inv(g, source, r) && Frozen(st, r) && r.visited == st.visited
    ensures r.heap.size == st.heap.size && r.dis[u] == st.dis[u]
    ensures forall j :: 0 <= j < |g[u].adj| ==>
      (Violates(g, source, r.dis, r.visited, u, j) <==> Violates(g, source, st.dis, st.visited, u, j))
  {
    var r := RelaxEdge(g, source, st, u, k);
    RelaxEdgeKeepsInv(g, source, st, u, k);
    ViolatesFrozen(g, source, st, r, u);
    r
  }

  /** Relaxes the edges `k..` of the vertex `u` just settled, stopping with
      `Reject` at the first edge the rejection test fires on. */
  function RelaxFrom(g: Graph, source: nat, st: NspState, u: nat, k: nat): (r: Outcome)
    requires Inv(g, source, st) && IsVertex(g, u) && st.visited[u] && st.dis[u].Finite?
    requires k <= |g[u].adj|
    ensures Inv(g, source, r.st) && Frozen(st, r.st) && r.st.visited == st.visited
    ensures r.st.heap.size == st.heap.size
    ensures r.Reject? <==> exists j :: k <= j < |g[u].adj| && Violates(g, source, st.dis, st.visited, u, j)
    ensures r.Reject? ==> exists j :: k <= j < |g[u].adj| && Violates(g, source, r.st.dis, r.st.visited, u, j)
    decreases |g[u].adj| - k
  {
    if k == |g[u].adj| then Continue(st)
    else
      var st1 := RelaxEdgeInLoop(g, source, st, u, k);
      if Violates(g, source, st1.dis, st1.visited, u, k) then Reject(st1)
      else
        var r := RelaxFrom(g, source, st1, u, k + 1);
        FrozenTrans(st, st1, r.st);
        NoViolationAt(g, source, st, st1, u, k);
        r
  }

  /** If edge `k` does not trigger the rejection, a trigger among `k..` is one among `k + 1..`. */
  lemma NoViolationAt(g: Graph, source: nat, st: NspState, st1: NspState, u: nat, k: nat)
    requires WellFormed(g) && IsVertex(g, u) && Sized(g, st) && Sized(g, st1) && k < |g[u].adj|
    requires forall j :: 0 <= j < |g[u].adj| ==>
      (Violates(g, source, st1.dis, st1.visited, u, j) <==> Violates(g, source, st.dis, st.visited, u, j))
    requires !Violates(g, source, st1.dis, st1.visited, u, k)
    ensures (exists j :: k <= j < |g[u].adj| && Violates(g, source, st.dis, st.visited, u, j))
        <==> (exists j :: k + 1 <= j < |g[u].adj| && Violates(g, source, st1.dis, st1.visited, u, j))
  {
    if j :| k <= j < |g[u].adj| && Violates(g, source, st.dis, st.visited, u, j) {
      assert j != k;
      assert Violates(g, source, st1.dis, st1.visited, u, j);
    }
  }

  /** The rejection test reads only settled distances, which relaxation keeps. */
  lemma ViolatesFrozen(g: Graph, source: nat, st: NspState, st1: NspState, u: nat)
    requires WellFormed(g) && IsVertex(g, u) && Sized(g, st) && Sized(g, st1)
    requires Frozen(st, st1) && st1.visited == st.visited && st.visited[u]
    ensures forall j :: 0 <= j < |g[u].adj| ==>
      (Violates(g, source, st1.dis, st1.visited, u, j) <==> Violates(g, source, st.dis, st.visited, u, j))
  {
  }

  /** Removing the minimum and marking it settled keeps the invariant. */
  function Settle(g: Graph, source: nat, st: NspState): (r: NspState)
    requires Inv(g, source, st) && st.heap.size >= 1
    ensures Inv(g, source, r) && Frozen(st, r)
    ensures r.heap.size == st.heap.size - 1
    ensures r.dis == st.dis && r.pred == st.pred && r.numPath == st.numPath
    ensures var u := st.heap.q[1];
      IsVertex(g, u) && !st.visited[u] && r.visited == st.visited[u := true]
      && (!st.visited[source] ==> u == source)
      && (forall v :: IsVertex(g, v) && !st.visited[v] ==> Le(st.dis[u], st.dis[v]))
  {
    RootIsSoleFinite(st.heap, st.dis, source);
    var d := DeleteMin(st.heap, st.dis);
    var r := st.(heap := d.1, visited := st.visited[d.0 := true]);
    assert HeapInv(g, r);
    r
  }

  /** One iteration of the main loop: settle the minimum, and relax its edges
      unless it is an unreached vertex other than the source. */
  function Step(g: Graph, source: nat, st: NspState): (r: Outcome)
    requires Inv(g, source, st) && st.heap.size >= 1
    ensures Inv(g, source, r.st) && Frozen(st, r.st)
    ensures r.st.heap.size == st.heap.size - 1
    ensures var u := st.heap.q[1];
      && IsVertex(g, u) && !st.visited[u] && r.st.visited == st.visited[u := true]
      && (!st.visited[source] ==> u == source)
      && (u != source && st.pred[u] == 0 ==> r.Continue? && r.st.dis == st.dis && r.st.numPath == st.numPath)
      && (r.Reject? <==>
            (u == source || st.pred[u] != 0) &&
            exists j :: 0 <= j < |g[u].adj| && Violates(g, source, st.dis, r.st.visited, u, j))
      && (r.Reject? ==> ((u == source || r.st.pred[u] != 0) &&
            exists j :: 0 <= j < |g[u].adj| && Violates(g, source, r.st.dis, r.st.visited, u, j)))
  {
    var st1 := Settle(g, source, st);
    var u := st.heap.q[1];
    if u != source && st.pred[u] == 0 then Continue(st1)
    else
      assert st.dis[u].Finite?;
      var r := RelaxFrom(g, source, st1, u, 0);
      FrozenTrans(st, st1, r.st);
      r
  }

  /** Some settled, reached vertex has an edge that triggers the rejection test. */
  ghost predicate HasViolation(g: Graph, source: nat, st: NspState)
    requires WellFormed(g) && Sized(g, st)
  {
    exists u, j :: IsVertex(g, u) && st.visited[u] && (u == source || st.pred[u] != 0)
      && 0 <= j < |g[u].adj| && Violates(g, source, st.dis, st.visited, u, j)
  }

  /** The main loop: settle vertices until the heap is empty or an edge is rejected. */
  function Run(g: Graph, source: nat, st: NspState): (r: (bool, NspState))
    requires Inv(g, source, st)
    ensures Inv(g, source, r.1) && Frozen(st, r.1)
    ensures r.0 ==> r.1.heap.size == 0 && forall v :: IsVertex(g, v) ==> r.1.visited[v]
    ensures !r.0 ==> HasViolation(g, source, r.1)
    decreases st.heap.size
  {
    if IsEmpty(st.heap) then (true, st)
    else
      var o := Step(g, source, st);
      if o.Reject? then (false, o.st)
      else
        var r := Run(g, source, o.st);
        FrozenTrans(st, o.st, r.1);
        r
  }

  /** Nothing is settled and nothing has a predecessor; the source alone has
      distance 0 and one path, every other vertex is at infinity with none. */
  ghost predicate Initial(g: Graph, source: nat, st: NspState)
    requires Sized(g, st)
  {
    forall v :: 1 <= v < |g| ==>
      && !st.visited[v] && st.pred[v] == 0
      && st.dis[v] == (if v == source then Finite(0) else Infinity)
      && st.numPath[v] == (if v == source then 1 else 0)
  }

  /** The state before the loop: the heap built over all-infinite distances,
      then the source lowered to 0 and given one path. */
  function Start(g: Graph, source: nat): (st: NspState)
    requires WellFormed(g) && IsVertex(g, source)
    ensures Sized(g, st) && Initial(g, source, st) && Inv(g, source, st)
    ensures st.heap.size + 1 == |g|
  {
    var st := Fresh(g, source);
    StartInv(g, source, st);
    st
  }

  /** The fields as the constructor and the start of the run leave them. */
  function Fresh(g: Graph, source: nat): (st: NspState)
    requires WellFormed(g) && IsVertex(g, source)
    ensures Sized(g, st) && Initial(g, source, st)
    ensures st.heap == StartHeap(|g| - 1, source).0 && st.dis == StartHeap(|g| - 1, source).1
  {
    var r := StartHeap(|g| - 1, source);
    NspState(r.0, r.1, Constant(|g|, 0), Constant(|g|, 0)[source := 1], Constant(|g|, false))
  }

  lemma StartInv(g: Graph, source: nat, st: NspState)
    requires WellFormed(g) && IsVertex(g, source) && Sized(g, st)
    requires st.heap == StartHeap(|g| - 1, source).0 && st.dis == StartHeap(|g| - 1, source).1
    requires Initial(g, source, st)
    ensures Inv(g, source, st) && st.heap.size + 1 == |g|
  {
    assert HeapInv(g, st) by {
      forall v | 1 <= v < |g| ensures InHeap(st.heap, v) <==> !st.visited[v] { }
    }
    assert SourceInv(g, source, st);
    assert PredInv(g, st);
    assert ReachInv(g, source, st);
    assert WalkInv(g, source, st) by {
      assert ValidWalk(g, source, []) && WalkEnd(g, source, []) == source && WalkLength(g, source, []) == 0;
    }
  }

  /** `computeNumberShortestPathToEachVertex`: `true` when every vertex got
      settled, `false` as soon as an edge from a settled vertex reaches
      another settled, non-source vertex without lengthening its distance. */
  function Compute(g: Graph, source: nat): (r: (bool, NspState))
    requires WellFormed(g) && IsVertex(g, source)
    ensures Sized(g, r.1)
    ensures r.1.dis[source] == Finite(0) && r.1.numPath[source] == 1
    ensures PredInv(g, r.1) && ReachInv(g, source, r.1) && WalkInv(g, source, r.1)
    ensures r.0 ==> forall v :: IsVertex(g, v) ==> r.1.visited[v]
    ensures !r.0 ==> HasViolation(g, source, r.1)
  {
    Run(g, source, Start(g, source))
  }
}

=== FILE: nsp_counts.dfy ===
/**
  The path counts of an accepted run, for any edge weights.

  An adjacency entry `q -> v` is tight when `q` is reached and the edge
  makes up `v`'s distance exactly. An accepted run leaves every vertex other
  than the source with a count equal to the sum of the counts of the tails
  of its tight entries, each parallel entry counted once.

  The argument: an entry is added to its target's count while the target
  is unsettled, and an entry scanned after its target was settled is never
  tight, since a tight entry into a settled non-source vertex triggers the
  rejection test. Settled counts and distances never change afterwards.
*/
module NumberShortestPathCounts {
  import opened Vertices
  import opened VertexMinHeap
  import opened NumberShortestPath

  /** Entry `j` of `q` goes to `v` from a reached `q` and adds up to `v`'s distance. */
  ghost predicate Tight(g: Graph, dis: seq<Dist>, q: nat, j: nat, v: nat)
    requires WellFormed(g) && |dis| == |g| && q < |g| && j < |g[q].adj|
  {
    g[q].adj[j] == v && dis[q].Finite? && Add(dis[q], g[q].adjWeight[j]) == dis[v]
  }

  /** `q`'s count once for each of its tight entries among the first `k` into `v`. */
  ghost function EntryCount(g: Graph, dis: seq<Dist>, numPath: seq<int>, q: nat, v: nat, k: nat): int
    requires WellFormed(g) && |dis| == |g| && |numPath| == |g| && q < |g| && k <= |g[q].adj|
  {
    if k == 0 then 0
    else EntryCount(g, dis, numPath, q, v, k - 1) + (if Tight(g, dis, q, k - 1, v) then numPath[q] else 0)
  }

  /** What the vertices `1..n-1` contribute to `v` over all their entries. */
  ghost function InCountBelow(g: Graph, dis: seq<Dist>, numPath: seq<int>, v: nat, n: nat): int
    requires WellFormed(g) && |dis| == |g| && |numPath| == |g| && n <= |g|
  {
    if n <= 1 then 0
    else InCountBelow(g, dis, numPath, v, n - 1) + EntryCount(g, dis, numPath, n - 1, v, |g[n - 1].adj|)
  }

  /** The sum of the counts of the tails of `v`'s tight entries. */
  ghost function InCount(g: Graph, dis: seq<Dist>, numPath: seq<int>, v: nat): int
    requires WellFormed(g) && |dis| == |g| && |numPath| == |g|
  {
    InCountBelow(g, dis, numPath, v, |g|)
  }

  /** What the settled vertices among `1..n-1` have contributed to `v` so far:
      all their entries, except that of `cur`, the vertex being scanned, only
      the first `k` have been looked at. */
  ghost function SettledCount(g: Graph, dis: seq<Dist>, numPath: seq<int>, visited: seq<bool>,
                              cur: nat, k: nat, v: nat, n: nat): int
    requires WellFormed(g) && |dis| == |g| && |numPath| == |g| && |visited| == |g| && n <= |g|
    requires cur < |g| && k <= |g[cur].adj|
  {
    if n <= 1 then 0
    else
      var q := n - 1;
      var c := if !visited[q] then 0
               else if q == cur then EntryCount(g, dis, numPath, q, v, k)
               else EntryCount(g, dis, numPath, q, v, |g[q].adj|);
      SettledCount(g, dis, numPath, visited, cur, k, v, n - 1) + c
  }

  /** Every non-source count is what the scanned entries contributed. */
  ghost predicate CountsMatch(g: Graph, source: nat, st: NspState, cur: nat, k: nat)
    requires WellFormed(g) && Sized(g, st) && cur < |g| && k <= |g[cur].adj|
  {
    forall v :: 1 <= v < |g| && v != source ==>
      st.numPath[v] == SettledCount(g, st.dis, st.numPath, st.visited, cur, k, v, |g|)
  }

  /** Every scanned entry into an unsettled vertex is closed. */
  ghost predicate ScannedClosed(g: Graph, st: NspState, cur: nat, k: nat)
    requires WellFormed(g) && Sized(g, st)
  {
    forall q, j ::
      1 <= q < |g| && st.visited[q] && 0 <= j < |g[q].adj| && (q != cur || j < k) && !st.visited[g[q].adj[j]]
      ==> ClosedEdge(g, st.dis, q, j)
  }

  /** The count contributed by one vertex reads only its own distance and
      count and the target's distance. */
  lemma {:induction false} EntryCountFrame(g: Graph, dis: seq<Dist>, numPath: seq<int>,
                                           dis': seq<Dist>, numPath': seq<int>, q: nat, v: nat, k: nat)
    requires WellFormed(g) && |dis| == |g| && |numPath| == |g| && |dis'| == |g| && |numPath'| == |g|
    requires q < |g| && v < |g| && k <= |g[q].adj|
    requires dis'[q] == dis[q] && numPath'[q] == numPath[q] && dis'[v] == dis[v]
    ensures EntryCount(g, dis', numPath', q, v, k) == EntryCount(g, dis, numPath, q, v, k)
  {
    if k > 0 {
      EntryCountFrame(g, dis, numPath, dis', numPath', q, v, k - 1);
    }
  }

  /** The settled contributions read only settled distances and counts and the target's distance. */
  lemma {:induction false} SettledCountFrame(g: Graph, dis: seq<Dist>, numPath: seq<int>, visited: seq<bool>,
                                             dis': seq<Dist>, numPath': seq<int>, cur: nat, k: nat, v: nat, n: nat)
    requires WellFormed(g) && |dis| == |g| && |numPath| == |g| && |visited| == |g| && n <= |g|
    requires |dis'| == |g| && |numPath'| == |g| && v < |g|
    requires cur < |g| && k <= |g[cur].adj|
    requires forall q :: 1 <= q < |g| && visited[q] ==> dis'[q] == dis[q] && numPath'[q] == numPath[q]
    requires dis'[v] == dis[v]
    ensures SettledCount(g, dis', numPath', visited, cur, k, v, n) == SettledCount(g, dis, numPath, visited, cur, k, v, n)
  {
    if n > 1 {
      SettledCountFrame(g, dis, numPath, visited, dis', numPath', cur, k, v, n - 1);
      var q := n - 1;
      if visited[q] {
        EntryCountFrame(g, dis, numPath, dis', numPath', q, v, if q == cur then k else |g[q].adj|);
      }
    }
  }

  /** Scanning one more entry of `cur` adds `cur`'s count if that entry is tight. */
  lemma {:induction false} SettledCountNext(g: Graph, dis: seq<Dist>, numPath: seq<int>, visited: seq<bool>,
                                            cur: nat, k: nat, v: nat, n: nat)
    requires WellFormed(g) && |dis| == |g| && |numPath| == |g| && |visited| == |g| && n <= |g|
    requires 1 <= cur < n && visited[cur] && k < |g[cur].adj|
    ensures SettledCount(g, dis, numPath, visited, cur, k + 1, v, n)
         == SettledCount(g, dis, numPath, visited, cur, k, v, n) + (if Tight(g, dis, cur, k, v) then numPath[cur] else 0)
  {
    if n - 1 > cur {
      SettledCountNext(g, dis, numPath, visited, cur, k, v, n - 1);
    } else {
      SettledCountSame(g, dis, numPath, visited, cur, k, cur, k + 1, v, n - 1);
    }
  }

  /** Below `cur`, the position reached in `cur`'s entries does not matter. */
  lemma {:induction false} SettledCountSame(g: Graph, dis: seq<Dist>, numPath: seq<int>, visited: seq<bool>,
                                            cur: nat, k: nat, cur': nat, k': nat, v: nat, n: nat)
    requires WellFormed(g) && |dis| == |g| && |numPath| == |g| && |visited| == |g| && n <= |g|
    requires cur < |g| && k <= |g[cur].adj| && cur' < |g| && k' <= |g[cur'].adj|
    requires forall q :: 1 <= q < n && visited[q] ==> q != cur && q != cur'
    ensures SettledCount(g, dis, numPath, visited, cur, k, v, n) == SettledCount(g, dis, numPath, visited, cur', k', v, n)
  {
    if n > 1 {
      SettledCountSame(g, dis, numPath, visited, cur, k, cur', k', v, n - 1);
    }
  }

  /** A vertex whose scanned entries all miss being tight contributes nothing. */
  lemma {:induction false} EntryCountZero(g: Graph, dis: seq<Dist>, numPath: seq<int>, q: nat, v: nat, k: nat)
    requires WellFormed(g) && |dis| == |g| && |numPath| == |g| && q < |g| && k <= |g[q].adj|
    requires forall j :: 0 <= j < k ==> !Tight(g, dis, q, j, v)
    ensures EntryCount(g, dis, numPath, q, v, k) == 0
  {
    if k > 0 {
      EntryCountZero(g, dis, numPath, q, v, k - 1);
    }
  }

  /** If no scanned entry into `v` is tight, nothing has been contributed to `v`. */
  lemma {:induction false} SettledCountZero(g: Graph, dis: seq<Dist>, numPath: seq<int>, visited: seq<bool>,
                                            cur: nat, k: nat, v: nat, n: nat)
    requires WellFormed(g) && |dis| == |g| && |numPath| == |g| && |visited| == |g| && n <= |g|
    requires cur < |g| && k <= |g[cur].adj|
    requires forall q, j ::
      1 <= q < n && visited[q] && 0 <= j < |g[q].adj| && (q != cur || j < k) ==> !Tight(g, dis, q, j, v)
    ensures SettledCount(g, dis, numPath, visited, cur, k, v, n) == 0
  {
    if n > 1 {
      SettledCountZero(g, dis, numPath, visited, cur, k, v, n - 1);
      var q := n - 1;
      if visited[q] {
        EntryCountZero(g, dis, numPath, q, v, if q == cur then k else |g[q].adj|);
      }
    }
  }

  /** An unreached vertex contributes nothing. */
  lemma {:induction false} EntryCountUnreached(g: Graph, dis: seq<Dist>, numPath: seq<int>, q: nat, v: nat, k: nat)
    requires WellFormed(g) && |dis| == |g| && |numPath| == |g| && q < |g| && k <= |g[q].adj|
    requires dis[q] == Infinity
    ensures EntryCount(g, dis, numPath, q, v, k) == 0
  {
    if k > 0 {
      EntryCountUnreached(g, dis, numPath, q, v, k - 1);
    }
  }

  /** Once `cur` has contributed as much as all its entries would, it can be
      counted as fully scanned. */
  lemma {:induction false} SettledCountRetire(g: Graph, dis: seq<Dist>, numPath: seq<int>, visited: seq<bool>,
                                              cur: nat, k: nat, v: nat, n: nat)
    requires WellFormed(g) && |dis| == |g| && |numPath| == |g| && |visited| == |g| && n <= |g|
    requires cur < |g| && k <= |g[cur].adj|
    requires EntryCount(g, dis, numPath, cur, v, k) == EntryCount(g, dis, numPath, cur, v, |g[cur].adj|)
    ensures SettledCount(g, dis, numPath, visited, cur, k, v, n) == SettledCount(g, dis, numPath, visited, 0, 0, v, n)
  {
    if n > 1 {
      SettledCountRetire(g, dis, numPath, visited, cur, k, v, n - 1);
    }
  }

  /** Settling `u` with none of its entries scanned adds nothing. */
  lemma {:induction false} SettledCountSettle(g: Graph, dis: seq<Dist>, numPath: seq<int>, visited: seq<bool>,
                                              u: nat, v: nat, n: nat)
    requires WellFormed(g) && |dis| == |g| && |numPath| == |g| && |visited| == |g| && n <= |g|
    requires 1 <= u < |g| && !visited[u]
    ensures SettledCount(g, dis, numPath, visited[u := true], u, 0, v, n) == SettledCount(g, dis, numPath, visited, 0, 0, v, n)
  {
    if n > 1 {
      SettledCountSettle(g, dis, numPath, visited, u, v, n - 1);
    }
  }

  /** With every vertex settled and scanned, the contributions are the full in-count. */
  lemma {:induction false} SettledCountAll(g: Graph, dis: seq<Dist>, numPath: seq<int>, visited: seq<bool>, v: nat, n: nat)
    requires WellFormed(g) && |dis| == |g| && |numPath| == |g| && |visited| == |g| && n <= |g|
    requires forall q :: 1 <= q < n ==> visited[q]
    ensures SettledCount(g, dis, numPath, visited, 0, 0, v, n) == InCountBelow(g, dis, numPath, v, n)
  {
    if n > 1 {
      SettledCountAll(g, dis, numPath, visited, v, n - 1);
    }
  }

  /** With nothing settled nothing has been contributed. */
  lemma {:induction false} SettledCountNone(g: Graph, dis: seq<Dist>, numPath: seq<int>, visited: seq<bool>, v: nat, n: nat)
    requires WellFormed(g) && |dis| == |g| && |numPath| == |g| && |visited| == |g| && n <= |g|
    requires forall q :: 1 <= q < n ==> !visited[q]
    ensures SettledCount(g, dis, numPath, visited, 0, 0, v, n) == 0
  {
    if n > 1 {
      SettledCountNone(g, dis, numPath, visited, v, n - 1);
    }
  }

  /** Scanning an entry that leaves the state unchanged: the entry is not
      tight, so no count changes, and it is closed if its target is unsettled. */
  lemma EdgeCountsKeep(g: Graph, source: nat, st: NspState, u: nat, k: nat)
    requires WellFormed(g) && Sized(g, st) && IsVertex(g, u) && st.visited[u] && k < |g[u].adj|
    requires CountsMatch(g, source, st, u, k) && ScannedClosed(g, st, u, k)
    requires var v := g[u].adj[k];
      !st.visited[v] ==> Less(st.dis[v], Add(st.dis[u], g[u].adjWeight[k]))
    requires !Violates(g, source, st.dis, st.visited, u, k)
    ensures CountsMatch(g, source, st, u, k + 1) && ScannedClosed(g, st, u, k + 1)
  {
    forall t | 1 <= t < |g| && t != source
      ensures st.numPath[t] == SettledCount(g, st.dis, st.numPath, st.visited, u, k + 1, t, |g|)
    {
      SettledCountNext(g, st.dis, st.numPath, st.visited, u, k, t, |g|);
    }
  }

  /** The improving branch: the target's count restarts from `u`'s, since
      no earlier scanned entry reaches the new, lower distance. */
  lemma EdgeCountsImprove(g: Graph, source: nat, st: NspState, r: NspState, u: nat, k: nat)
    requires WellFormed(g) && Sized(g, st) && Sized(g, r) && IsVertex(g, u) && st.visited[u] && k < |g[u].adj|
    requires st.dis[u].Finite?
    requires CountsMatch(g, source, st, u, k) && ScannedClosed(g, st, u, k)
    requires var v := g[u].adj[k]; var nd := Add(st.dis[u], g[u].adjWeight[k]);
      && !st.visited[v] && Less(nd, st.dis[v])
      && r.visited == st.visited && r.dis == st.dis[v := nd] && r.numPath == st.numPath[v := st.numPath[u]]
    ensures CountsMatch(g, source, r, u, k + 1) && ScannedClosed(g, r, u, k + 1)
  {
    var v := g[u].adj[k];
    var nd := Add(st.dis[u], g[u].adjWeight[k]);
    forall t | 1 <= t < |g| && t != source
      ensures r.numPath[t] == SettledCount(g, r.dis, r.numPath, r.visited, u, k + 1, t, |g|)
    {
      SettledCountNext(g, r.dis, r.numPath, r.visited, u, k, t, |g|);
      if t == v {
        forall q, j | 1 <= q < |g| && r.visited[q] && 0 <= j < |g[q].adj| && (q != u || j < k)
          ensures !Tight(g, r.dis, q, j, v)
        {
          if g[q].adj[j] == v {
            assert ClosedEdge(g, st.dis, q, j);
          }
        }
        SettledCountZero(g, r.dis, r.numPath, r.visited, u, k, v, |g|);
      } else {
        SettledCountFrame(g, st.dis, st.numPath, st.visited, r.dis, r.numPath, u, k, t, |g|);
      }
    }
    forall q, j | 1 <= q < |g| && r.visited[q] && 0 <= j < |g[q].adj| && (q != u || j < k + 1)
      && !r.visited[g[q].adj[j]]
      ensures ClosedEdge(g, r.dis, q, j)
    {
      if q != u || j < k {
        var t := g[q].adj[j];
        assert ClosedEdge(g, st.dis, q, j);
        LeTransitive(r.dis[t], st.dis[t], Add(st.dis[q], g[q].adjWeight[j]));
      }
    }
  }

  /** The tie branch: `u`'s count is added once more, for the entry just scanned. */
  lemma EdgeCountsTie(g: Graph, source: nat, st: NspState, r: NspState, u: nat, k: nat)
    requires WellFormed(g) && Sized(g, st) && Sized(g, r) && IsVertex(g, u) && st.visited[u] && k < |g[u].adj|
    requires st.dis[u].Finite?
    requires CountsMatch(g, source, st, u, k) && ScannedClosed(g, st, u, k)
    requires var v := g[u].adj[k]; var nd := Add(st.dis[u], g[u].adjWeight[k]);
      && !st.visited[v] && nd == st.dis[v]
      && r.visited == st.visited && r.dis == st.dis && r.numPath == st.numPath[v := st.numPath[v] + st.numPath[u]]
    ensures CountsMatch(g, source, r, u, k + 1) && ScannedClosed(g, r, u, k + 1)
  {
    var v := g[u].adj[k];
    forall t | 1 <= t < |g| && t != source
      ensures r.numPath[t] == SettledCount(g, r.dis, r.numPath, r.visited, u, k + 1, t, |g|)
    {
      SettledCountNext(g, r.dis, r.numPath, r.visited, u, k, t, |g|);
      SettledCountFrame(g, st.dis, st.numPath, st.visited, r.dis, r.numPath, u, k, t, |g|);
    }
  }

  /** Relaxing entry `k` of `u` when it passes the rejection test keeps the counts matched. */
  lemma RelaxEdgeCounts(g: Graph, source: nat, st: NspState, u: nat, k: nat)
    requires Ready(g, st) && IsVertex(g, u) && st.visited[u] && st.dis[u].Finite? && k < |g[u].adj|
    requires CountsMatch(g, source, st, u, k) && ScannedClosed(g, st, u, k)
    requires var r := RelaxEdge(g, source, st, u, k);
      !Violates(g, source, r.dis, r.visited, u, k)
    ensures var r := RelaxEdge(g, source, st, u, k);
      CountsMatch(g, source, r, u, k + 1) && ScannedClosed(g, r, u, k + 1)
  {
    var r := RelaxEdge(g, source, st, u, k);
    var v := g[u].adj[k];
    var nd := Add(st.dis[u], g[u].adjWeight[k]);
    if st.visited[v] || Less(st.dis[v], nd) {
      EdgeCountsKeep(g, source, st, u, k);
    } else if Less(nd, st.dis[v]) {
      EdgeCountsImprove(g, source, st, r, u, k);
    } else {
      EdgeCountsTie(g, source, st, r, u, k);
    }
  }

  /** The same, for the relaxation step of the edge loop. */
  lemma EdgeCounts(g: Graph, source: nat, st: NspState, u: nat, k: nat)
    requires Inv(g, source, st) && IsVertex(g, u) && st.visited[u] && st.dis[u].Finite? && k < |g[u].adj|
    requires CountsMatch(g, source, st, u, k) && ScannedClosed(g, st, u, k)
    requires var st1 := RelaxEdgeInLoop(g, source, st, u, k);
      !Violates(g, source, st1.dis, st1.visited, u, k)
    ensures var st1 := RelaxEdgeInLoop(g, source, st, u, k);
      CountsMatch(g, source, st1, u, k + 1) && ScannedClosed(g, st1, u, k + 1)
  {
    InvReady(g, source, st);
    assert RelaxEdgeInLoop(g, source, st, u, k) == RelaxEdge(g, source, st, u, k);
    RelaxEdgeCounts(g, source, st, u, k);
  }

  /** Scanning the entries `k..` of `u`: if no entry is rejected, the counts
      match with `u` fully scanned. */
  lemma {:induction false} RelaxFromCounts(g: Graph, source: nat, st: NspState, u: nat, k: nat)
    requires Inv(g, source, st) && IsVertex(g, u) && st.visited[u] && st.dis[u].Finite? && k <= |g[u].adj|
    requires CountsMatch(g, source, st, u, k) && ScannedClosed(g, st, u, k)
    ensures var r := RelaxFrom(g, source, st, u, k);
      r.Continue? ==> CountsMatch(g, source, r.st, 0, 0) && ScannedClosed(g, r.st, 0, 0)
    decreases |g[u].adj| - k, 1
  {
    if k == |g[u].adj| {
      assert RelaxFrom(g, source, st, u, k) == Continue(st);
      ScannedAll(g, source, st, u);
    } else {
      var st1 := RelaxEdgeInLoop(g, source, st, u, k);
      if Violates(g, source, st1.dis, st1.visited, u, k) {
        assert RelaxFrom(g, source, st, u, k) == Reject(st1);
      } else {
        RelaxFromCountsStep(g, source, st, u, k);
      }
    }
  }

  /** An entry that passes the rejection test, then the rest of the loop. */
  lemma {:induction false} RelaxFromCountsStep(g: Graph, source: nat, st: NspState, u: nat, k: nat)
    requires Inv(g, source, st) && IsVertex(g, u) && st.visited[u] && st.dis[u].Finite? && k < |g[u].adj|
    requires CountsMatch(g, source, st, u, k) && ScannedClosed(g, st, u, k)
    requires var st1 := RelaxEdgeInLoop(g, source, st, u, k);
      !Violates(g, source, st1.dis, st1.visited, u, k)
    ensures var r := RelaxFrom(g, source, st, u, k);
      r.Continue? ==> CountsMatch(g, source, r.st, 0, 0) && ScannedClosed(g, r.st, 0, 0)
    decreases |g[u].adj| - k, 0
  {
    var st1 := RelaxEdgeInLoop(g, source, st, u, k);
    EdgeCounts(g, source, st, u, k);
    assert RelaxFrom(g, source, st, u, k) == RelaxFrom(g, source, st1, u, k + 1);
    RelaxFromCounts(g, source, st1, u, k + 1);
  }

  /** With every entry of `u` scanned, `u` counts as fully scanned. */
  lemma ScannedAll(g: Graph, source: nat, st: NspState, u: nat)
    requires WellFormed(g) && Sized(g, st) && IsVertex(g, u)
    requires CountsMatch(g, source, st, u, |g[u].adj|) && ScannedClosed(g, st, u, |g[u].adj|)
    ensures CountsMatch(g, source, st, 0, 0) && ScannedClosed(g, st, 0, 0)
  {
    forall t | 1 <= t < |g| && t != source
      ensures st.numPath[t] == SettledCount(g, st.dis, st.numPath, st.visited, 0, 0, t, |g|)
    {
      SettledCountRetire(g, st.dis, st.numPath, st.visited, u, |g[u].adj|, t, |g|);
    }
  }

  /** Settling the minimum: it joins the settled vertices with none of its entries scanned. */
  lemma SettleCounts(g: Graph, source: nat, st: NspState)
    requires Inv(g, source, st) && st.heap.size >= 1
    requires CountsMatch(g, source, st, 0, 0) && ScannedClosed(g, st, 0, 0)
    ensures var st1 := Settle(g, source, st);
      CountsMatch(g, source, st1, st.heap.q[1], 0) && ScannedClosed(g, st1, st.heap.q[1], 0)
  {
    var st1 := Settle(g, source, st);
    var u := st.heap.q[1];
    forall t | 1 <= t < |g| && t != source
      ensures st1.numPath[t] == SettledCount(g, st1.dis, st1.numPath, st1.visited, u, 0, t, |g|)
    {
      SettledCountSettle(g, st.dis, st.numPath, st.visited, u, t, |g|);
    }
  }

  /** A settled vertex without a distance is skipped; its entries are never tight. */
  lemma SkipCounts(g: Graph, source: nat, st: NspState, u: nat)
    requires WellFormed(g) && Sized(g, st) && IsVertex(g, u) && st.visited[u] && st.dis[u] == Infinity
    requires CountsMatch(g, source, st, u, 0) && ScannedClosed(g, st, u, 0)
    ensures CountsMatch(g, source, st, 0, 0) && ScannedClosed(g, st, 0, 0)
  {
    forall t | 1 <= t < |g| && t != source
      ensures st.numPath[t] == SettledCount(g, st.dis, st.numPath, st.visited, 0, 0, t, |g|)
    {
      EntryCountUnreached(g, st.dis, st.numPath, u, t, |g[u].adj|);
      SettledCountRetire(g, st.dis, st.numPath, st.visited, u, 0, t, |g|);
    }
  }

  /** One iteration of the main loop keeps the counts matched unless it rejects. */
  lemma StepCounts(g: Graph, source: nat, st: NspState)
    requires Inv(g, source, st) && st.heap.size >= 1
    requires CountsMatch(g, source, st, 0, 0) && ScannedClosed(g, st, 0, 0)
    ensures var r := Step(g, source, st);
      r.Continue? ==> CountsMatch(g, source, r.st, 0, 0) && ScannedClosed(g, r.st, 0, 0)
  {
    var u := st.heap.q[1];
    var st1 := Settle(g, source, st);
    SettleCounts(g, source, st);
    if u != source && st.pred[u] == 0 {
      assert Step(g, source, st) == Continue(st1);
      SkipCounts(g, source, st1, u);
    } else {
      assert st.dis[u].Finite?;
      assert Step(g, source, st) == RelaxFrom(g, source, st1, u, 0);
      RelaxFromCounts(g, source, st1, u, 0);
    }
  }

  /** The main loop: an accepted run ends with the counts matched. */
  lemma {:induction false} RunCounts(g: Graph, source: nat, st: NspState)
    requires Inv(g, source, st)
    requires CountsMatch(g, source, st, 0, 0) && ScannedClosed(g, st, 0, 0)
    ensures var r := Run(g, source, st);
      r.0 ==> CountsMatch(g, source, r.1, 0, 0)
    decreases st.heap.size
  {
    if !IsEmpty(st.heap) {
      StepCounts(g, source, st);
      var o := Step(g, source, st);
      if o.Continue? {
        RunCounts(g, source, o.st);
      }
    }
  }

  /** Before the loop nothing is settled and only the source has a count. */
  lemma StartCounts(g: Graph, source: nat)
    requires WellFormed(g) && IsVertex(g, source)
    ensures var st := Start(g, source);
      CountsMatch(g, source, st, 0, 0) && ScannedClosed(g, st, 0, 0)
  {
    var st := Start(g, source);
    forall t | 1 <= t < |g| && t != source
      ensures st.numPath[t] == SettledCount(g, st.dis, st.numPath, st.visited, 0, 0, t, |g|)
    {
      SettledCountNone(g, st.dis, st.numPath, st.visited, t, |g|);
    }
  }

  /** An accepted run leaves every vertex other than the source with the sum
      of the counts over its tight entries, whatever the edge weights. An
      unreached vertex has no tight entry and a count of 0. */
  lemma ComputeCounts(g: Graph, source: nat)
    requires WellFormed(g) && IsVertex(g, source)
    ensures var r := Compute(g, source);
      r.0 ==> forall v :: IsVertex(g, v) && v != source ==> r.1.numPath[v] == InCount(g, r.1.dis, r.1.numPath, v)
  {
    StartCounts(g, source);
    RunCounts(g, source, Start(g, source));
    var r := Compute(g, source);
    if r.0 {
      forall v | IsVertex(g, v) && v != source
        ensures r.1.numPath[v] == InCount(g, r.1.dis, r.1.numPath, v)
      {
        SettledCountAll(g, r.1.dis, r.1.numPath, r.1.visited, v, |g|);
      }
    }
  }
}

=== FILE: nsp_proofs.dfy ===
/**
  With non-negative edge weights, an accepted run of the shortest-path count
  computes true shortest distances: every finite distance is the length of
  some walk from the source and no walk is shorter, and a vertex keeps the
  infinite distance exactly when no walk reaches it.

  The argument is the classic one for Dijkstra's algorithm: settled vertices
  never have a larger distance than unsettled ones, and every edge out of a
  settled vertex is relaxed. An edge back into a settled non-source vertex
  always triggers the rejection test under non-negative weights, so an
  accepted run has relaxed every edge.
*/
module NumberShortestPathProofs {
  import opened Vertices
  import opened VertexMinHeap
  import opened NumberShortestPath

  ghost predicate NonNegDis(g: Graph, dis: seq<Dist>)
    requires |dis| == |g|
  {
    forall v :: 1 <= v < |g| && dis[v].Finite? ==> dis[v].value >= 0
  }

  /** Under non-negative weights, relaxing an edge out of the latest settled
      vertex fails the rejection test exactly when the edge reaches a settled
      vertex other than the source: a settled distance is never above `u`'s,
      and the edge only adds to it. */
  lemma SettledTargetViolates(g: Graph, source: nat, dis: seq<Dist>, visited: seq<bool>, u: nat, k: nat)
    requires WellFormed(g) && |dis| == |g| && |visited| == |g|
    requires IsVertex(g, u) && visited[u] && dis[u].Finite? && k < |g[u].adj|
    requires NonNegativeWeights(g)
    requires forall a :: 1 <= a < |g| && visited[a] ==> Le(dis[a], dis[u])
    ensures Violates(g, source, dis, visited, u, k) <==> visited[g[u].adj[k]] && g[u].adj[k] != source
  {
    assert g[u].adjWeight[k] >= 0;
    if visited[g[u].adj[k]] {
      assert Le(dis[g[u].adj[k]], dis[u]);
    }
  }

  /** One edge relaxation out of the latest settled vertex `u`. */
  lemma EdgeGood(g: Graph, source: nat, st: NspState, u: nat, k: nat)
    requires Ready(g, st) && IsVertex(g, source) && st.dis[source] == Finite(0)
    requires IsVertex(g, u) && st.visited[u] && st.dis[u].Finite?
    requires k < |g[u].adj|
    requires NonNegativeWeights(g) && SettleOrder(g, st.dis, st.visited) && NonNegDis(g, st.dis)
    requires forall a :: 1 <= a < |g| && st.visited[a] ==> Le(st.dis[a], st.dis[u])
    ensures var r := RelaxEdge(g, source, st, u, k);
      && SettleOrder(g, r.dis, r.visited) && NonNegDis(g, r.dis) && DisNotAbove(g, st.dis, r.dis)
      && (!Violates(g, source, st.dis, st.visited, u, k) ==> ClosedEdge(g, r.dis, u, k))
  {
    var r := RelaxEdge(g, source, st, u, k);
    var v := g[u].adj[k];
    var w := g[u].adjWeight[k];
    var nd := Add(st.dis[u], w);
    assert w >= 0;
    if !st.visited[v] {
      forall a, b | 1 <= a < |g| && 1 <= b < |g| && r.visited[a] && !r.visited[b]
        ensures Le(r.dis[a], r.dis[b])
      {
        assert Le(st.dis[a], st.dis[u]);
        if b == v && r.dis[b] != st.dis[b] {
          assert r.dis[b] == nd;
        }
      }
    }
  }

  /** Relaxing the edges `k..` of the latest settled vertex `u`. */
  lemma {:induction false} RelaxFromGood(g: Graph, source: nat, st: NspState, u: nat, k: nat)
    requires Inv(g, source, st) && IsVertex(g, u) && st.visited[u] && st.dis[u].Finite?
    requires k <= |g[u].adj|
    requires NonNegativeWeights(g) && SettleOrder(g, st.dis, st.visited) && NonNegDis(g, st.dis)
    requires forall a :: 1 <= a < |g| && st.visited[a] ==> Le(st.dis[a], st.dis[u])
    requires ClosedExcept(g, st.dis, st.visited, u) && forall j :: 0 <= j < k ==> ClosedEdge(g, st.dis, u, j)
    ensures var r := RelaxFrom(g, source, st, u, k);
      && SettleOrder(g, r.st.dis, r.st.visited) && NonNegDis(g, r.st.dis)
      && (r.Continue? ==> ClosedExcept(g, r.st.dis, r.st.visited, 0))
    decreases |g[u].adj| - k, 1
  {
    if k == |g[u].adj| {
      assert RelaxFrom(g, source, st, u, k) == Continue(st);
      AllEdgesOfUClosed(g, st.dis, st.visited, u);
    } else {
      var st1 := RelaxEdgeInLoop(g, source, st, u, k);
      if Violates(g, source, st1.dis, st1.visited, u, k) {
        RelaxFromGoodReject(g, source, st, u, k);
      } else {
        RelaxFromGoodStep(g, source, st, u, k);
      }
    }
  }

  /** An edge that passes the rejection test, then the rest of the loop. */
  lemma {:induction false} RelaxFromGoodStep(g: Graph, source: nat, st: NspState, u: nat, k: nat)
    requires Inv(g, source, st) && IsVertex(g, u) && st.visited[u] && st.dis[u].Finite?
    requires k < |g[u].adj|
    requires NonNegativeWeights(g) && SettleOrder(g, st.dis, st.visited) && NonNegDis(g, st.dis)
    requires forall a :: 1 <= a < |g| && st.visited[a] ==> Le(st.dis[a], st.dis[u])
    requires ClosedExcept(g, st.dis, st.visited, u) && forall j :: 0 <= j < k ==> ClosedEdge(g, st.dis, u, j)
    requires var st1 := RelaxEdgeInLoop(g, source, st, u, k);
      !Violates(g, source, st1.dis, st1.visited, u, k)
    ensures var r := RelaxFrom(g, source, st, u, k);
      && SettleOrder(g, r.st.dis, r.st.visited) && NonNegDis(g, r.st.dis)
      && (r.Continue? ==> ClosedExcept(g, r.st.dis, r.st.visited, 0))
    decreases |g[u].adj| - k, 0
  {
    var st1 := RelaxEdgeInLoop(g, source, st, u, k);
    EdgeStepGood(g, source, st, u, k);
    assert RelaxFrom(g, source, st, u, k) == RelaxFrom(g, source, st1, u, k + 1);
    RelaxFromGood(g, source, st1, u, k + 1);
  }

  /** An edge that passes the rejection test leaves the state ready for the next edge. */
  lemma EdgeStepGood(g: Graph, source: nat, st: NspState, u: nat, k: nat)
    requires Inv(g, source, st) && IsVertex(g, u) && st.visited[u] && st.dis[u].Finite?
    requires k < |g[u].adj|
    requires NonNegativeWeights(g) && SettleOrder(g, st.dis, st.visited) && NonNegDis(g, st.dis)
    requires forall a :: 1 <= a < |g| && st.visited[a] ==> Le(st.dis[a], st.dis[u])
    requires ClosedExcept(g, st.dis, st.visited, u) && forall j :: 0 <= j < k ==> ClosedEdge(g, st.dis, u, j)
    requires var st1 := RelaxEdgeInLoop(g, source, st, u, k);
      !Violates(g, source, st1.dis, st1.visited, u, k)
    ensures var st1 := RelaxEdgeInLoop(g, source, st, u, k);
      && SettleOrder(g, st1.dis, st1.visited) && NonNegDis(g, st1.dis)
      && (forall a :: 1 <= a < |g| && st1.visited[a] ==> Le(st1.dis[a], st1.dis[u]))
      && ClosedExcept(g, st1.dis, st1.visited, u) && forall j :: 0 <= j < k + 1 ==> ClosedEdge(g, st1.dis, u, j)
  {
    var st1 := RelaxEdgeInLoop(g, source, st, u, k);
    assert st1 == RelaxEdge(g, source, st, u, k);
    InvReady(g, source, st);
    EdgeGood(g, source, st, u, k);
    assert forall a :: 0 <= a < |g| && st.visited[a] ==> st1.dis[a] == st.dis[a];
    ClosedCarry(g, st.dis, st.visited, st1.dis, u, k);
  }

  /** The rejecting edge ends the loop with the state it left. */
  lemma RelaxFromGoodReject(g: Graph, source: nat, st: NspState, u: nat, k: nat)
    requires Inv(g, source, st) && IsVertex(g, u) && st.visited[u] && st.dis[u].Finite?
    requires k < |g[u].adj|
    requires NonNegativeWeights(g) && SettleOrder(g, st.dis, st.visited) && NonNegDis(g, st.dis)
    requires forall a :: 1 <= a < |g| && st.visited[a] ==> Le(st.dis[a], st.dis[u])
    requires var st1 := RelaxEdgeInLoop(g, source, st, u, k);
      Violates(g, source, st1.dis, st1.visited, u, k)
    ensures var r := RelaxFrom(g, source, st, u, k);
      r.Reject? && SettleOrder(g, r.st.dis, r.st.visited) && NonNegDis(g, r.st.dis)
  {
    var st1 := RelaxEdgeInLoop(g, source, st, u, k);
    assert st1 == RelaxEdge(g, source, st, u, k);
    InvReady(g, source, st);
    EdgeGood(g, source, st, u, k);
    assert RelaxFrom(g, source, st, u, k) == Reject(st1);
  }

  /** Settling the minimum keeps settled distances below unsettled ones. */
  lemma SettleGood(g: Graph, source: nat, st: NspState)
    requires Inv(g, source, st) && st.heap.size >= 1
    requires SettleOrder(g, st.dis, st.visited) && NonNegDis(g, st.dis) && ClosedExcept(g, st.dis, st.visited, 0)
    ensures var st1 := Settle(g, source, st);
      && SettleOrder(g, st1.dis, st1.visited) && NonNegDis(g, st1.dis) && ClosedExcept(g, st1.dis, st1.visited, st.heap.q[1])
      && forall a :: 1 <= a < |g| && st1.visited[a] ==> Le(st1.dis[a], st1.dis[st.heap.q[1]])
  {
    var st1 := Settle(g, source, st);
    var u := st.heap.q[1];
    forall a, b | 1 <= a < |g| && 1 <= b < |g| && st1.visited[a] && !st1.visited[b]
      ensures Le(st1.dis[a], st1.dis[b])
    {
      if a != u { assert st.visited[a]; }
    }
    forall a | 1 <= a < |g| && st1.visited[a] ensures Le(st1.dis[a], st1.dis[u]) {
      if a != u { assert st.visited[a]; }
    }
  }

  /** One iteration of the main loop keeps the order and closes the settled vertex's edges. */
  lemma StepGood(g: Graph, source: nat, st: NspState)
    requires Inv(g, source, st) && st.heap.size >= 1
    requires NonNegativeWeights(g) && SettleOrder(g, st.dis, st.visited) && NonNegDis(g, st.dis) && ClosedExcept(g, st.dis, st.visited, 0)
    ensures var r := Step(g, source, st);
      && SettleOrder(g, r.st.dis, r.st.visited) && NonNegDis(g, r.st.dis)
      && (r.Continue? ==> ClosedExcept(g, r.st.dis, r.st.visited, 0))
  {
    var u := st.heap.q[1];
    SettleGood(g, source, st);
    if u != source && st.pred[u] == 0 {
      StepGoodUnreached(g, source, st);
    } else {
      var st1 := Settle(g, source, st);
      assert st.dis[u].Finite?;
      assert Step(g, source, st) == RelaxFrom(g, source, st1, u, 0);
      RelaxFromGood(g, source, st1, u, 0);
    }
  }

  /** An unreached minimum has infinite distance, so its edges are closed trivially. */
  lemma StepGoodUnreached(g: Graph, source: nat, st: NspState)
    requires Inv(g, source, st) && st.heap.size >= 1
    requires st.heap.q[1] != source && st.pred[st.heap.q[1]] == 0
    requires var st1 := Settle(g, source, st);
      SettleOrder(g, st1.dis, st1.visited) && NonNegDis(g, st1.dis) && ClosedExcept(g, st1.dis, st1.visited, st.heap.q[1])
    ensures var r := Step(g, source, st);
      && SettleOrder(g, r.st.dis, r.st.visited) && NonNegDis(g, r.st.dis) && ClosedExcept(g, r.st.dis, r.st.visited, 0)
  {
    var st1 := Settle(g, source, st);
    var u := st.heap.q[1];
    assert Step(g, source, st) == Continue(st1);
    assert st1.dis[u] == Infinity;
    forall a, j | 1 <= a < |g| && st1.visited[a] && 0 <= j < |g[a].adj|
      ensures ClosedEdge(g, st1.dis, a, j)
    {
    }
  }

  /** The whole loop: an accepted run ends with every edge closed. */
  lemma {:induction false} RunGood(g: Graph, source: nat, st: NspState)
    requires Inv(g, source, st)
    requires NonNegativeWeights(g) && SettleOrder(g, st.dis, st.visited) && NonNegDis(g, st.dis) && ClosedExcept(g, st.dis, st.visited, 0)
    ensures var r := Run(g, source, st);
      r.0 ==> ClosedExcept(g, r.1.dis, r.1.visited, 0) && NonNegDis(g, r.1.dis) && Inv(g, source, r.1)
    decreases st.heap.size
  {
    if !IsEmpty(st.heap) {
      StepGood(g, source, st);
      var o := Step(g, source, st);
      if o.Continue? {
        RunGood(g, source, o.st);
      }
    }
  }

  /** Nothing is settled before the loop, and only the source has a distance. */
  lemma StartGood(g: Graph, source: nat)
    requires WellFormed(g) && IsVertex(g, source)
    ensures var st := Start(g, source);
      SettleOrder(g, st.dis, st.visited) && NonNegDis(g, st.dis) && ClosedExcept(g, st.dis, st.visited, 0)
  {
  }

  /** An accepted run under non-negative weights leaves every edge closed. */
  lemma AcceptedRunClosed(g: Graph, source: nat)
    requires WellFormed(g) && IsVertex(g, source) && NonNegativeWeights(g)
    ensures var r := Compute(g, source);
      && |r.1.dis| == |g| && r.1.dis[source] == Finite(0)
      && Realised(g, source, r.1.dis)
      && (r.0 ==> forall a, j :: 1 <= a < |g| && 0 <= j < |g[a].adj| ==> ClosedEdge(g, r.1.dis, a, j))
  {
    StartGood(g, source);
    RunGood(g, source, Start(g, source));
  }

  /** Under non-negative weights an accepted run computes shortest distances:
      a finite distance is the length of a walk from the source and no walk
      to that vertex is shorter; an infinite one means no walk reaches it. */
  lemma ComputeShortest(g: Graph, source: nat)
    requires WellFormed(g) && IsVertex(g, source) && NonNegativeWeights(g)
    ensures var r := Compute(g, source);
      r.0 ==> ShortestDistances(g, source, r.1.dis)
  {
    AcceptedRunClosed(g, source);
    var r := Compute(g, source);
    if r.0 {
      ClosedIsShortest(g, source, r.1.dis);
    }
  }
}

=== FILE: nsp_runs.dfy ===
/**
  Three small runs of `Compute` showing that its rejection test is not a
  test for cycles of weight zero or less: a graph without any cycle is
  rejected, while a graph with a negative cycle and a graph with a
  zero-weight cycle through the source are accepted.
*/
module NumberShortestPathRuns {
  import opened Vertices
  import opened VertexMinHeap
  import opened NumberShortestPath
  import opened NonPositiveCycles

  /** The method as its documentation describes it: the graph is accepted
      exactly when no cycle weighs zero or less. The distances and counts
      are those the code's run leaves. */
  function ComputeAsDocumented(g: Graph, source: nat): (r: (bool, NspState))
    requires WellFormed(g) && IsVertex(g, source)
    ensures r.0 <==> !NonPositiveCycle(g)
    ensures r.1 == Compute(g, source).1
  {
    (!HasNonPositiveCycle(g), Compute(g, source).1)
  }

  // How a run unfolds, one call at a time.

  /** The scan of `u`'s entries ends once all of them are looked at. */
  lemma ScanDone(g: Graph, source: nat, st: NspState, u: nat)
    requires Inv(g, source, st) && IsVertex(g, u) && st.visited[u] && st.dis[u].Finite?
    ensures RelaxFrom(g, source, st, u, |g[u].adj|) == Continue(st)
  {
  }

  /** An entry that passes the rejection test hands on to the next one. */
  lemma ScanOn(g: Graph, source: nat, st: NspState, u: nat, k: nat)
    requires Inv(g, source, st) && IsVertex(g, u) && st.visited[u] && st.dis[u].Finite? && k < |g[u].adj|
    requires !Violates(g, source, RelaxEdgeInLoop(g, source, st, u, k).dis, st.visited, u, k)
    ensures RelaxFrom(g, source, st, u, k) == RelaxFrom(g, source, RelaxEdgeInLoop(g, source, st, u, k), u, k + 1)
  {
  }

  /** An entry that fails the rejection test ends the scan with a rejection. */
  lemma ScanStops(g: Graph, source: nat, st: NspState, u: nat, k: nat)
    requires Inv(g, source, st) && IsVertex(g, u) && st.visited[u] && st.dis[u].Finite? && k < |g[u].adj|
    requires Violates(g, source, RelaxEdgeInLoop(g, source, st, u, k).dis, st.visited, u, k)
    ensures RelaxFrom(g, source, st, u, k) == Reject(RelaxEdgeInLoop(g, source, st, u, k))
  {
  }

  /** The source, or a settled vertex with a predecessor, has its entries scanned. */
  lemma StepScans(g: Graph, source: nat, st: NspState)
    requires Inv(g, source, st) && st.heap.size >= 1
    requires st.heap.q[1] == source || st.pred[st.heap.q[1]] != 0
    ensures IsVertex(g, st.heap.q[1]) && st.dis[st.heap.q[1]].Finite?
    ensures Step(g, source, st) == RelaxFrom(g, source, Settle(g, source, st), st.heap.q[1], 0)
  {
  }

  /** Settling removes the heap's root and marks it visited. */
  lemma SettleIs(g: Graph, source: nat, st: NspState, u: nat, h: Heap, visited: seq<bool>)
    requires Inv(g, source, st) && st.heap.size >= 1
    requires DeleteMin(st.heap, st.dis) == (u, h) && u < |st.visited| && visited == st.visited[u := true]
    ensures Settle(g, source, st) == NspState(h, st.dis, st.pred, st.numPath, visited)
  {
  }

  /** An entry whose target is queued and strictly improved lowers its key. */
  lemma EdgeImproves(g: Graph, source: nat, st: NspState, u: nat, k: nat, h: Heap, d: seq<Dist>)
    requires Ready(g, st) && IsVertex(g, u) && k < |g[u].adj|
    requires !st.visited[g[u].adj[k]] && Less(Add(st.dis[u], g[u].adjWeight[k]), st.dis[g[u].adj[k]])
    requires DecreaseKey(st.heap, st.dis, g[u].adj[k], Add(st.dis[u], g[u].adjWeight[k])) == (h, d)
    ensures var v := g[u].adj[k];
      RelaxEdge(g, source, st, u, k) == NspState(h, d, st.pred[v := u], st.numPath[v := st.numPath[u]], st.visited)
  {
  }

  /** A step that does not reject hands on to the rest of the run. */
  lemma RunOn(g: Graph, source: nat, st: NspState)
    requires Inv(g, source, st) && st.heap.size >= 1 && Step(g, source, st).Continue?
    ensures Run(g, source, st) == Run(g, source, Step(g, source, st).st)
  {
  }

  /** A step that rejects ends the run with `false`. */
  lemma RunStops(g: Graph, source: nat, st: NspState)
    requires Inv(g, source, st) && st.heap.size >= 1 && Step(g, source, st).Reject?
    ensures Run(g, source, st) == (false, Step(g, source, st).st)
  {
  }

  /** An empty heap ends the run with `true`. */
  lemma RunDone(g: Graph, source: nat, st: NspState)
    requires Inv(g, source, st) && st.heap.size == 0
    ensures Run(g, source, st) == (true, st)
  {
  }

  // The heap states the three-vertex runs from source 1 pass through.

  function Source3(): seq<Dist> { [Infinity, Finite(0), Infinity, Infinity] }
  function Reached2(): seq<Dist> { [Infinity, Finite(0), Finite(1), Infinity] }
  function Reached3(): seq<Dist> { [Infinity, Finite(0), Finite(1), Finite(2)] }

  /** `buildHeap` over three infinite keys moves nothing. */
  lemma BuildThree()
    ensures BuildHeap(NewHeap(3), seq(4, _ => Infinity)) == Heap([0, 1, 2, 3], [0, 1, 2, 3], 3)
  {
    var keys := seq(4, _ => Infinity);
    assert keys == [Infinity, Infinity, Infinity, Infinity];
    assert Identity(3) == [0, 1, 2, 3];
    var f := Filled(3);
    assert f == Heap([0, 1, 2, 3], [0, 1, 2, 3], 3);
    assert SmallerChild(f, keys, 1) == 2;
    assert PercolateDown(f, keys, 1) == f;
    assert BuildLoop(f, keys, 0) == f;
    assert BuildLoop(f, keys, 1) == f;
  }

  /** `buildHeap` over three infinite keys, then `decreaseKey(1, 0)`. */
  lemma StartHeapThree()
    ensures StartHeap(3, 1) == (Heap([1, 1, 2, 3], [0, 1, 2, 3], 3), Source3())
  {
    BuildThree();
    var keys := seq(4, _ => Infinity);
    var f := Heap([0, 1, 2, 3], [0, 1, 2, 3], 3);
    assert keys[1 := Finite(0)] == Source3();
    var f0 := Heap([1, 1, 2, 3], [0, 1, 2, 3], 3);
    assert f.(q := f.q[0 := 1]) == f0;
    assert SiftUp(f0, Source3(), 1) == (f0, 1);
    assert PercolateUp(f, Source3(), 1) == (f0, 1);
    assert DecreaseKey(f, keys, 1, Finite(0)) == (f0, Source3());
  }

  /** Settling the source leaves ids 3 and 2 queued. */
  lemma DeleteSourceThree()
    ensures DeleteMin(Heap([1, 1, 2, 3], [0, 1, 2, 3], 3), Source3())
      == (1, Heap([1, 3, 2, 3], [0, 1, 2, 1], 2))
  {
    var h1 := Heap([1, 3, 2, 3], [0, 1, 2, 1], 2);
    assert MoveLastToRoot(Heap([1, 1, 2, 3], [0, 1, 2, 3], 3)) == h1;
    assert SmallerChild(h1, Source3(), 1) == 2;
    assert PercolateDown(h1, Source3(), 1) == h1;
  }

  lemma ExchangeTwoUp()
    ensures Exchange(Heap([2, 3, 2, 3], [0, 1, 2, 1], 2), 2, 1) == Heap([2, 2, 3, 3], [0, 1, 1, 2], 2)
  {
    assert Swap([2, 3, 2, 3], 2, 1) == [2, 2, 3, 3];
    assert [0, 1, 2, 1][3 := 2][2 := 1] == [0, 1, 1, 2];
  }

  /** Lowering id 2 to 1 lifts it to the root. */
  lemma LowerTwo()
    ensures DecreaseKey(Heap([1, 3, 2, 3], [0, 1, 2, 1], 2), Source3(), 2, Finite(1))
      == (Heap([2, 2, 3, 3], [0, 1, 1, 2], 2), Reached2())
  {
    var h := Heap([1, 3, 2, 3], [0, 1, 2, 1], 2);
    assert Source3()[2 := Finite(1)] == Reached2();
    var h0 := Heap([2, 3, 2, 3], [0, 1, 2, 1], 2);
    assert h.(q := h.q[0 := 2]) == h0;
    var e := Heap([2, 2, 3, 3], [0, 1, 1, 2], 2);
    ExchangeTwoUp();
    assert SiftUp(e, Reached2(), 1) == (e, 1);
    assert SiftUp(h0, Reached2(), 2) == (e, 1);
    assert PercolateUp(h, Reached2(), 2) == (e, 1);
  }

  /** With id 3 alone behind it, settling id 2 leaves id 3 queued. */
  lemma DeleteTwo()
    ensures DeleteMin(Heap([2, 2, 3, 3], [0, 1, 1, 2], 2), Reached2())
      == (2, Heap([2, 3, 3, 3], [0, 1, 1, 1], 1))
  {
    var h1 := Heap([2, 3, 3, 3], [0, 1, 1, 1], 1);
    assert MoveLastToRoot(Heap([2, 2, 3, 3], [0, 1, 1, 2], 2)) == h1;
    assert PercolateDown(h1, Reached2(), 1) == h1;
  }

  /** Lowering id 3, alone in the heap, to 2. */
  lemma LowerThreeAlone()
    ensures DecreaseKey(Heap([2, 3, 3, 3], [0, 1, 1, 1], 1), Reached2(), 3, Finite(2))
      == (Heap([3, 3, 3, 3], [0, 1, 1, 1], 1), Reached3())
  {
    var h := Heap([2, 3, 3, 3], [0, 1, 1, 1], 1);
    assert Reached2()[3 := Finite(2)] == Reached3();
    var h0 := Heap([3, 3, 3, 3], [0, 1, 1, 1], 1);
    assert h.(q := h.q[0 := 3]) == h0;
    assert SiftUp(h0, Reached3(), 1) == (h0, 1);
    assert PercolateUp(h, Reached3(), 1) == (h0, 1);
  }

  /** Lowering id 3 to 2 behind id 2 at 1: it stays in slot 2. */
  lemma LowerThreeBehindTwo()
    ensures DecreaseKey(Heap([2, 2, 3, 3], [0, 1, 1, 2], 2), Reached2(), 3, Finite(2))
      == (Heap([3, 2, 3, 3], [0, 1, 1, 2], 2), Reached3())
  {
    var h := Heap([2, 2, 3, 3], [0, 1, 1, 2], 2);
    assert Reached2()[3 := Finite(2)] == Reached3();
    var h0 := Heap([3, 2, 3, 3], [0, 1, 1, 2], 2);
    assert h.(q := h.q[0 := 3]) == h0;
    assert SiftUp(h0, Reached3(), 2) == (h0, 2);
    assert PercolateUp(h, Reached3(), 2) == (h0, 2);
  }

  /** Settling id 2 ahead of id 3. */
  lemma DeleteTwoBeforeThree()
    ensures DeleteMin(Heap([3, 2, 3, 3], [0, 1, 1, 2], 2), Reached3())
      == (2, Heap([3, 3, 3, 3], [0, 1, 1, 1], 1))
  {
    var h1 := Heap([3, 3, 3, 3], [0, 1, 1, 1], 1);
    assert MoveLastToRoot(Heap([3, 2, 3, 3], [0, 1, 1, 2], 2)) == h1;
    assert PercolateDown(h1, Reached3(), 1) == h1;
  }

  /** Settling the last queued id, 3. */
  lemma DeleteThree()
    ensures DeleteMin(Heap([3, 3, 3, 3], [0, 1, 1, 1], 1), Reached3())
      == (3, Heap([3, 3, 3, 3], [0, 1, 1, 1], 0))
  {
    var h1 := Heap([3, 3, 3, 3], [0, 1, 1, 1], 0);
    assert MoveLastToRoot(Heap([3, 3, 3, 3], [0, 1, 1, 1], 1)) == h1;
    assert PercolateDown(h1, Reached3(), 1) == h1;
  }

  /** The state every three-vertex run from source 1 starts in. */
  function StartThree(): NspState {
    NspState(Heap([1, 1, 2, 3], [0, 1, 2, 3], 3), Source3(), [0, 0, 0, 0], [0, 1, 0, 0], [false, false, false, false])
  }

  lemma StartIsStartThree(g: Graph)
    requires WellFormed(g) && |g| == 4
    ensures Start(g, 1) == StartThree()
  {
    StartHeapThree();
    assert Constant(4, 0) == [0, 0, 0, 0];
    assert Constant(4, 0)[1 := 1] == [0, 1, 0, 0];
    assert Constant(4, false) == [false, false, false, false];
  }

  /** The source settled, nothing relaxed yet. */
  function SourceSettled(): NspState {
    StartThree().(heap := Heap([1, 3, 2, 3], [0, 1, 2, 1], 2), visited := [false, true, false, false])
  }

  /** Settling the source of a three-vertex run, which then scans its entries. */
  lemma StepSourceThree(g: Graph, st: NspState)
    requires Inv(g, 1, st) && st == StartThree()
    ensures Settle(g, 1, st) == SourceSettled()
    ensures Step(g, 1, st) == RelaxFrom(g, 1, SourceSettled(), 1, 0)
  {
    DeleteSourceThree();
    SettleIs(g, 1, st, 1, SourceSettled().heap, SourceSettled().visited);
    StepScans(g, 1, st);
  }

  /** After settling the source and relaxing its entry to 2 at weight 1. */
  function TwoQueued(): NspState {
    NspState(Heap([2, 2, 3, 3], [0, 1, 1, 2], 2), Reached2(), [0, 0, 1, 0], [0, 1, 1, 0], [false, true, false, false])
  }

  /** Relaxing the source's entry 0, an edge 1 -> 2 of weight 1, lifts 2 to the root. */
  lemma RelaxFirstEdge(g: Graph)
    requires WellFormed(g) && |g| == 4 && |g[1].adj| >= 1 && g[1].adj[0] == 2 && g[1].adjWeight[0] == 1
    ensures Ready(g, SourceSettled())
    ensures RelaxEdge(g, 1, SourceSettled(), 1, 0) == TwoQueued()
    ensures !Violates(g, 1, Reached2(), TwoQueued().visited, 1, 0)
  {
    var st := SourceSettled();
    assert Ready(g, st) by {
      assert st.heap.x == [0, 1, 2, 1] && st.visited == [false, true, false, false];
    }
    LowerTwo();
    assert st.pred[2 := 1] == TwoQueued().pred && st.numPath[2 := 1] == TwoQueued().numPath;
    assert g[1].adj[0] == 2 && Add(st.dis[1], g[1].adjWeight[0]) == Finite(1);
    assert st.heap == Heap([1, 3, 2, 3], [0, 1, 2, 1], 2) && st.dis == Source3();
    EdgeImproves(g, 1, st, 1, 0, TwoQueued().heap, Reached2());
  }

  /** The source's scan of a graph whose only source entry is 1 -> 2 at weight 1. */
  lemma ScanSourceOnly(g: Graph, st: NspState)
    requires Inv(g, 1, st) && st == SourceSettled()
    requires |g| == 4 && g[1].adj == [2] && g[1].adjWeight == [1]
    ensures RelaxFrom(g, 1, st, 1, 0) == Continue(TwoQueued())
  {
    RelaxFirstEdge(g);
    assert RelaxEdgeInLoop(g, 1, st, 1, 0) == TwoQueued();
    ScanOn(g, 1, st, 1, 0);
    ScanDone(g, 1, TwoQueued(), 1);
  }

  // (b) 1 -> 2 (weight 1), 2 -> 3 (weight 1), 3 -> 2 (weight -5): the cycle
  // 2 -> 3 -> 2 weighs -4.

  function NegativeCycleGraph(): Graph {
    [Vertex(0, [], [], 0), Vertex(1, [2], [1], 0), Vertex(2, [3], [1], 0), Vertex(3, [2], [-5], 0)]
  }

  /** 2 settled, nothing relaxed from it yet. */
  function NegativeTwoSettled(): NspState {
    TwoQueued().(heap := Heap([2, 3, 3, 3], [0, 1, 1, 1], 1), visited := [false, true, true, false])
  }

  /** After relaxing 2 -> 3. */
  function NegativeAfterTwo(): NspState {
    NspState(Heap([3, 3, 3, 3], [0, 1, 1, 1], 1), Reached3(), [0, 0, 1, 2], [0, 1, 1, 1], [false, true, true, false])
  }

  /** After settling 3; its edge 3 -> 2 lowers nothing and trips no test. */
  function NegativeDone(): NspState {
    NspState(Heap([3, 3, 3, 3], [0, 1, 1, 1], 0), Reached3(), [0, 0, 1, 2], [0, 1, 1, 1], [false, true, true, true])
  }

  lemma NegativeWellFormed()
    ensures WellFormed(NegativeCycleGraph())
  {
  }

  lemma NegativeEdgeTwo()
    ensures WellFormed(NegativeCycleGraph()) && Ready(NegativeCycleGraph(), NegativeTwoSettled())
    ensures RelaxEdge(NegativeCycleGraph(), 1, NegativeTwoSettled(), 2, 0) == NegativeAfterTwo()
    ensures !Violates(NegativeCycleGraph(), 1, Reached3(), NegativeAfterTwo().visited, 2, 0)
  {
    var g := NegativeCycleGraph();
    var st := NegativeTwoSettled();
    NegativeWellFormed();
    assert Ready(g, st) by {
      assert st.heap.x == [0, 1, 1, 1] && st.visited == [false, true, true, false];
    }
    LowerThreeAlone();
    assert st.pred[3 := 2] == NegativeAfterTwo().pred && st.numPath[3 := 1] == NegativeAfterTwo().numPath;
    assert g[2].adj[0] == 3 && Add(st.dis[2], g[2].adjWeight[0]) == Finite(2);
    assert st.heap == Heap([2, 3, 3, 3], [0, 1, 1, 1], 1) && st.dis == Reached2();
    EdgeImproves(g, 1, st, 2, 0, NegativeAfterTwo().heap, Reached3());
  }

  /** 3 -> 2 reaches settled 2 at distance 1, which is not at most 2 - 5. */
  lemma NegativeEdgeBack()
    ensures WellFormed(NegativeCycleGraph()) && Ready(NegativeCycleGraph(), NegativeDone())
    ensures RelaxEdge(NegativeCycleGraph(), 1, NegativeDone(), 3, 0) == NegativeDone()
    ensures !Violates(NegativeCycleGraph(), 1, Reached3(), NegativeDone().visited, 3, 0)
  {
    NegativeWellFormed();
  }

  lemma NegativeStepSource(st: NspState)
    requires Inv(NegativeCycleGraph(), 1, st) && st == StartThree()
    ensures Step(NegativeCycleGraph(), 1, st) == Continue(TwoQueued())
  {
    StepSourceThree(NegativeCycleGraph(), st);
    ScanSourceOnly(NegativeCycleGraph(), Settle(NegativeCycleGraph(), 1, st));
  }

  lemma NegativeScanTwo(st: NspState)
    requires Inv(NegativeCycleGraph(), 1, st) && st == NegativeTwoSettled()
    ensures RelaxFrom(NegativeCycleGraph(), 1, st, 2, 0) == Continue(NegativeAfterTwo())
  {
    var g := NegativeCycleGraph();
    NegativeEdgeTwo();
    assert RelaxEdgeInLoop(g, 1, st, 2, 0) == NegativeAfterTwo();
    ScanOn(g, 1, st, 2, 0);
    ScanDone(g, 1, NegativeAfterTwo(), 2);
  }

  lemma NegativeStepTwo(st: NspState)
    requires Inv(NegativeCycleGraph(), 1, st) && st == TwoQueued()
    ensures Step(NegativeCycleGraph(), 1, st) == Continue(NegativeAfterTwo())
  {
    var g := NegativeCycleGraph();
    DeleteTwo();
    SettleIs(g, 1, st, 2, NegativeTwoSettled().heap, NegativeTwoSettled().visited);
    StepScans(g, 1, st);
    NegativeScanTwo(Settle(g, 1, st));
  }

  lemma NegativeScanThree(st: NspState)
    requires Inv(NegativeCycleGraph(), 1, st) && st == NegativeDone()
    ensures RelaxFrom(NegativeCycleGraph(), 1, st, 3, 0) == Continue(NegativeDone())
  {
    var g := NegativeCycleGraph();
    NegativeEdgeBack();
    assert RelaxEdgeInLoop(g, 1, st, 3, 0) == NegativeDone();
    ScanOn(g, 1, st, 3, 0);
    ScanDone(g, 1, NegativeDone(), 3);
  }

  /** Settling 3 scans 3 -> 2, which passes the test. */
  lemma NegativeStepThree(st: NspState)
    requires Inv(NegativeCycleGraph(), 1, st) && st == NegativeAfterTwo()
    ensures Step(NegativeCycleGraph(), 1, st) == Continue(NegativeDone())
  {
    var g := NegativeCycleGraph();
    DeleteThree();
    SettleIs(g, 1, st, 3, NegativeDone().heap, NegativeDone().visited);
    StepScans(g, 1, st);
    NegativeScanThree(Settle(g, 1, st));
  }

  lemma NegativeRunFromTwo(st: NspState)
    requires Inv(NegativeCycleGraph(), 1, st) && st == TwoQueued()
    ensures Run(NegativeCycleGraph(), 1, st) == (true, NegativeDone())
  {
    var g := NegativeCycleGraph();
    NegativeStepTwo(st);
    RunOn(g, 1, st);
    var s2 := Step(g, 1, st).st;
    NegativeStepThree(s2);
    RunOn(g, 1, s2);
    RunDone(g, 1, Step(g, 1, s2).st);
  }

  lemma NegativeRun()
    ensures WellFormed(NegativeCycleGraph()) && Compute(NegativeCycleGraph(), 1) == (true, NegativeDone())
  {
    var g := NegativeCycleGraph();
    NegativeWellFormed();
    StartIsStartThree(g);
    NegativeStepSource(Start(g, 1));
    RunOn(g, 1, Start(g, 1));
    NegativeRunFromTwo(Step(g, 1, Start(g, 1)).st);
  }

  /** 2 -> 3 -> 2 weighs 1 - 5 = -4. */
  lemma NegativeCycleWalk()
    ensures WellFormed(NegativeCycleGraph()) && ClosedWalk(NegativeCycleGraph(), 2, [0, 0])
    ensures WalkLength(NegativeCycleGraph(), 2, [0, 0]) == -4
  {
    var g := NegativeCycleGraph();
    NegativeWellFormed();
    assert [0, 0][1..] == [0] && [0][1..] == [];
    assert ValidWalk(g, 2, []) && WalkEnd(g, 2, []) == 2 && WalkLength(g, 2, []) == 0;
    assert ValidWalk(g, 3, [0]) && WalkEnd(g, 3, [0]) == 2 && WalkLength(g, 3, [0]) == -5;
    assert ValidWalk(g, 2, [0, 0]) && WalkEnd(g, 2, [0, 0]) == 2;
  }

  /** The graph has a cycle of negative weight, yet the run accepts it and
      reports distances 1 and 2 for vertices 2 and 3, which the cycle undercuts. */
  lemma AcceptsNegativeCycle()
    ensures WellFormed(NegativeCycleGraph()) && HasNonPositiveCycle(NegativeCycleGraph())
    ensures Compute(NegativeCycleGraph(), 1) == (true, NegativeDone())
    ensures !ComputeAsDocumented(NegativeCycleGraph(), 1).0
  {
    NegativeRun();
    NegativeCycleWalk();
    assert IsVertex(NegativeCycleGraph(), 2);
  }

  // (a) 1 -> 2 (weight 1), 1 -> 3 (weight 2), 3 -> 2 (weight 5): no cycle at all.

  function AcyclicGraph(): Graph {
    [Vertex(0, [], [], 0), Vertex(1, [2, 3], [1, 2], 0), Vertex(2, [], [], 0), Vertex(3, [2], [5], 0)]
  }

  /** After settling the source and relaxing 1 -> 2 and 1 -> 3. */
  function AcyclicAfterSource(): NspState {
    NspState(Heap([3, 2, 3, 3], [0, 1, 1, 2], 2), Reached3(), [0, 0, 1, 1], [0, 1, 1, 1], [false, true, false, false])
  }

  /** After settling 2, which has no edges. */
  function AcyclicAfterTwo(): NspState {
    NspState(Heap([3, 3, 3, 3], [0, 1, 1, 1], 1), Reached3(), [0, 0, 1, 1], [0, 1, 1, 1], [false, true, true, false])
  }

  /** After settling 3: its edge 3 -> 2 reaches settled 2 at 1 <= 2 + 5. */
  function AcyclicRejected(): NspState {
    NspState(Heap([3, 3, 3, 3], [0, 1, 1, 1], 0), Reached3(), [0, 0, 1, 1], [0, 1, 1, 1], [false, true, true, true])
  }

  lemma AcyclicWellFormed()
    ensures WellFormed(AcyclicGraph())
  {
  }

  lemma AcyclicEdgeSecond()
    ensures WellFormed(AcyclicGraph()) && Ready(AcyclicGraph(), TwoQueued())
    ensures RelaxEdge(AcyclicGraph(), 1, TwoQueued(), 1, 1) == AcyclicAfterSource()
    ensures !Violates(AcyclicGraph(), 1, Reached3(), AcyclicAfterSource().visited, 1, 1)
  {
    var g := AcyclicGraph();
    var st := TwoQueued();
    AcyclicWellFormed();
    assert Ready(g, st) by {
      assert st.heap.x == [0, 1, 1, 2] && st.visited == [false, true, false, false];
    }
    LowerThreeBehindTwo();
    assert st.pred[3 := 1] == AcyclicAfterSource().pred && st.numPath[3 := 1] == AcyclicAfterSource().numPath;
    assert g[1].adj[1] == 3 && Add(st.dis[1], g[1].adjWeight[1]) == Finite(2);
    assert st.heap == Heap([2, 2, 3, 3], [0, 1, 1, 2], 2) && st.dis == Reached2();
    EdgeImproves(g, 1, st, 1, 1, AcyclicAfterSource().heap, Reached3());
  }

  /** 3 -> 2 reaches settled 2 at distance 1 <= 2 + 5: the test fires. */
  lemma AcyclicEdgeBack()
    ensures WellFormed(AcyclicGraph()) && Ready(AcyclicGraph(), AcyclicRejected())
    ensures RelaxEdge(AcyclicGraph(), 1, AcyclicRejected(), 3, 0) == AcyclicRejected()
    ensures Violates(AcyclicGraph(), 1, Reached3(), AcyclicRejected().visited, 3, 0)
  {
    AcyclicWellFormed();
  }

  lemma AcyclicScanSecond(st: NspState)
    requires Inv(AcyclicGraph(), 1, st) && st == TwoQueued()
    ensures RelaxFrom(AcyclicGraph(), 1, st, 1, 1) == Continue(AcyclicAfterSource())
  {
    var g := AcyclicGraph();
    AcyclicEdgeSecond();
    assert RelaxEdgeInLoop(g, 1, st, 1, 1) == AcyclicAfterSource();
    ScanOn(g, 1, st, 1, 1);
    ScanDone(g, 1, AcyclicAfterSource(), 1);
  }

  lemma AcyclicScanSource(st: NspState)
    requires Inv(AcyclicGraph(), 1, st) && st == SourceSettled()
    ensures RelaxFrom(AcyclicGraph(), 1, st, 1, 0) == Continue(AcyclicAfterSource())
  {
    var g := AcyclicGraph();
    AcyclicWellFormed();
    RelaxFirstEdge(g);
    assert RelaxEdgeInLoop(g, 1, st, 1, 0) == TwoQueued();
    ScanOn(g, 1, st, 1, 0);
    AcyclicScanSecond(TwoQueued());
  }

  lemma AcyclicStepSource(st: NspState)
    requires Inv(AcyclicGraph(), 1, st) && st == StartThree()
    ensures Step(AcyclicGraph(), 1, st) == Continue(AcyclicAfterSource())
  {
    StepSourceThree(AcyclicGraph(), st);
    AcyclicScanSource(Settle(AcyclicGraph(), 1, st));
  }

  /** Settling 2, which has no entries to scan. */
  lemma AcyclicStepTwo(st: NspState)
    requires Inv(AcyclicGraph(), 1, st) && st == AcyclicAfterSource()
    ensures Step(AcyclicGraph(), 1, st) == Continue(AcyclicAfterTwo())
  {
    var g := AcyclicGraph();
    DeleteTwoBeforeThree();
    SettleIs(g, 1, st, 2, AcyclicAfterTwo().heap, AcyclicAfterTwo().visited);
    StepScans(g, 1, st);
    ScanDone(g, 1, AcyclicAfterTwo(), 2);
  }

  /** Settling 3 scans 3 -> 2, which fails the test. */
  lemma AcyclicStepThree(st: NspState)
    requires Inv(AcyclicGraph(), 1, st) && st == AcyclicAfterTwo()
    ensures Step(AcyclicGraph(), 1, st) == Reject(AcyclicRejected())
  {
    var g := AcyclicGraph();
    DeleteThree();
    SettleIs(g, 1, st, 3, AcyclicRejected().heap, AcyclicRejected().visited);
    StepScans(g, 1, st);
    AcyclicEdgeBack();
    assert RelaxEdgeInLoop(g, 1, AcyclicRejected(), 3, 0) == AcyclicRejected();
    ScanStops(g, 1, AcyclicRejected(), 3, 0);
  }

  lemma AcyclicRunFromSource(st: NspState)
    requires Inv(AcyclicGraph(), 1, st) && st == AcyclicAfterSource()
    ensures Run(AcyclicGraph(), 1, st) == (false, AcyclicRejected())
  {
    var g := AcyclicGraph();
    AcyclicStepTwo(st);
    RunOn(g, 1, st);
    AcyclicStepThree(Step(g, 1, st).st);
    RunStops(g, 1, Step(g, 1, st).st);
  }

  lemma AcyclicRun()
    ensures WellFormed(AcyclicGraph()) && Compute(AcyclicGraph(), 1) == (false, AcyclicRejected())
  {
    var g := AcyclicGraph();
    AcyclicWellFormed();
    StartIsStartThree(g);
    AcyclicStepSource(Start(g, 1));
    RunOn(g, 1, Start(g, 1));
    AcyclicRunFromSource(Step(g, 1, Start(g, 1)).st);
  }

  /** Every edge climbs the ranking 1 < 3 < 2, so no walk returns to its start. */
  lemma AcyclicRanked()
    ensures WellFormed(AcyclicGraph()) && !NonPositiveCycle(AcyclicGraph())
    ensures forall v, cs :: IsVertex(AcyclicGraph(), v) && ValidWalk(AcyclicGraph(), v, cs) && |cs| >= 1 ==>
      WalkEnd(AcyclicGraph(), v, cs) != v
  {
    var g := AcyclicGraph();
    var rank := [0, 0, 2, 1];
    AcyclicWellFormed();
    forall u, j | 0 <= u < |g| && 0 <= j < |g[u].adj| ensures rank[u] < rank[g[u].adj[j]] {
      assert u == 1 || u == 3;
    }
    RankedHasNoCycle(g, rank);
  }

  /** The graph has no cycle of any weight, yet the run rejects it: the
      edge 3 -> 2 reaches the settled vertex 2 without improving it. */
  lemma RejectsAcyclicGraph()
    ensures WellFormed(AcyclicGraph()) && !HasNonPositiveCycle(AcyclicGraph())
    ensures forall v, cs :: IsVertex(AcyclicGraph(), v) && ValidWalk(AcyclicGraph(), v, cs) && |cs| >= 1 ==>
      WalkEnd(AcyclicGraph(), v, cs) != v
    ensures Compute(AcyclicGraph(), 1) == (false, AcyclicRejected())
    ensures ComputeAsDocumented(AcyclicGraph(), 1).0
  {
    AcyclicRun();
    AcyclicRanked();
  }

  // (c) 1 -> 2 and 2 -> 1, both of weight 0: a zero-weight cycle through the source.

  function ZeroCycleGraph(): Graph {
    [Vertex(0, [], [], 0), Vertex(1, [2], [0], 0), Vertex(2, [1], [0], 0)]
  }

  function Source2(): seq<Dist> { [Infinity, Finite(0), Infinity] }
  function BothZero(): seq<Dist> { [Infinity, Finite(0), Finite(0)] }

  /** `buildHeap` over two infinite keys, then `decreaseKey(1, 0)`. */
  lemma StartHeapTwo()
    ensures StartHeap(2, 1) == (Heap([1, 1, 2], [0, 1, 2], 2), Source2())
  {
    var keys := seq(3, _ => Infinity);
    assert keys == [Infinity, Infinity, Infinity];
    assert Identity(2) == [0, 1, 2];
    var f := Filled(2);
    assert f == Heap([0, 1, 2], [0, 1, 2], 2);
    assert SmallerChild(f, keys, 1) == 2;
    assert PercolateDown(f, keys, 1) == f;
    assert BuildLoop(f, keys, 0) == f;
    assert BuildLoop(f, keys, 1) == f;
    assert BuildHeap(NewHeap(2), keys) == f;
    assert keys[1 := Finite(0)] == Source2();
    var f0 := Heap([1, 1, 2], [0, 1, 2], 2);
    assert f.(q := f.q[0 := 1]) == f0;
    assert SiftUp(f0, Source2(), 1) == (f0, 1);
    assert PercolateUp(f, Source2(), 1) == (f0, 1);
  }

  lemma ZeroHeapSteps()
    ensures DeleteMin(Heap([1, 1, 2], [0, 1, 2], 2), Source2()) == (1, Heap([1, 2, 2], [0, 1, 1], 1))
    ensures DecreaseKey(Heap([1, 2, 2], [0, 1, 1], 1), Source2(), 2, Finite(0))
      == (Heap([2, 2, 2], [0, 1, 1], 1), BothZero())
    ensures DeleteMin(Heap([2, 2, 2], [0, 1, 1], 1), BothZero()) == (2, Heap([2, 2, 2], [0, 1, 1], 0))
  {
    var h1 := Heap([1, 2, 2], [0, 1, 1], 1);
    assert MoveLastToRoot(Heap([1, 1, 2], [0, 1, 2], 2)) == h1;
    assert PercolateDown(h1, Source2(), 1) == h1;
    assert Source2()[2 := Finite(0)] == BothZero();
    var h2 := Heap([2, 2, 2], [0, 1, 1], 1);
    assert h1.(q := h1.q[0 := 2]) == h2;
    assert SiftUp(h2, BothZero(), 1) == (h2, 1);
    assert PercolateUp(h1, BothZero(), 1) == (h2, 1);
    var h3 := Heap([2, 2, 2], [0, 1, 1], 0);
    assert MoveLastToRoot(h2) == h3;
    assert PercolateDown(h3, BothZero(), 1) == h3;
  }

  function ZeroStart(): NspState {
    NspState(Heap([1, 1, 2], [0, 1, 2], 2), Source2(), [0, 0, 0], [0, 1, 0], [false, false, false])
  }

  function ZeroSourceSettled(): NspState {
    ZeroStart().(heap := Heap([1, 2, 2], [0, 1, 1], 1), visited := [false, true, false])
  }

  /** After settling the source and relaxing 1 -> 2. */
  function ZeroAfterSource(): NspState {
    NspState(Heap([2, 2, 2], [0, 1, 1], 1), BothZero(), [0, 0, 1], [0, 1, 1], [false, true, false])
  }

  /** After settling 2: its edge back to the source is exempt from the test. */
  function ZeroDone(): NspState {
    NspState(Heap([2, 2, 2], [0, 1, 1], 0), BothZero(), [0, 0, 1], [0, 1, 1], [false, true, true])
  }

  lemma ZeroWellFormed()
    ensures WellFormed(ZeroCycleGraph())
  {
  }

  lemma ZeroEdgeSource()
    ensures WellFormed(ZeroCycleGraph()) && Ready(ZeroCycleGraph(), ZeroSourceSettled())
    ensures RelaxEdge(ZeroCycleGraph(), 1, ZeroSourceSettled(), 1, 0) == ZeroAfterSource()
    ensures !Violates(ZeroCycleGraph(), 1, BothZero(), ZeroAfterSource().visited, 1, 0)
  {
    var g := ZeroCycleGraph();
    var st := ZeroSourceSettled();
    ZeroWellFormed();
    assert Ready(g, st) by {
      assert st.heap.x == [0, 1, 1] && st.visited == [false, true, false];
    }
    ZeroHeapSteps();
    assert st.pred[2 := 1] == ZeroAfterSource().pred && st.numPath[2 := 1] == ZeroAfterSource().numPath;
    assert g[1].adj[0] == 2 && Add(st.dis[1], g[1].adjWeight[0]) == Finite(0);
    assert st.heap == Heap([1, 2, 2], [0, 1, 1], 1) && st.dis == Source2();
    EdgeImproves(g, 1, st, 1, 0, ZeroAfterSource().heap, BothZero());
  }

  /** 2 -> 1 leads into the source, which the test never fires on. */
  lemma ZeroEdgeBack()
    ensures WellFormed(ZeroCycleGraph()) && Ready(ZeroCycleGraph(), ZeroDone())
    ensures RelaxEdge(ZeroCycleGraph(), 1, ZeroDone(), 2, 0) == ZeroDone()
    ensures !Violates(ZeroCycleGraph(), 1, BothZero(), ZeroDone().visited, 2, 0)
  {
    ZeroWellFormed();
  }

  lemma ZeroScanSource(st: NspState)
    requires Inv(ZeroCycleGraph(), 1, st) && st == ZeroSourceSettled()
    ensures RelaxFrom(ZeroCycleGraph(), 1, st, 1, 0) == Continue(ZeroAfterSource())
  {
    var g := ZeroCycleGraph();
    ZeroEdgeSource();
    assert RelaxEdgeInLoop(g, 1, st, 1, 0) == ZeroAfterSource();
    ScanOn(g, 1, st, 1, 0);
    ScanDone(g, 1, ZeroAfterSource(), 1);
  }

  lemma ZeroStepSource(st: NspState)
    requires Inv(ZeroCycleGraph(), 1, st) && st == ZeroStart()
    ensures Step(ZeroCycleGraph(), 1, st) == Continue(ZeroAfterSource())
  {
    var g := ZeroCycleGraph();
    ZeroHeapSteps();
    SettleIs(g, 1, st, 1, ZeroSourceSettled().heap, ZeroSourceSettled().visited);
    StepScans(g, 1, st);
    ZeroScanSource(Settle(g, 1, st));
  }

  lemma ZeroScanTwo(st: NspState)
    requires Inv(ZeroCycleGraph(), 1, st) && st == ZeroDone()
    ensures RelaxFrom(ZeroCycleGraph(), 1, st, 2, 0) == Continue(ZeroDone())
  {
    var g := ZeroCycleGraph();
    ZeroEdgeBack();
    assert RelaxEdgeInLoop(g, 1, st, 2, 0) == ZeroDone();
    ScanOn(g, 1, st, 2, 0);
    ScanDone(g, 1, ZeroDone(), 2);
  }

  /** Settling 2 scans 2 -> 1 into the source, which passes the test. */
  lemma ZeroStepTwo(st: NspState)
    requires Inv(ZeroCycleGraph(), 1, st) && st == ZeroAfterSource()
    ensures Step(ZeroCycleGraph(), 1, st) == Continue(ZeroDone())
  {
    var g := ZeroCycleGraph();
    ZeroHeapSteps();
    SettleIs(g, 1, st, 2, ZeroDone().heap, ZeroDone().visited);
    StepScans(g, 1, st);
    ZeroScanTwo(Settle(g, 1, st));
  }

  lemma ZeroStart2(g: Graph)
    requires g == ZeroCycleGraph()
    ensures WellFormed(g) && Start(g, 1) == ZeroStart()
  {
    ZeroWellFormed();
    StartHeapTwo();
    assert Constant(3, 0) == [0, 0, 0];
    assert Constant(3, 0)[1 := 1] == [0, 1, 0];
    assert Constant(3, false) == [false, false, false];
  }

  lemma ZeroRun()
    ensures WellFormed(ZeroCycleGraph()) && Compute(ZeroCycleGraph(), 1) == (true, ZeroDone())
  {
    var g := ZeroCycleGraph();
    ZeroStart2(g);
    ZeroStepSource(Start(g, 1));
    RunOn(g, 1, Start(g, 1));
    var s1 := Step(g, 1, Start(g, 1)).st;
    ZeroStepTwo(s1);
    RunOn(g, 1, s1);
    RunDone(g, 1, Step(g, 1, s1).st);
  }

  /** 1 -> 2 -> 1 weighs 0. */
  lemma ZeroCycleWalk()
    ensures WellFormed(ZeroCycleGraph()) && ClosedWalk(ZeroCycleGraph(), 1, [0, 0])
    ensures WalkLength(ZeroCycleGraph(), 1, [0, 0]) == 0
  {
    var g := ZeroCycleGraph();
    ZeroWellFormed();
    assert [0, 0][1..] == [0] && [0][1..] == [];
    assert ValidWalk(g, 1, []) && WalkEnd(g, 1, []) == 1 && WalkLength(g, 1, []) == 0;
    assert ValidWalk(g, 2, [0]) && WalkEnd(g, 2, [0]) == 1 && WalkLength(g, 2, [0]) == 0;
    assert ValidWalk(g, 1, [0, 0]) && WalkEnd(g, 1, [0, 0]) == 1;
  }

  /** The cycle 1 -> 2 -> 1 weighs 0, yet the run accepts the graph: the
      edge back into the source is never tested. */
  lemma AcceptsZeroCycleThroughSource()
    ensures WellFormed(ZeroCycleGraph()) && HasNonPositiveCycle(ZeroCycleGraph())
    ensures Compute(ZeroCycleGraph(), 1) == (true, ZeroDone())
    ensures !ComputeAsDocumented(ZeroCycleGraph(), 1).0
  {
    ZeroRun();
    ZeroCycleWalk();
    assert IsVertex(ZeroCycleGraph(), 1);
  }
}

=== FILE: reward_cycle.dfy ===
/**
  The cycle search of the maximum-reward program. From the source, a
  backtracking depth-first search follows every adjacency entry, never
  steps straight back to the vertex it came from, never re-enters a
  vertex of the current path other than the source, and records a cycle
  whenever it returns to the source with a strictly larger reward than the
  best so far. A step `u -> v` earns `v`'s reward exactly when `u` is one
  of `v`'s shortest-path predecessors.

  The per-vertex scratch fields (`visited`, `cyclePred`, `gainBonus`) and
  the best-so-far fields (`maxReward`, `maxCycle`, `maxCycleReward`) are
  the `DfsState`. The path the search is on is a ghost parameter: the code
  keeps it only implicitly, in the `cyclePred` links.
*/
module MaximumRewardCycle {
  import opened Vertices
  import MaximumRewardDijkstra

  /** `Long.MIN_VALUE`, the best reward before any cycle is found. */
  const LongMin: int := -0x8000_0000_0000_0000

  datatype DfsState = DfsState(
    visited: seq<bool>,
    cyclePred: seq<nat>,
    gainBonus: seq<int>,
    maxReward: int,
    maxCycle: seq<nat>,
    maxCycleReward: seq<int>)

  /** `addEdge`: an undirected edge is an adjacency entry at each end. */
  function AddEdge(g: Graph, from: nat, to: nat, weight: int): (r: Graph)
    requires WellFormed(g) && IsVertex(g, from) && IsVertex(g, to)
    ensures WellFormed(r) && |r| == |g|
    ensures from != to ==>
      Edges(r[from]) == Edges(g[from]) + [(to, weight)] && Edges(r[to]) == Edges(g[to]) + [(from, weight)]
    ensures from == to ==> Edges(r[from]) == Edges(g[from]) + [(to, weight), (from, weight)]
    ensures forall i :: 0 <= i < |g| && i != from && i != to ==> r[i] == g[i]
  {
    var g1 := g[from := AddAdj(g[from], to, weight)];
    var r := g1[to := AddAdj(g1[to], from, weight)];
    assert from == to ==> Edges(r[from]) == Edges(g[from]) + [(to, weight)] + [(from, weight)];
    r
  }

  /** How many adjacency entries of `a` lead to `b` with weight `w`. */
  ghost function EdgeCount(g: Graph, a: nat, b: nat, w: int): nat
    requires WellFormed(g) && a < |g|
  {
    multiset(Edges(g[a]))[(b, w)]
  }

  /** Every edge `a -> b` of weight `w` is matched by as many edges `b -> a` of weight `w`. */
  ghost predicate Symmetric(g: Graph)
    requires WellFormed(g)
  {
    forall a, b, w :: 0 <= a < |g| && 0 <= b < |g| ==> EdgeCount(g, a, b, w) == EdgeCount(g, b, a, w)
  }

  /** `addEdge` adds one entry `from -> to` and one entry `to -> from`, and nothing else. */
  lemma AddEdgeCount(g: Graph, from: nat, to: nat, weight: int, a: nat, b: nat, w: int)
    requires WellFormed(g) && IsVertex(g, from) && IsVertex(g, to) && a < |g|
    ensures EdgeCount(AddEdge(g, from, to, weight), a, b, w)
      == EdgeCount(g, a, b, w)
       + (if a == from && b == to && w == weight then 1 else 0)
       + (if a == to && b == from && w == weight then 1 else 0)
  {
    var r := AddEdge(g, from, to, weight);
    if a == from && a == to {
      assert multiset(Edges(r[a])) == multiset(Edges(g[a])) + multiset{(to, weight), (from, weight)};
    } else if a == from {
      assert multiset(Edges(r[a])) == multiset(Edges(g[a])) + multiset{(to, weight)};
    } else if a == to {
      assert multiset(Edges(r[a])) == multiset(Edges(g[a])) + multiset{(from, weight)};
    }
  }

  /** A graph built by `addEdge` alone is undirected. */
  lemma AddEdgeKeepsSymmetric(g: Graph, from: nat, to: nat, weight: int)
    requires WellFormed(g) && IsVertex(g, from) && IsVertex(g, to) && Symmetric(g)
    ensures Symmetric(AddEdge(g, from, to, weight))
  {
    var r := AddEdge(g, from, to, weight);
    forall a, b, w | 0 <= a < |g| && 0 <= b < |g|
      ensures EdgeCount(r, a, b, w) == EdgeCount(r, b, a, w)
    {
      AddEdgeCount(g, from, to, weight, a, b, w);
      AddEdgeCount(g, from, to, weight, b, a, w);
    }
  }

  lemma NewGraphSymmetric(n: nat)
    ensures Symmetric(NewGraph(n))
  {
    var g := NewGraph(n);
    forall a, b, w | 0 <= a < |g| && 0 <= b < |g|
      ensures EdgeCount(g, a, b, w) == EdgeCount(g, b, a, w)
    {
      assert Edges(g[a]) == [] && Edges(g[b]) == [];
    }
  }

  /** The reward a step `u -> v` earns: `v`'s reward along a predecessor edge, else nothing. */
  function Bonus(g: Graph, preds: seq<seq<nat>>, u: nat, v: nat): (r: int)
    requires v < |g| && |preds| == |g|
    ensures r == if u in preds[v] then g[v].reward else 0
  {
    if HasPred(preds[v], u) then g[v].reward else 0
  }

  /** Over the Dijkstra pass's tree, a step `u -> v` earns `v`'s reward
      exactly when `u` is reached and some edge `u -> v` is as long as the
      difference of their distances. */
  lemma TreeBonus(g: Graph, source: nat, u: nat, v: nat)
    requires WellFormed(g) && IsVertex(g, source) && IsVertex(g, v)
    ensures var t := MaximumRewardDijkstra.ShortestPathTree(g, source);
      Bonus(g, t.preds, u, v)
        == if IsVertex(g, u) && t.dis[u].Finite? && PredWitness(g, t.dis, u, v) then g[v].reward else 0
  {
  }

  /** The source's reward plus every step's bonus along `p`. */
  function PathReward(g: Graph, preds: seq<seq<nat>>, p: seq<nat>): int
    requires |preds| == |g| && |p| >= 1 && forall i :: 0 <= i < |p| ==> p[i] < |g|
    decreases |p|
  {
    if |p| == 1 then g[p[0]].reward
    else PathReward(g, preds, p[..|p| - 1]) + Bonus(g, preds, p[|p| - 2], p[|p| - 1])
  }

  /** The reward of each position of `c`: the first vertex's own reward, then each step's bonus. */
  function StepRewards(g: Graph, preds: seq<seq<nat>>, c: seq<nat>): (r: seq<int>)
    requires |preds| == |g| && |c| >= 1 && forall i :: 0 <= i < |c| ==> c[i] < |g|
    ensures |r| == |c| && r[0] == g[c[0]].reward
    ensures forall i :: 1 <= i < |c| ==> r[i] == Bonus(g, preds, c[i - 1], c[i])
  {
    seq(|c|, i requires 0 <= i < |c| => if i == 0 then g[c[0]].reward else Bonus(g, preds, c[i - 1], c[i]))
  }

  function Sum(s: seq<int>): int
    decreases |s|
  {
    if |s| == 0 then 0 else Sum(s[..|s| - 1]) + s[|s| - 1]
  }

  /** The recorded per-step rewards add up to the recorded reward. */
  lemma {:induction false} StepRewardsSum(g: Graph, preds: seq<seq<nat>>, c: seq<nat>)
    requires |preds| == |g| && |c| >= 1 && forall i :: 0 <= i < |c| ==> c[i] < |g|
    ensures Sum(StepRewards(g, preds, c)) == PathReward(g, preds, c)
    decreases |c|
  {
    var s := StepRewards(g, preds, c);
    if |c| == 1 {
      assert s[..0] == [];
    } else {
      var c' := c[..|c| - 1];
      assert s[..|s| - 1] == StepRewards(g, preds, c');
      StepRewardsSum(g, preds, c');
    }
  }

  /** Every entry of `c` is a vertex id of `g`. */
  predicate InGraph(g: Graph, c: seq<nat>) {
    forall i :: 0 <= i < |c| ==> c[i] < |g|
  }

  /** A path from the source along adjacency entries through distinct,
      non-source vertices. */
  ghost predicate SimplePath(g: Graph, source: nat, p: seq<nat>) {
    && |p| >= 1 && p[0] == source && IsVertex(g, source) && InGraph(g, p)
    && (forall i :: 1 <= i < |p| ==> IsVertex(g, p[i]) && p[i] != source && p[i] in g[p[i - 1]].adj)
    && (forall i, j :: 0 <= i < j < |p| ==> p[i] != p[j])
  }

  /** A simple cycle through the source with at least two other vertices:
      the cycles the search can close. */
  ghost predicate ProperCycle(g: Graph, source: nat, c: seq<nat>) {
    && |c| >= 4 && c[|c| - 1] == source && InGraph(g, c)
    && SimplePath(g, source, c[..|c| - 1])
    && source in g[c[|c| - 2]].adj
  }

  /** A cycle the search may record: a proper cycle, or the source's own
      self-loop (taken only when an earlier return to the source has cleared
      the source's `visited` flag). */
  ghost predicate DfsCycle(g: Graph, source: nat, c: seq<nat>) {
    || ProperCycle(g, source, c)
    || (c == [source, source] && IsVertex(g, source) && source in g[source].adj)
  }

  ghost predicate Books(g: Graph, st: DfsState) {
    && |st.visited| == |g| && |st.cyclePred| == |g| && |st.gainBonus| == |g|
    && forall x :: 0 <= x < |g| ==> st.cyclePred[x] < |g|
  }

  /** The best-so-far fields: nothing yet, or a cycle the search may close
      with its per-step rewards and their total. */
  ghost predicate RecordInv(g: Graph, preds: seq<seq<nat>>, source: nat, st: DfsState)
    requires WellFormed(g) && |preds| == |g|
  {
    && (st.maxCycle == [] ==> st.maxReward == LongMin && st.maxCycleReward == [])
    && (st.maxCycle != [] ==>
          && DfsCycle(g, source, st.maxCycle)
          && st.maxCycleReward == StepRewards(g, preds, st.maxCycle)
          && st.maxReward == PathReward(g, preds, st.maxCycle))
  }

  ghost predicate Pre(g: Graph, preds: seq<seq<nat>>, source: nat, st: DfsState) {
    && WellFormed(g) && IsVertex(g, source) && |preds| == |g|
    && Books(g, st) && RecordInv(g, preds, source, st)
  }

  /** The scratch fields describe the path `p`: its non-source vertices are
      exactly the visited ones, each linked to its predecessor on `p` with
      the bonus of that step; every other vertex has cleared fields. */
  ghost predicate PathState(g: Graph, preds: seq<seq<nat>>, source: nat, st: DfsState, p: seq<nat>)
    requires WellFormed(g) && |preds| == |g| && Books(g, st)
  {
    && SimplePath(g, source, p)
    && (forall x :: 1 <= x < |g| && x != source ==> (st.visited[x] <==> x in p))
    && (forall x :: 1 <= x < |g| && x != source && !st.visited[x] ==> st.cyclePred[x] == 0 && st.gainBonus[x] == 0)
    && (forall i :: 1 <= i < |p| ==>
          st.cyclePred[p[i]] == p[i - 1] && st.gainBonus[p[i]] == Bonus(g, preds, p[i - 1], p[i]))
  }

  /** The search has just stepped back into the source, closing `c`. */
  ghost predicate Closing(g: Graph, preds: seq<seq<nat>>, source: nat, st: DfsState, c: seq<nat>)
    requires WellFormed(g) && IsVertex(g, source) && |preds| == |g| && Books(g, st)
  {
    && |c| >= 2 && c[|c| - 1] == source && DfsCycle(g, source, c)
    && PathState(g, preds, source, st, c[..|c| - 1])
    && st.cyclePred[source] == c[|c| - 2]
    && st.gainBonus[source] == Bonus(g, preds, c[|c| - 2], source)
  }

  /** The scratch fields of every vertex but the source are as in `st`. */
  ghost predicate Restored(g: Graph, source: nat, st: DfsState, r: DfsState)
    requires Books(g, st) && Books(g, r)
  {
    forall x :: 0 <= x < |g| && x != source ==>
      r.visited[x] == st.visited[x] && r.cyclePred[x] == st.cyclePred[x] && r.gainBonus[x] == st.gainBonus[x]
  }

  /** The non-source vertices not yet on the path: the search's termination measure. */
  ghost function Unsettled(g: Graph, source: nat, visited: seq<bool>): set<nat>
    requires |visited| == |g|
  {
    set x | 1 <= x < |g| && x != source && !visited[x]
  }

  lemma UnsettledSame(g: Graph, source: nat, a: seq<bool>, b: seq<bool>)
    requires |a| == |g| && |b| == |g|
    requires forall x :: 1 <= x < |g| && x != source ==> a[x] == b[x]
    ensures Unsettled(g, source, a) == Unsettled(g, source, b)
  {
  }

  lemma UnsettledShrinks(g: Graph, source: nat, a: seq<bool>, v: nat)
    requires |a| == |g| && 1 <= v < |g| && v != source && !a[v]
    ensures |Unsettled(g, source, a[v := true])| < |Unsettled(g, source, a)|
  {
    assert Unsettled(g, source, a[v := true]) == Unsettled(g, source, a) - {v};
  }

  /** Every proper cycle that starts with `p` and continues to `x` earns at most `m`. */
  ghost predicate CoveredVia(g: Graph, preds: seq<seq<nat>>, source: nat, p: seq<nat>, x: nat, m: int)
    requires |preds| == |g|
  {
    forall c :: ProperCycle(g, source, c) && |c| > |p| && c[..|p|] == p && c[|p|] == x ==>
      PathReward(g, preds, c) <= m
  }

  /** Every proper cycle that starts with `p` and continues to one of `xs` earns at most `m`. */
  ghost predicate Covered(g: Graph, preds: seq<seq<nat>>, source: nat, p: seq<nat>, xs: seq<nat>, m: int)
    requires |preds| == |g|
  {
    forall i :: 0 <= i < |xs| ==> CoveredVia(g, preds, source, p, xs[i], m)
  }

  /** Every proper cycle that starts with `p` earns at most `m`. */
  ghost predicate CoveredAll(g: Graph, preds: seq<seq<nat>>, source: nat, p: seq<nat>, m: int)
    requires |preds| == |g|
  {
    forall c :: ProperCycle(g, source, c) && |c| > |p| && c[..|p|] == p ==> PathReward(g, preds, c) <= m
  }

  lemma CoveredViaMono(g: Graph, preds: seq<seq<nat>>, source: nat, p: seq<nat>, x: nat, m: int, m': int)
    requires |preds| == |g| && CoveredVia(g, preds, source, p, x, m) && m <= m'
    ensures CoveredVia(g, preds, source, p, x, m')
  {
  }

  /** Adding the entry `x` in front of the entries already covered. */
  lemma CoveredCons(g: Graph, preds: seq<seq<nat>>, source: nat, p: seq<nat>, xs: seq<nat>, m: int, m': int)
    requires |preds| == |g| && |xs| >= 1 && m <= m'
    requires CoveredVia(g, preds, source, p, xs[0], m) && Covered(g, preds, source, p, xs[1..], m')
    ensures Covered(g, preds, source, p, xs, m')
  {
    CoveredViaMono(g, preds, source, p, xs[0], m, m');
    forall i | 0 <= i < |xs| ensures CoveredVia(g, preds, source, p, xs[i], m') {
      if i > 0 {
        assert xs[i] == xs[1..][i - 1];
      }
    }
  }

  /** A proper cycle leaves the end of each of its prefixes along an adjacency entry. */
  lemma ProperCycleStep(g: Graph, source: nat, c: seq<nat>, n: nat)
    requires ProperCycle(g, source, c) && 1 <= n < |c|
    ensures c[n] in g[c[n - 1]].adj
    ensures n < |c| - 1 ==> c[n] != source && IsVertex(g, c[n])
    ensures n == |c| - 1 ==> c[n] == source
  {
    if n < |c| - 1 {
      assert c[..|c| - 1][n] == c[n] && c[..|c| - 1][n - 1] == c[n - 1];
    } else {
      assert c[..|c| - 1][|c| - 2] == c[|c| - 2];
    }
  }

  /** Covering every adjacency entry of the path's end covers every continuation. */
  lemma CoveredAllFromEntries(g: Graph, preds: seq<seq<nat>>, source: nat, p: seq<nat>, m: int)
    requires WellFormed(g) && |preds| == |g| && |p| >= 1 && p[|p| - 1] < |g|
    requires Covered(g, preds, source, p, g[p[|p| - 1]].adj, m)
    ensures CoveredAll(g, preds, source, p, m)
  {
    var u := p[|p| - 1];
    forall c | ProperCycle(g, source, c) && |c| > |p| && c[..|p|] == p
      ensures PathReward(g, preds, c) <= m
    {
      ProperCycleStep(g, source, c, |p|);
      assert c[|p| - 1] == u;
      var i :| 0 <= i < |g[u].adj| && g[u].adj[i] == c[|p|];
      assert CoveredVia(g, preds, source, p, g[u].adj[i], m);
    }
  }

  /** Stepping back to a vertex already on the path closes no proper cycle,
      and neither does returning to the source from its first neighbour. */
  lemma CoveredViaBlocked(g: Graph, preds: seq<seq<nat>>, source: nat, p: seq<nat>, x: nat, m: int)
    requires |preds| == |g| && SimplePath(g, source, p)
    requires (x != source && x in p) || (x == source && |p| <= 2)
    ensures CoveredVia(g, preds, source, p, x, m)
  {
    forall c | ProperCycle(g, source, c) && |c| > |p| && c[..|p|] == p
      ensures c[|p|] != x
    {
      var q := c[..|c| - 1];
      if x != source {
        var j :| 0 <= j < |p| && p[j] == x;
        if |p| < |c| - 1 {
          assert q[j] == c[j] == p[j] && q[|p|] == c[|p|];
        } else {
          assert c[|p|] == source;
        }
      } else {
        ProperCycleStep(g, source, c, |p|);
      }
    }
  }

  /** A step to a vertex off the path is covered by covering everything past it. */
  lemma CoveredViaExplored(g: Graph, preds: seq<seq<nat>>, source: nat, p: seq<nat>, v: nat, m: int)
    requires |preds| == |g| && v != source
    requires CoveredAll(g, preds, source, p + [v], m)
    ensures CoveredVia(g, preds, source, p, v, m)
  {
    forall c | ProperCycle(g, source, c) && |c| > |p| && c[..|p|] == p && c[|p|] == v
      ensures PathReward(g, preds, c) <= m
    {
      assert |c| > |p| + 1;
      assert c[..|p| + 1] == p + [v];
    }
  }

  /** A step into the source closes exactly one cycle: the path plus the source. */
  lemma CoveredViaClosed(g: Graph, preds: seq<seq<nat>>, source: nat, p: seq<nat>, m: int)
    requires WellFormed(g) && |preds| == |g| && SimplePath(g, source, p)
    requires PathReward(g, preds, p + [source]) <= m
    ensures CoveredVia(g, preds, source, p, source, m)
  {
    forall c | ProperCycle(g, source, c) && |c| > |p| && c[..|p|] == p && c[|p|] == source
      ensures PathReward(g, preds, c) <= m
    {
      ProperCycleStep(g, source, c, |p|);
      if |p| < |c| - 1 {
        assert false;
      }
      assert c == p + [source];
    }
  }

  lemma PathRewardSnoc(g: Graph, preds: seq<seq<nat>>, p: seq<nat>, v: nat)
    requires |preds| == |g| && |p| >= 1 && (forall i :: 0 <= i < |p| ==> p[i] < |g|) && v < |g|
    ensures PathReward(g, preds, p + [v]) == PathReward(g, preds, p) + Bonus(g, preds, p[|p| - 1], v)
  {
    var q := p + [v];
    assert forall i :: 0 <= i < |q| ==> q[i] < |g| by {
      forall i | 0 <= i < |q| ensures q[i] < |g| {
        if i < |p| {
          assert q[i] == p[i];
        }
      }
    }
    PathRewardLast(g, preds, q);
    assert q[..|q| - 1] == p;
  }

  /** The last step's bonus is the last term of a path's reward. */
  lemma PathRewardLast(g: Graph, preds: seq<seq<nat>>, q: seq<nat>)
    requires |preds| == |g| && |q| >= 2 && forall i :: 0 <= i < |q| ==> q[i] < |g|
    ensures PathReward(g, preds, q) == PathReward(g, preds, q[..|q| - 1]) + Bonus(g, preds, q[|q| - 2], q[|q| - 1])
  {
  }

  /** The `cyclePred` links lead from the end of `p` back along `p` to the source. */
  ghost predicate Chain(g: Graph, st: DfsState, source: nat, p: seq<nat>)
    requires Books(g, st)
  {
    && |p| >= 2 && p[0] == source
    && (forall i :: 1 <= i < |p| ==> p[i] < |g| && st.cyclePred[p[i]] == p[i - 1])
    && (forall i :: 1 <= i < |p| - 1 ==> p[i] != source)
  }

  /** The `gainBonus` fields of the vertices of `q`. */
  function Gains(g: Graph, st: DfsState, q: seq<nat>): (r: seq<int>)
    requires Books(g, st) && forall i :: 0 <= i < |q| ==> q[i] < |g|
    ensures |r| == |q| && forall i :: 0 <= i < |q| ==> r[i] == st.gainBonus[q[i]]
  {
    seq(|q|, i requires 0 <= i < |q| => st.gainBonus[q[i]])
  }

  /** The backtrace loop, at `v == p[i]` with `p[i..]` collected so far. */
  function BacktraceLoop(g: Graph, st: DfsState, source: nat, v: nat, cycle: seq<nat>, rewards: seq<int>,
                         ghost p: seq<nat>, ghost i: nat): (r: (seq<nat>, seq<int>))
    requires IsVertex(g, source) && Books(g, st) && Chain(g, st, source, p)
    requires 1 <= i < |p| && v == p[i] && cycle == p[i..] && rewards == Gains(g, st, p[i..])
    ensures r.0 == p && r.1 == [g[source].reward] + Gains(g, st, p[1..])
    decreases i
  {
    if st.cyclePred[v] == source then
      assert i == 1 by {
        assert p[i - 1] == source;
      }
      assert [source] + cycle == p;
      ([source] + cycle, [g[source].reward] + rewards)
    else
      var u := st.cyclePred[v];
      GainsCons(g, st, p, i);
      BacktraceLoop(g, st, source, u, [u] + cycle, [st.gainBonus[u]] + rewards, p, i - 1)
  }

  /** One more vertex in front of a suffix of the chain. */
  lemma GainsCons(g: Graph, st: DfsState, p: seq<nat>, i: nat)
    requires Books(g, st) && 1 <= i < |p| && forall j :: 0 <= j < |p| ==> p[j] < |g|
    ensures p[i - 1..] == [p[i - 1]] + p[i..]
    ensures Gains(g, st, p[i - 1..]) == [st.gainBonus[p[i - 1]]] + Gains(g, st, p[i..])
  {
    assert p[i - 1..] == [p[i - 1]] + p[i..];
  }

  /** `backtraceToFindCycle`: follows `cyclePred` from `start` back to the
      source, collecting the cycle and each vertex's `gainBonus`, then puts
      the source and its reward in front. */
  function Backtrace(g: Graph, st: DfsState, start: nat, source: nat, ghost p: seq<nat>): (r: (seq<nat>, seq<int>))
    requires IsVertex(g, source) && Books(g, st) && Chain(g, st, source, p) && start == p[|p| - 1]
    ensures r.0 == p && r.1 == [g[source].reward] + Gains(g, st, p[1..])
  {
    BacktraceLoop(g, st, source, start, [start], [st.gainBonus[start]], p, |p| - 1)
  }

  /** While closing a cycle, the links the search left behind spell out that cycle. */
  lemma ClosingChain(g: Graph, preds: seq<seq<nat>>, source: nat, st: DfsState, c: seq<nat>)
    requires WellFormed(g) && IsVertex(g, source) && |preds| == |g| && Books(g, st)
    requires Closing(g, preds, source, st, c)
    ensures Chain(g, st, source, c)
    ensures [g[source].reward] + Gains(g, st, c[1..]) == StepRewards(g, preds, c)
  {
    var q := c[..|c| - 1];
    assert c[0] == q[0] == source;
    forall i | 1 <= i < |c| - 1
      ensures c[i] < |g| && c[i] != source
      ensures st.cyclePred[c[i]] == c[i - 1] && st.gainBonus[c[i]] == Bonus(g, preds, c[i - 1], c[i])
    {
      assert c[i] == q[i] && c[i - 1] == q[i - 1];
    }
    assert InGraph(g, c) by {
      forall i | 0 <= i < |c| ensures c[i] < |g| {
        if i == 0 || i == |c| - 1 {
          assert c[i] == source;
        }
      }
    }
    assert Chain(g, st, source, c) by {
      forall i | 1 <= i < |c| ensures c[i] < |g| && st.cyclePred[c[i]] == c[i - 1] {
        if i == |c| - 1 {
          assert c[i] == source;
        }
      }
    }
    ClosingGains(g, preds, source, st, c);
  }

  lemma ClosingGains(g: Graph, preds: seq<seq<nat>>, source: nat, st: DfsState, c: seq<nat>)
    requires WellFormed(g) && IsVertex(g, source) && |preds| == |g| && Books(g, st)
    requires |c| >= 2 && c[0] == source && c[|c| - 1] == source && InGraph(g, c)
    requires forall i :: 1 <= i < |c| - 1 ==> st.gainBonus[c[i]] == Bonus(g, preds, c[i - 1], c[i])
    requires st.gainBonus[source] == Bonus(g, preds, c[|c| - 2], source)
    ensures [g[source].reward] + Gains(g, st, c[1..]) == StepRewards(g, preds, c)
  {
    var s := [g[source].reward] + Gains(g, st, c[1..]);
    var t := StepRewards(g, preds, c);
    forall i | 0 <= i < |c| ensures s[i] == t[i] {
      if i >= 1 {
        assert s[i] == st.gainBonus[c[1..][i - 1]] == st.gainBonus[c[i]];
        if i == |c| - 1 {
          assert c[i] == source;
        }
      }
    }
  }

  /** Entering `v` from `u`: mark it visited, link it to `u`, note the step's bonus. */
  function Enter(st: DfsState, v: nat, u: nat, bonus: int): (r: DfsState)
    requires v < |st.visited| && v < |st.cyclePred| && v < |st.gainBonus|
    ensures r.visited == st.visited[v := true] && r.cyclePred == st.cyclePred[v := u]
    ensures r.gainBonus == st.gainBonus[v := bonus]
    ensures r.maxReward == st.maxReward && r.maxCycle == st.maxCycle && r.maxCycleReward == st.maxCycleReward
  {
    st.(visited := st.visited[v := true], cyclePred := st.cyclePred[v := u], gainBonus := st.gainBonus[v := bonus])
  }

  /** The rollback after returning from `v`: its scratch fields back to `false`, 0 and 0. */
  function Leave(st: DfsState, v: nat): (r: DfsState)
    requires v < |st.visited| && v < |st.cyclePred| && v < |st.gainBonus|
    ensures r.visited == st.visited[v := false] && r.cyclePred == st.cyclePred[v := 0]
    ensures r.gainBonus == st.gainBonus[v := 0]
    ensures r.maxReward == st.maxReward && r.maxCycle == st.maxCycle && r.maxCycleReward == st.maxCycleReward
  {
    st.(gainBonus := st.gainBonus[v := 0], cyclePred := st.cyclePred[v := 0], visited := st.visited[v := false])
  }

  /** Entering a vertex off the path extends the path by it. */
  lemma EnterVertex(g: Graph, preds: seq<seq<nat>>, source: nat, st: DfsState, p: seq<nat>, k: nat)
    requires Pre(g, preds, source, st) && PathState(g, preds, source, st, p)
    requires p[|p| - 1] < |g| && k < |g[p[|p| - 1]].adj|
    requires var v := g[p[|p| - 1]].adj[k]; v != source && !st.visited[v]
    ensures var u := p[|p| - 1];
      var v := g[u].adj[k];
      var st1 := Enter(st, v, u, Bonus(g, preds, u, v));
      && Pre(g, preds, source, st1) && PathState(g, preds, source, st1, p + [v])
      && (forall i :: 0 <= i < |p + [v]| ==> (p + [v])[i] < |g|)
      && |Unsettled(g, source, st1.visited)| < |Unsettled(g, source, st.visited)|
  {
    var u := p[|p| - 1];
    var v := g[u].adj[k];
    var st1 := Enter(st, v, u, Bonus(g, preds, u, v));
    assert v !in p;
    ExtendSimplePath(g, source, p, v);
    EnterLinks(g, preds, source, st, p, v, st1);
    UnsettledShrinks(g, source, st.visited, v);
  }

  /** A simple path extended by an adjacency entry of its end that is not on it. */
  lemma ExtendSimplePath(g: Graph, source: nat, p: seq<nat>, v: nat)
    requires WellFormed(g) && SimplePath(g, source, p) && IsVertex(g, v) && v != source && v !in p
    requires v in g[p[|p| - 1]].adj
    ensures SimplePath(g, source, p + [v])
  {
    var q := p + [v];
    forall i, j | 0 <= i < j < |q| ensures q[i] != q[j] {
      if j == |p| {
        assert q[i] == p[i];
      } else {
        assert q[i] == p[i] && q[j] == p[j];
      }
    }
    forall i | 1 <= i < |q| ensures IsVertex(g, q[i]) && q[i] != source && q[i] in g[q[i - 1]].adj {
      if i < |p| {
        assert q[i] == p[i] && q[i - 1] == p[i - 1];
      }
    }
    assert InGraph(g, q) by {
      forall i | 0 <= i < |q| ensures q[i] < |g| {
        if i < |p| {
          assert q[i] == p[i];
        }
      }
    }
  }

  /** The scratch fields after entering `v` from the end of `p` describe `p + [v]`. */
  lemma EnterLinks(g: Graph, preds: seq<seq<nat>>, source: nat, st: DfsState, p: seq<nat>, v: nat, st1: DfsState)
    requires WellFormed(g) && |preds| == |g| && Books(g, st) && PathState(g, preds, source, st, p)
    requires IsVertex(g, v) && v != source && v !in p && SimplePath(g, source, p + [v])
    requires st1 == Enter(st, v, p[|p| - 1], Bonus(g, preds, p[|p| - 1], v))
    ensures Books(g, st1) && PathState(g, preds, source, st1, p + [v])
  {
    var q := p + [v];
    forall i | 1 <= i < |q|
      ensures st1.cyclePred[q[i]] == q[i - 1] && st1.gainBonus[q[i]] == Bonus(g, preds, q[i - 1], q[i])
    {
      if i < |p| {
        assert q[i] == p[i] && q[i - 1] == p[i - 1] && q[i] != v;
      }
    }
    forall x | 1 <= x < |g| && x != source
      ensures st1.visited[x] <==> x in q
    {
      assert x in q <==> x in p || x == v;
    }
  }

  /** Entering the source from the path's end closes the path into a cycle. */
  lemma EnterSource(g: Graph, preds: seq<seq<nat>>, source: nat, st: DfsState, p: seq<nat>, k: nat)
    requires Pre(g, preds, source, st) && PathState(g, preds, source, st, p)
    requires |p| >= 3 && p[|p| - 1] < |g| && k < |g[p[|p| - 1]].adj| && g[p[|p| - 1]].adj[k] == source
    ensures var u := p[|p| - 1];
      var st1 := Enter(st, source, u, Bonus(g, preds, u, source));
      && Pre(g, preds, source, st1) && Closing(g, preds, source, st1, p + [source])
      && (forall i :: 0 <= i < |p + [source]| ==> (p + [source])[i] < |g|)
      && Unsettled(g, source, st1.visited) == Unsettled(g, source, st.visited)
  {
    var u := p[|p| - 1];
    var c := p + [source];
    var st1 := Enter(st, source, u, Bonus(g, preds, u, source));
    assert c[..|c| - 1] == p;
    assert ProperCycle(g, source, c);
    UnsettledSame(g, source, st.visited, st1.visited);
  }

  /** Rolling back a vertex entered from the path restores the state before entering it. */
  lemma LeaveRestores(g: Graph, preds: seq<seq<nat>>, source: nat, st: DfsState, p: seq<nat>,
                      v: nat, u: nat, bonus: int, st2: DfsState)
    requires Pre(g, preds, source, st) && PathState(g, preds, source, st, p)
    requires IsVertex(g, v) && u < |g| && (v == source || !st.visited[v])
    requires Pre(g, preds, source, st2) && Restored(g, source, Enter(st, v, u, bonus), st2)
    ensures var st3 := Leave(st2, v);
      && Pre(g, preds, source, st3) && Restored(g, source, st, st3) && PathState(g, preds, source, st3, p)
      && Unsettled(g, source, st3.visited) == Unsettled(g, source, st.visited)
  {
    var st1 := Enter(st, v, u, bonus);
    var st3 := Leave(st2, v);
    forall x | 0 <= x < |g| && x != source
      ensures st3.visited[x] == st.visited[x] && st3.cyclePred[x] == st.cyclePred[x] && st3.gainBonus[x] == st.gainBonus[x]
    {
      if x == v {
        assert !st.visited[x];
      } else {
        assert st1.visited[x] == st.visited[x] && st1.cyclePred[x] == st.cyclePred[x];
      }
    }
    RestoredKeepsPath(g, preds, source, st, st3, p);
    UnsettledSame(g, source, st.visited, st3.visited);
  }

  lemma RestoredKeepsPath(g: Graph, preds: seq<seq<nat>>, source: nat, st: DfsState, r: DfsState, p: seq<nat>)
    requires WellFormed(g) && |preds| == |g| && Books(g, st) && Books(g, r)
    requires PathState(g, preds, source, st, p) && Restored(g, source, st, r)
    ensures PathState(g, preds, source, r, p)
  {
    forall i | 1 <= i < |p|
      ensures r.cyclePred[p[i]] == p[i - 1] && r.gainBonus[p[i]] == Bonus(g, preds, p[i - 1], p[i])
    {
      assert p[i] != source;
    }
  }

  /** `depthFirstSearch(start, parent, source, curReward)` on the path `p`
      that ends with `parent, start`. Arriving at the source records the
      cycle when its reward beats the best so far; elsewhere every
      adjacency entry of `start` is tried in order. */
  function Explore(g: Graph, preds: seq<seq<nat>>, source: nat, start: nat, parent: nat, cur: int,
                   st: DfsState, ghost p: seq<nat>): (r: DfsState)
    requires Pre(g, preds, source, st)
    requires |p| >= 2 && p[|p| - 1] == start && p[|p| - 2] == parent
    requires forall i :: 0 <= i < |p| ==> p[i] < |g|
    requires cur == PathReward(g, preds, p)
    requires start != source ==> PathState(g, preds, source, st, p)
    requires start == source ==> Closing(g, preds, source, st, p)
    ensures Pre(g, preds, source, r) && Restored(g, source, st, r) && st.maxReward <= r.maxReward
    ensures start == source ==>
      if st.maxReward < cur then r.maxReward == cur && r.maxCycle == p else r == st
    ensures start != source ==> CoveredAll(g, preds, source, p, r.maxReward)
    decreases |Unsettled(g, source, st.visited)|, if start == source then 0 else 3, 0, 0
  {
    if start == source then
      if st.maxReward < cur then
        ClosingChain(g, preds, source, st, p);
        var b := Backtrace(g, st, start, source, p);
        st.(maxReward := cur, maxCycle := b.0, maxCycleReward := b.1)
      else st
    else
      var r := ExploreFrom(g, preds, source, start, parent, cur, 0, st, p);
      assert g[start].adj[0..] == g[start].adj;
      CoveredAllFromEntries(g, preds, source, p, r.maxReward);
      r
  }

  /** The loop of `depthFirstSearch` over the adjacency entries `k..` of `u`:
      the parent and path vertices other than the source are skipped. */
  function ExploreFrom(g: Graph, preds: seq<seq<nat>>, source: nat, u: nat, parent: nat, cur: int, k: nat,
                       st: DfsState, ghost p: seq<nat>): (r: DfsState)
    requires Pre(g, preds, source, st) && PathState(g, preds, source, st, p)
    requires |p| >= 2 && p[|p| - 1] == u && p[|p| - 2] == parent && u != source
    requires cur == PathReward(g, preds, p) && k <= |g[u].adj|
    ensures Pre(g, preds, source, r) && Restored(g, source, st, r) && st.maxReward <= r.maxReward
    ensures Covered(g, preds, source, p, g[u].adj[k..], r.maxReward)
    decreases |Unsettled(g, source, st.visited)|, 2, |g[u].adj| - k, 2
  {
    if k == |g[u].adj| then st
    else
      var v := g[u].adj[k];
      if v != parent && (!st.visited[v] || v == source) then
        var st1 := ExploreEntry(g, preds, source, u, parent, cur, k, st, p);
        var r := ExploreFrom(g, preds, source, u, parent, cur, k + 1, st1, p);
        CoveredCons(g, preds, source, p, g[u].adj[k..], st1.maxReward, r.maxReward);
        r
      else
        var r := ExploreFrom(g, preds, source, u, parent, cur, k + 1, st, p);
        CoveredViaBlocked(g, preds, source, p, v, st.maxReward);
        CoveredCons(g, preds, source, p, g[u].adj[k..], st.maxReward, r.maxReward);
        r
  }

  /** One entered adjacency entry `v` of `u`: enter it, search from it, roll it back. */
  function ExploreEntry(g: Graph, preds: seq<seq<nat>>, source: nat, u: nat, parent: nat, cur: int, k: nat,
                        st: DfsState, ghost p: seq<nat>): (r: DfsState)
    requires Pre(g, preds, source, st) && PathState(g, preds, source, st, p)
    requires |p| >= 2 && p[|p| - 1] == u && p[|p| - 2] == parent && u != source
    requires cur == PathReward(g, preds, p) && k < |g[u].adj|
    requires var v := g[u].adj[k]; v != parent && (!st.visited[v] || v == source)
    ensures Pre(g, preds, source, r) && Restored(g, source, st, r) && st.maxReward <= r.maxReward
    ensures PathState(g, preds, source, r, p)
    ensures Unsettled(g, source, r.visited) == Unsettled(g, source, st.visited)
    ensures CoveredVia(g, preds, source, p, g[u].adj[k], r.maxReward)
    decreases |Unsettled(g, source, st.visited)|, 2, |g[u].adj| - k, 1
  {
    if g[u].adj[k] == source then CloseEntry(g, preds, source, u, parent, cur, k, st, p)
    else DeepenEntry(g, preds, source, u, parent, cur, k, st, p)
  }

  /** An entry back to the source: the path plus the source is the one cycle it closes. */
  function CloseEntry(g: Graph, preds: seq<seq<nat>>, source: nat, u: nat, parent: nat, cur: int, k: nat,
                      st: DfsState, ghost p: seq<nat>): (r: DfsState)
    requires Pre(g, preds, source, st) && PathState(g, preds, source, st, p)
    requires |p| >= 2 && p[|p| - 1] == u && p[|p| - 2] == parent && u != source
    requires cur == PathReward(g, preds, p) && k < |g[u].adj|
    requires g[u].adj[k] == source && parent != source
    ensures Pre(g, preds, source, r) && Restored(g, source, st, r) && st.maxReward <= r.maxReward
    ensures PathState(g, preds, source, r, p)
    ensures Unsettled(g, source, r.visited) == Unsettled(g, source, st.visited)
    ensures CoveredVia(g, preds, source, p, source, r.maxReward)
    decreases |Unsettled(g, source, st.visited)|, 2, |g[u].adj| - k, 0
  {
    var bonus := Bonus(g, preds, u, source);
    var st1 := Enter(st, source, u, bonus);
    PathRewardSnoc(g, preds, p, source);
    EnterSource(g, preds, source, st, p, k);
    var st2 := Explore(g, preds, source, source, u, cur + bonus, st1, p + [source]);
    LeaveRestores(g, preds, source, st, p, source, u, bonus, st2);
    CoveredViaClosed(g, preds, source, p, st2.maxReward);
    Leave(st2, source)
  }

  /** An entry to a vertex off the path: the search goes one level deeper. */
  function DeepenEntry(g: Graph, preds: seq<seq<nat>>, source: nat, u: nat, parent: nat, cur: int, k: nat,
                       st: DfsState, ghost p: seq<nat>): (r: DfsState)
    requires Pre(g, preds, source, st) && PathState(g, preds, source, st, p)
    requires |p| >= 2 && p[|p| - 1] == u && p[|p| - 2] == parent && u != source
    requires cur == PathReward(g, preds, p) && k < |g[u].adj|
    requires var v := g[u].adj[k]; v != source && !st.visited[v]
    ensures Pre(g, preds, source, r) && Restored(g, source, st, r) && st.maxReward <= r.maxReward
    ensures PathState(g, preds, source, r, p)
    ensures Unsettled(g, source, r.visited) == Unsettled(g, source, st.visited)
    ensures CoveredVia(g, preds, source, p, g[u].adj[k], r.maxReward)
    decreases |Unsettled(g, source, st.visited)|, 2, |g[u].adj| - k, 0
  {
    var v := g[u].adj[k];
    var bonus := Bonus(g, preds, u, v);
    var st1 := Enter(st, v, u, bonus);
    PathRewardSnoc(g, preds, p, v);
    EnterVertex(g, preds, source, st, p, k);
    var st2 := Explore(g, preds, source, v, u, cur + bonus, st1, p + [v]);
    LeaveRestores(g, preds, source, st, p, v, u, bonus, st2);
    CoveredViaExplored(g, preds, source, p, v, st2.maxReward);
    Leave(st2, v)
  }

  /** Taking the source's self-loop from the source closes the cycle `[source, source]`. */
  lemma EnterSelfLoop(g: Graph, preds: seq<seq<nat>>, source: nat, st: DfsState, k: nat)
    requires Pre(g, preds, source, st) && PathState(g, preds, source, st, [source])
    requires k < |g[source].adj| && g[source].adj[k] == source
    ensures var st1 := Enter(st, source, source, Bonus(g, preds, source, source));
      Pre(g, preds, source, st1) && Closing(g, preds, source, st1, [source, source])
  {
    var st1 := Enter(st, source, source, Bonus(g, preds, source, source));
    assert [source, source][..1] == [source];
    RestoredKeepsPath(g, preds, source, st, st1, [source]);
  }

  /** One entered adjacency entry `v` of the source: enter it, search from it, roll it back. */
  function EnumerateEntry(g: Graph, preds: seq<seq<nat>>, source: nat, k: nat, st: DfsState): (r: DfsState)
    requires Pre(g, preds, source, st) && PathState(g, preds, source, st, [source])
    requires k < |g[source].adj| && !st.visited[g[source].adj[k]]
    ensures Pre(g, preds, source, r) && PathState(g, preds, source, r, [source]) && st.maxReward <= r.maxReward
    ensures CoveredVia(g, preds, source, [source], g[source].adj[k], r.maxReward)
  {
    if g[source].adj[k] == source then SelfLoopEntry(g, preds, source, k, st)
    else FirstStepEntry(g, preds, source, k, st)
  }

  /** The source's self-loop, entered as a neighbour: it closes `[source, source]`. */
  function SelfLoopEntry(g: Graph, preds: seq<seq<nat>>, source: nat, k: nat, st: DfsState): (r: DfsState)
    requires Pre(g, preds, source, st) && PathState(g, preds, source, st, [source])
    requires k < |g[source].adj| && g[source].adj[k] == source && !st.visited[source]
    ensures Pre(g, preds, source, r) && PathState(g, preds, source, r, [source]) && st.maxReward <= r.maxReward
    ensures CoveredVia(g, preds, source, [source], source, r.maxReward)
    ensures st.maxReward < PathReward(g, preds, [source, source]) ==> r.maxCycle == [source, source]
  {
    var bonus := Bonus(g, preds, source, source);
    var st1 := Enter(st, source, source, bonus);
    PathRewardSnoc(g, preds, [source], source);
    EnterSelfLoop(g, preds, source, st, k);
    var st2 := Explore(g, preds, source, source, source, g[source].reward + bonus, st1, [source] + [source]);
    LeaveRestores(g, preds, source, st, [source], source, source, bonus, st2);
    CoveredViaBlocked(g, preds, source, [source], source, st2.maxReward);
    Leave(st2, source)
  }

  /** A first step from the source to another vertex: the search starts below it. */
  function FirstStepEntry(g: Graph, preds: seq<seq<nat>>, source: nat, k: nat, st: DfsState): (r: DfsState)
    requires Pre(g, preds, source, st) && PathState(g, preds, source, st, [source])
    requires k < |g[source].adj| && g[source].adj[k] != source && !st.visited[g[source].adj[k]]
    ensures Pre(g, preds, source, r) && PathState(g, preds, source, r, [source]) && st.maxReward <= r.maxReward
    ensures CoveredVia(g, preds, source, [source], g[source].adj[k], r.maxReward)
  {
    var v := g[source].adj[k];
    var bonus := Bonus(g, preds, source, v);
    var st1 := Enter(st, v, source, bonus);
    PathRewardSnoc(g, preds, [source], v);
    EnterVertex(g, preds, source, st, [source], k);
    var st2 := Explore(g, preds, source, v, source, g[source].reward + bonus, st1, [source] + [v]);
    LeaveRestores(g, preds, source, st, [source], v, source, bonus, st2);
    CoveredViaExplored(g, preds, source, [source], v, st2.maxReward);
    Leave(st2, v)
  }

  /** The loop of `runCycleEnumerate` over the source's adjacency entries `k..`:
      each unvisited neighbour is entered with the source as its parent. */
  function EnumerateFrom(g: Graph, preds: seq<seq<nat>>, source: nat, k: nat, st: DfsState): (r: DfsState)
    requires Pre(g, preds, source, st) && PathState(g, preds, source, st, [source])
    requires k <= |g[source].adj|
    ensures Pre(g, preds, source, r) && st.maxReward <= r.maxReward
    ensures Covered(g, preds, source, [source], g[source].adj[k..], r.maxReward)
    decreases |g[source].adj| - k
  {
    if k == |g[source].adj| then st
    else
      var v := g[source].adj[k];
      if !st.visited[v] then
        var st1 := EnumerateEntry(g, preds, source, k, st);
        var r := EnumerateFrom(g, preds, source, k + 1, st1);
        CoveredCons(g, preds, source, [source], g[source].adj[k..], st1.maxReward, r.maxReward);
        r
      else
        var r := EnumerateFrom(g, preds, source, k + 1, st);
        CoveredViaBlocked(g, preds, source, [source], v, st.maxReward);
        CoveredCons(g, preds, source, [source], g[source].adj[k..], st.maxReward, r.maxReward);
        r
  }

  /** The search's state on a fresh graph: only the source visited, all
      links and bonuses 0, and no cycle recorded. */
  function Fresh(g: Graph, source: nat): (st: DfsState)
    requires WellFormed(g) && IsVertex(g, source)
    ensures |st.visited| == |g| && forall x :: 0 <= x < |g| ==> (st.visited[x] <==> x == source)
    ensures st.maxReward == LongMin && st.maxCycle == [] && st.maxCycleReward == []
  {
    DfsState(Constant(|g|, false)[source := true], Constant(|g|, 0), Constant(|g|, 0), LongMin, [], [])
  }

  /** Every proper cycle through the source starts with the source. */
  lemma CoveredAllCycles(g: Graph, preds: seq<seq<nat>>, source: nat, m: int)
    requires |preds| == |g| && CoveredAll(g, preds, source, [source], m)
    ensures forall c :: ProperCycle(g, source, c) ==> PathReward(g, preds, c) <= m
  {
    forall c | ProperCycle(g, source, c) ensures PathReward(g, preds, c) <= m {
      assert c[..|c| - 1][0] == c[0];
      assert c[..1] == [source];
    }
  }

  /** `runCycleEnumerate`: the recorded reward is at least that of every
      proper cycle through the source, and it is either `Long.MIN_VALUE`
      with nothing recorded or the reward of the recorded cycle, whose
      per-step rewards are recorded alongside. */
  function RunCycleEnumerate(g: Graph, preds: seq<seq<nat>>, source: nat): (r: DfsState)
    requires WellFormed(g) && IsVertex(g, source) && |preds| == |g|
    ensures RecordInv(g, preds, source, r)
    ensures LongMin <= r.maxReward
    ensures forall c :: ProperCycle(g, source, c) ==> PathReward(g, preds, c) <= r.maxReward
  {
    var st := Fresh(g, source);
    assert PathState(g, preds, source, st, [source]);
    var r := EnumerateFrom(g, preds, source, 0, st);
    assert g[source].adj[0..] == g[source].adj;
    CoveredAllFromEntries(g, preds, source, [source], r.maxReward);
    CoveredAllCycles(g, preds, source, r.maxReward);
    r
  }

  /** What the search promises about its result for the predecessor lists
      `preds`: no proper cycle through the source earns more than `reward`;
      either nothing is recorded and `reward` is `Long.MIN_VALUE`, or
      `cycle` is a cycle the search closes, from the source back to it, never
      `source, v, source`, recorded with its per-step rewards, which add up
      to `reward`. */
  ghost predicate BestCycle(g: Graph, preds: seq<seq<nat>>, source: nat, reward: int, cycle: seq<nat>, rewards: seq<int>)
    requires WellFormed(g) && |preds| == |g|
  {
    && (forall c :: ProperCycle(g, source, c) ==> PathReward(g, preds, c) <= reward)
    && (cycle == [] ==> reward == LongMin && rewards == [])
    && (cycle != [] ==>
          && DfsCycle(g, source, cycle) && |cycle| != 3
          && cycle[0] == source && cycle[|cycle| - 1] == source
          && rewards == StepRewards(g, preds, cycle) && reward == PathReward(g, preds, cycle)
          && Sum(rewards) == reward)
  }

  lemma EnumerationIsBest(g: Graph, preds: seq<seq<nat>>, source: nat)
    requires WellFormed(g) && IsVertex(g, source) && |preds| == |g|
    ensures var r := RunCycleEnumerate(g, preds, source);
      BestCycle(g, preds, source, r.maxReward, r.maxCycle, r.maxCycleReward)
  {
    var r := RunCycleEnumerate(g, preds, source);
    if r.maxCycle != [] {
      RecordedCycle(g, preds, source, r);
    }
  }

  /** A recorded cycle starts and ends at the source, is never `source, v, source`,
      and its per-step rewards add up to the recorded reward. */
  lemma RecordedCycle(g: Graph, preds: seq<seq<nat>>, source: nat, st: DfsState)
    requires WellFormed(g) && |preds| == |g| && RecordInv(g, preds, source, st) && st.maxCycle != []
    ensures |st.maxCycle| != 3 && st.maxCycle[0] == source && st.maxCycle[|st.maxCycle| - 1] == source
    ensures Sum(st.maxCycleReward) == st.maxReward
  {
    var c := st.maxCycle;
    StepRewardsSum(g, preds, c);
    if ProperCycle(g, source, c) {
      assert c[..|c| - 1][0] == c[0];
    }
  }

  /** `computeMaximumReward`: the shortest-path predecessors first, then the
      cycle search with bonuses along predecessor edges. Returns the best
      reward with the recorded cycle and its per-step rewards. */
  function ComputeMaximumReward(g: Graph, source: nat): (r: (int, seq<nat>, seq<int>))
    requires WellFormed(g) && IsVertex(g, source)
    ensures BestCycle(g, MaximumRewardDijkstra.ShortestPathTree(g, source).preds, source, r.0, r.1, r.2)
  {
    var preds := MaximumRewardDijkstra.ShortestPathTree(g, source).preds;
    var st := RunCycleEnumerate(g, preds, source);
    EnumerationIsBest(g, preds, source);
    (st.maxReward, st.maxCycle, st.maxCycleReward)
  }

  /** Without a self-loop at the source the recorded cycle is a proper one,
      so the result is the largest reward of any proper cycle through the
      source, or `Long.MIN_VALUE` when none earns more. */
  lemma MaximumRewardIsBest(g: Graph, source: nat)
    requires WellFormed(g) && IsVertex(g, source) && source !in g[source].adj
    ensures var r := ComputeMaximumReward(g, source);
      var preds := MaximumRewardDijkstra.ShortestPathTree(g, source).preds;
      && (r.1 != [] ==> ProperCycle(g, source, r.1) && forall c :: ProperCycle(g, source, c) ==> PathReward(g, preds, c) <= PathReward(g, preds, r.1))
      && (r.1 == [] ==> forall c :: ProperCycle(g, source, c) ==> PathReward(g, preds, c) <= LongMin)
  {
  }
}

=== FILE: reward_dijkstra.dfy ===
/**
  The Dijkstra pass of the maximum-reward program. It builds the
  shortest-path "tree" as a predecessor list per vertex: every settled,
  reached vertex whose edge reaches a vertex at exactly its distance plus
  the edge's weight is recorded as one of that vertex's predecessors.

  Unlike the path-counting pass there is no rejection test, and the tie
  test runs whether or not the target is settled.
*/
module MaximumRewardDijkstra {
  import opened Vertices
  import opened VertexMinHeap

  datatype TreeState = TreeState(
    heap: Heap,
    dis: seq<Dist>,
    preds: seq<seq<nat>>,
    visited: seq<bool>)

  ghost predicate Sized(g: Graph, st: TreeState) {
    |st.dis| == |g| && |st.preds| == |g| && |st.visited| == |g|
  }

  /** The heap is a valid heap over the distances and holds exactly the unsettled vertices. */
  ghost predicate HeapInv(g: Graph, st: TreeState)
    requires Sized(g, st)
  {
    && Fits(st.heap, st.dis) && XRef(st.heap) && Ordered(st.heap, st.dis)
    && (forall v :: 1 <= v < |g| ==> (InHeap(st.heap, v) <==> !st.visited[v]))
  }

  /** The source has distance 0; until it is settled nothing else has happened. */
  ghost predicate SourceInv(g: Graph, source: nat, st: TreeState)
    requires Sized(g, st) && IsVertex(g, source)
  {
    && st.dis[source] == Finite(0)
    && (!st.visited[source] ==>
          forall v :: 1 <= v < |g| && v != source ==> !st.visited[v] && st.dis[v] == Infinity)
  }

  /** Every recorded predecessor is a settled, reached vertex with an edge
      whose weight makes up its successor's distance, and none is recorded twice. */
  ghost predicate PredsInv(g: Graph, dis: seq<Dist>, preds: seq<seq<nat>>, visited: seq<bool>)
    requires |dis| == |g| && |preds| == |g| && |visited| == |g|
  {
    && (forall v, i :: 1 <= v < |g| && 0 <= i < |preds[v]| ==>
          && IsVertex(g, preds[v][i]) && visited[preds[v][i]] && dis[preds[v][i]].Finite?
          && PredWitness(g, dis, preds[v][i], v))
    && (forall v, i, j :: 1 <= v < |g| && 0 <= i < j < |preds[v]| ==> preds[v][i] != preds[v][j])
  }

  /** The pass's invariant. */
  ghost predicate Inv(g: Graph, source: nat, st: TreeState) {
    && WellFormed(g) && IsVertex(g, source) && Sized(g, st)
    && HeapInv(g, st) && SourceInv(g, source, st) && PredsInv(g, st.dis, st.preds, st.visited)
  }

  /** Edge `j` of `a` has had its relaxation: an unsettled target is no
      farther than through `a`, and a target exactly that far through a
      reached `a` lists `a` as a predecessor. */
  ghost predicate Relaxed(g: Graph, dis: seq<Dist>, preds: seq<seq<nat>>, visited: seq<bool>, a: nat, j: nat)
    requires WellFormed(g) && |dis| == |g| && |preds| == |g| && |visited| == |g|
    requires IsVertex(g, a) && j < |g[a].adj|
  {
    var t := g[a].adj[j];
    && (!visited[t] ==> Le(dis[t], Add(dis[a], g[a].adjWeight[j])))
    && (dis[a].Finite? && dis[t] == Add(dis[a], g[a].adjWeight[j]) ==> a in preds[t])
  }

  /** Every edge of a settled vertex has had its relaxation, except the edges `k..` of `u`. */
  ghost predicate RelaxedExcept(g: Graph, dis: seq<Dist>, preds: seq<seq<nat>>, visited: seq<bool>, u: nat, k: nat)
    requires WellFormed(g) && |dis| == |g| && |preds| == |g| && |visited| == |g|
  {
    forall a, j :: 1 <= a < |g| && visited[a] && 0 <= j < |g[a].adj| && (a != u || j < k) ==>
      Relaxed(g, dis, preds, visited, a, j)
  }

  /** Settled vertices keep their distance and stay settled. */
  ghost predicate Frozen(st: TreeState, st': TreeState)
    requires |st.dis| == |st.visited| && |st'.dis| == |st'.visited| == |st.dis|
  {
    forall v :: 0 <= v < |st.visited| && st.visited[v] ==> st'.visited[v] && st'.dis[v] == st.dis[v]
  }

  /** The strict-improvement branch: new distance, `u` as the only predecessor. */
  function Improve(g: Graph, source: nat, st: TreeState, u: nat, k: nat): (r: TreeState)
    requires Inv(g, source, st) && IsVertex(g, u) && st.visited[u] && st.dis[u].Finite?
    requires k < |g[u].adj|
    requires !st.visited[g[u].adj[k]]
    requires Less(Add(st.dis[u], g[u].adjWeight[k]), st.dis[g[u].adj[k]])
    ensures Inv(g, source, r) && r.visited == st.visited && r.heap.size == st.heap.size
    ensures var v := g[u].adj[k];
      r.dis == st.dis[v := Add(st.dis[u], g[u].adjWeight[k])] && r.preds == st.preds[v := [u]]
  {
    var v := g[u].adj[k];
    var nd := Add(st.dis[u], g[u].adjWeight[k]);
    var d := DecreaseKey(st.heap, st.dis, v, nd);
    var r := st.(heap := d.0, dis := d.1, preds := st.preds[v := AddPred([], u)]);
    ImproveKeepsPredsInv(g, st.dis, st.preds, st.visited, u, k);
    r
  }

  lemma ImproveKeepsPredsInv(g: Graph, dis: seq<Dist>, preds: seq<seq<nat>>, visited: seq<bool>, u: nat, k: nat)
    requires WellFormed(g) && |dis| == |g| && |preds| == |g| && |visited| == |g|
    requires PredsInv(g, dis, preds, visited)
    requires IsVertex(g, u) && visited[u] && dis[u].Finite? && k < |g[u].adj| && !visited[g[u].adj[k]]
    ensures var v := g[u].adj[k];
      PredsInv(g, dis[v := Add(dis[u], g[u].adjWeight[k])], preds[v := [u]], visited)
  {
    var v := g[u].adj[k];
    var dis' := dis[v := Add(dis[u], g[u].adjWeight[k])];
    var preds' := preds[v := [u]];
    forall y, i | 1 <= y < |g| && 0 <= i < |preds'[y]|
      ensures PredWitness(g, dis', preds'[y][i], y)
    {
      var p := preds'[y][i];
      if y == v {
        assert dis'[y] == Add(dis'[u], g[u].adjWeight[k]);
      } else {
        var j :| 0 <= j < |g[p].adj| && j < |g[p].adjWeight| && g[p].adj[j] == y
          && dis[y] == Add(dis[p], g[p].adjWeight[j]);
        assert dis'[y] == Add(dis'[p], g[p].adjWeight[j]);
      }
    }
  }

  /** The tie branch keeps the invariant: `u` joins the predecessors of a
      target exactly as far as through `u`, unless it is there already. */
  lemma TieKeepsPredsInv(g: Graph, dis: seq<Dist>, preds: seq<seq<nat>>, visited: seq<bool>, u: nat, k: nat)
    requires WellFormed(g) && |dis| == |g| && |preds| == |g| && |visited| == |g|
    requires PredsInv(g, dis, preds, visited)
    requires IsVertex(g, u) && visited[u] && dis[u].Finite? && k < |g[u].adj|
    requires dis[g[u].adj[k]] == Add(dis[u], g[u].adjWeight[k]) && u !in preds[g[u].adj[k]]
    ensures var v := g[u].adj[k];
      PredsInv(g, dis, preds[v := AddPred(preds[v], u)], visited)
  {
    var v := g[u].adj[k];
    var preds' := preds[v := AddPred(preds[v], u)];
    forall y, i | 1 <= y < |g| && 0 <= i < |preds'[y]|
      ensures IsVertex(g, preds'[y][i]) && visited[preds'[y][i]] && dis[preds'[y][i]].Finite?
      ensures PredWitness(g, dis, preds'[y][i], y)
    {
      if y == v && i == |preds[v]| {
        assert preds'[y][i] == u;
      } else {
        assert preds'[y][i] == preds[y][i];
      }
    }
  }

  /** Relaxes the edge `k` of the settled vertex `u`: a strictly shorter way
      to an unsettled target replaces its distance and predecessors, then
      a target exactly as far as through `u` gets `u` as one more predecessor. */
  function RelaxEdge(g: Graph, source: nat, st: TreeState, u: nat, k: nat): (r: TreeState)
    requires Inv(g, source, st) && IsVertex(g, u) && st.visited[u] && st.dis[u].Finite?
    requires k < |g[u].adj|
    ensures Inv(g, source, r) && r.visited == st.visited && r.heap.size == st.heap.size
    ensures Frozen(st, r)
    ensures var v := g[u].adj[k];
      var nd := Add(st.dis[u], g[u].adjWeight[k]);
      && (!st.visited[v] && Less(nd, st.dis[v]) ==> r.dis == st.dis[v := nd] && r.preds == st.preds[v := [u]])
      && (st.dis[v] == nd ==> r.dis == st.dis && r.preds == st.preds[v := if u in st.preds[v] then st.preds[v] else st.preds[v] + [u]])
      && ((st.visited[v] || !Less(nd, st.dis[v])) && st.dis[v] != nd ==> r == st)
  {
    var v := g[u].adj[k];
    var nd := Add(st.dis[u], g[u].adjWeight[k]);
    var st1 := if !st.visited[v] && Less(nd, st.dis[v]) then Improve(g, source, st, u, k) else st;
    if st1.dis[v] == nd && !HasPred(st1.preds[v], u) then
      TieKeepsPredsInv(g, st1.dis, st1.preds, st1.visited, u, k);
      st1.(preds := st1.preds[v := AddPred(st1.preds[v], u)])
    else st1
  }

  /** After relaxing edge `k` of `u`, that edge has had its relaxation and
      the edges relaxed before still have. */
  lemma RelaxEdgeKeepsRelaxed(g: Graph, source: nat, st: TreeState, u: nat, k: nat)
    requires Inv(g, source, st) && IsVertex(g, u) && st.visited[u] && st.dis[u].Finite?
    requires k < |g[u].adj|
    requires RelaxedExcept(g, st.dis, st.preds, st.visited, u, k)
    ensures var r := RelaxEdge(g, source, st, u, k);
      RelaxedExcept(g, r.dis, r.preds, r.visited, u, k + 1)
  {
    var r := RelaxEdge(g, source, st, u, k);
    var v := g[u].adj[k];
    var nd := Add(st.dis[u], g[u].adjWeight[k]);
    if !st.visited[v] && Less(nd, st.dis[v]) {
      RelaxedAfterImprove(g, st.dis, st.preds, st.visited, u, k);
    } else if st.dis[v] == nd {
      RelaxedAfterTie(g, st.dis, st.preds, st.visited, u, k, r.preds[v]);
    } else {
      assert Relaxed(g, st.dis, st.preds, st.visited, u, k);
    }
  }

  lemma RelaxedAfterImprove(g: Graph, dis: seq<Dist>, preds: seq<seq<nat>>, visited: seq<bool>, u: nat, k: nat)
    requires WellFormed(g) && |dis| == |g| && |preds| == |g| && |visited| == |g|
    requires IsVertex(g, u) && visited[u] && dis[u].Finite? && k < |g[u].adj|
    requires !visited[g[u].adj[k]] && Less(Add(dis[u], g[u].adjWeight[k]), dis[g[u].adj[k]])
    requires RelaxedExcept(g, dis, preds, visited, u, k)
    ensures var v := g[u].adj[k];
      RelaxedExcept(g, dis[v := Add(dis[u], g[u].adjWeight[k])], preds[v := [u]], visited, u, k + 1)
  {
    var v := g[u].adj[k];
    var nd := Add(dis[u], g[u].adjWeight[k]);
    var dis' := dis[v := nd];
    var preds' := preds[v := [u]];
    forall a, j | 1 <= a < |g| && visited[a] && 0 <= j < |g[a].adj| && (a != u || j < k + 1)
      ensures Relaxed(g, dis', preds', visited, a, j)
    {
      var t := g[a].adj[j];
      var w := g[a].adjWeight[j];
      assert dis'[a] == dis[a];
      if a != u || j != k {
        assert Relaxed(g, dis, preds, visited, a, j);
        if t == v {
          LeTransitive(nd, dis[v], Add(dis[a], w));
        }
      }
    }
  }

  lemma RelaxedAfterTie(g: Graph, dis: seq<Dist>, preds: seq<seq<nat>>, visited: seq<bool>, u: nat, k: nat, p: seq<nat>)
    requires WellFormed(g) && |dis| == |g| && |preds| == |g| && |visited| == |g|
    requires IsVertex(g, u) && visited[u] && dis[u].Finite? && k < |g[u].adj|
    requires dis[g[u].adj[k]] == Add(dis[u], g[u].adjWeight[k])
    requires u in p && forall x :: x in preds[g[u].adj[k]] ==> x in p
    requires RelaxedExcept(g, dis, preds, visited, u, k)
    ensures RelaxedExcept(g, dis, preds[g[u].adj[k] := p], visited, u, k + 1)
  {
    var v := g[u].adj[k];
    var preds' := preds[v := p];
    forall a, j | 1 <= a < |g| && visited[a] && 0 <= j < |g[a].adj| && (a != u || j < k + 1)
      ensures Relaxed(g, dis, preds', visited, a, j)
    {
      if a != u || j != k {
        assert Relaxed(g, dis, preds, visited, a, j);
      }
    }
  }

  /** Relaxes the edges `k..` of the settled vertex `u`. */
  function RelaxFrom(g: Graph, source: nat, st: TreeState, u: nat, k: nat): (r: TreeState)
    requires Inv(g, source, st) && IsVertex(g, u) && st.visited[u] && st.dis[u].Finite?
    requires k <= |g[u].adj|
    requires RelaxedExcept(g, st.dis, st.preds, st.visited, u, k)
    ensures Inv(g, source, r) && Frozen(st, r) && r.visited == st.visited && r.heap.size == st.heap.size
    ensures RelaxedExcept(g, r.dis, r.preds, r.visited, 0, 0)
    decreases |g[u].adj| - k
  {
    if k == |g[u].adj| then
      assert RelaxedExcept(g, st.dis, st.preds, st.visited, 0, 0);
      st
    else
      var st1 := RelaxEdge(g, source, st, u, k);
      RelaxEdgeKeepsRelaxed(g, source, st, u, k);
      RelaxFrom(g, source, st1, u, k + 1)
  }

  /** Removing the minimum and marking it settled keeps the invariant. */
  function Settle(g: Graph, source: nat, st: TreeState): (r: TreeState)
    requires Inv(g, source, st) && st.heap.size >= 1
    ensures Inv(g, source, r) && Frozen(st, r)
    ensures r.heap.size == st.heap.size - 1
    ensures r.dis == st.dis && r.preds == st.preds
    ensures var u := st.heap.q[1];
      IsVertex(g, u) && !st.visited[u] && r.visited == st.visited[u := true]
      && (!st.visited[source] ==> u == source)
      && (forall v :: IsVertex(g, v) && !st.visited[v] ==> Le(st.dis[u], st.dis[v]))
  {
    RootIsSoleFinite(st.heap, st.dis, source);
    var d := DeleteMin(st.heap, st.dis);
    var r := st.(heap := d.1, visited := st.visited[d.0 := true]);
    assert HeapInv(g, r);
    r
  }

  /** Settling one more vertex leaves every edge relaxed so far relaxed. */
  lemma SettleKeepsRelaxed(g: Graph, dis: seq<Dist>, preds: seq<seq<nat>>, visited: seq<bool>, u: nat)
    requires WellFormed(g) && |dis| == |g| && |preds| == |g| && |visited| == |g| && IsVertex(g, u)
    requires RelaxedExcept(g, dis, preds, visited, 0, 0)
    ensures RelaxedExcept(g, dis, preds, visited[u := true], u, 0)
  {
    var visited' := visited[u := true];
    forall a, j | 1 <= a < |g| && visited'[a] && 0 <= j < |g[a].adj| && (a != u || j < 0)
      ensures Relaxed(g, dis, preds, visited', a, j)
    {
      assert Relaxed(g, dis, preds, visited, a, j);
    }
  }

  /** The edges of an unreached vertex need no relaxation. */
  lemma UnreachedRelaxed(g: Graph, dis: seq<Dist>, preds: seq<seq<nat>>, visited: seq<bool>, u: nat)
    requires WellFormed(g) && |dis| == |g| && |preds| == |g| && |visited| == |g| && IsVertex(g, u)
    requires dis[u] == Infinity
    requires RelaxedExcept(g, dis, preds, visited, u, 0)
    ensures RelaxedExcept(g, dis, preds, visited, 0, 0)
  {
    forall a, j | 1 <= a < |g| && visited[a] && 0 <= j < |g[a].adj|
      ensures Relaxed(g, dis, preds, visited, a, j)
    {
      if a != u {
        assert Relaxed(g, dis, preds, visited, a, j);
      }
    }
  }

  /** One iteration of the main loop: settle the minimum and, when it has
      been reached, relax its edges. */
  function Step(g: Graph, source: nat, st: TreeState): (r: TreeState)
    requires Inv(g, source, st) && st.heap.size >= 1
    requires RelaxedExcept(g, st.dis, st.preds, st.visited, 0, 0)
    ensures Inv(g, source, r) && Frozen(st, r)
    ensures RelaxedExcept(g, r.dis, r.preds, r.visited, 0, 0)
    ensures r.heap.size == st.heap.size - 1
    ensures var u := st.heap.q[1];
      && IsVertex(g, u) && !st.visited[u] && r.visited == st.visited[u := true]
      && (st.dis[u] == Infinity ==> r.dis == st.dis && r.preds == st.preds)
  {
    var st1 := Settle(g, source, st);
    var u := st.heap.q[1];
    SettleKeepsRelaxed(g, st.dis, st.preds, st.visited, u);
    if st.dis[u] == Infinity then
      UnreachedRelaxed(g, st1.dis, st1.preds, st1.visited, u);
      st1
    else
      RelaxFrom(g, source, st1, u, 0)
  }

  /** The main loop: settle vertices until the heap is empty. */
  function Run(g: Graph, source: nat, st: TreeState): (r: TreeState)
    requires Inv(g, source, st) && RelaxedExcept(g, st.dis, st.preds, st.visited, 0, 0)
    ensures Inv(g, source, r) && Frozen(st, r)
    ensures RelaxedExcept(g, r.dis, r.preds, r.visited, 0, 0)
    ensures r.heap.size == 0 && forall v :: IsVertex(g, v) ==> r.visited[v]
    decreases st.heap.size
  {
    if IsEmpty(st.heap) then
      assert forall v :: IsVertex(g, v) ==> !InHeap(st.heap, v);
      st
    else
      Run(g, source, Step(g, source, st))
  }

  /** The state before the loop: the heap built over all-infinite distances,
      the source lowered to 0, no predecessors and nothing settled. */
  function Start(g: Graph, source: nat): (st: TreeState)
    requires WellFormed(g) && IsVertex(g, source)
    ensures Inv(g, source, st) && RelaxedExcept(g, st.dis, st.preds, st.visited, 0, 0)
    ensures st.heap.size + 1 == |g|
    ensures forall v :: 1 <= v < |g| ==>
      && !st.visited[v] && st.preds[v] == []
      && st.dis[v] == (if v == source then Finite(0) else Infinity)
  {
    var st := Fresh(g, source);
    StartInv(g, source, st);
    st
  }

  /** The fields as the start of the pass leaves them. */
  function Fresh(g: Graph, source: nat): (st: TreeState)
    requires WellFormed(g) && IsVertex(g, source)
    ensures Sized(g, st)
    ensures st.heap == StartHeap(|g| - 1, source).0 && st.dis == StartHeap(|g| - 1, source).1
    ensures forall v :: 0 <= v < |g| ==> !st.visited[v] && st.preds[v] == []
  {
    var d := StartHeap(|g| - 1, source);
    TreeState(d.0, d.1, Constant(|g|, []), Constant(|g|, false))
  }

  lemma StartInv(g: Graph, source: nat, st: TreeState)
    requires WellFormed(g) && IsVertex(g, source) && Sized(g, st)
    requires st.heap == StartHeap(|g| - 1, source).0 && st.dis == StartHeap(|g| - 1, source).1
    requires forall v :: 0 <= v < |g| ==> !st.visited[v] && st.preds[v] == []
    ensures Inv(g, source, st) && RelaxedExcept(g, st.dis, st.preds, st.visited, 0, 0)
    ensures st.heap.size + 1 == |g|
  {
    assert HeapInv(g, st) by {
      forall v | 1 <= v < |g| ensures InHeap(st.heap, v) <==> !st.visited[v] { }
    }
  }

  /** Relaxing edge `k` of the latest settled vertex `u` under non-negative
      weights: settled distances stay below unsettled ones, no distance
      rises, every finite distance still has a walk, and the edge is closed. */
  lemma EdgeShortest(g: Graph, source: nat, st: TreeState, u: nat, k: nat)
    requires Inv(g, source, st) && IsVertex(g, u) && st.visited[u] && st.dis[u].Finite?
    requires k < |g[u].adj|
    requires NonNegativeWeights(g) && SettleOrder(g, st.dis, st.visited) && Realised(g, source, st.dis)
    requires forall a :: 1 <= a < |g| && st.visited[a] ==> Le(st.dis[a], st.dis[u])
    ensures var r := RelaxEdge(g, source, st, u, k);
      && SettleOrder(g, r.dis, r.visited) && Realised(g, source, r.dis)
      && DisNotAbove(g, st.dis, r.dis) && ClosedEdge(g, r.dis, u, k)
  {
    var r := RelaxEdge(g, source, st, u, k);
    var v := g[u].adj[k];
    var nd := Add(st.dis[u], g[u].adjWeight[k]);
    if !st.visited[v] && Less(nd, st.dis[v]) {
      ImproveShortest(g, source, st.dis, st.visited, u, k);
    } else {
      assert r.dis == st.dis;
      KeepShortest(g, st.dis, st.visited, u, k);
    }
  }

  /** A strictly shorter way to an unsettled target: the new distance has a
      walk, and it is no smaller than any settled distance. */
  lemma ImproveShortest(g: Graph, source: nat, dis: seq<Dist>, visited: seq<bool>, u: nat, k: nat)
    requires WellFormed(g) && |dis| == |g| && |visited| == |g|
    requires IsVertex(g, u) && visited[u] && dis[u].Finite? && k < |g[u].adj|
    requires NonNegativeWeights(g) && SettleOrder(g, dis, visited) && Realised(g, source, dis)
    requires forall a :: 1 <= a < |g| && visited[a] ==> Le(dis[a], dis[u])
    requires !visited[g[u].adj[k]] && Less(Add(dis[u], g[u].adjWeight[k]), dis[g[u].adj[k]])
    ensures var dis' := dis[g[u].adj[k] := Add(dis[u], g[u].adjWeight[k])];
      && SettleOrder(g, dis', visited) && Realised(g, source, dis')
      && DisNotAbove(g, dis, dis') && ClosedEdge(g, dis', u, k)
  {
    var v := g[u].adj[k];
    var dis' := dis[v := Add(dis[u], g[u].adjWeight[k])];
    assert g[u].adjWeight[k] >= 0;
    ReachedStep(g, source, u, dis[u].value, k);
    forall a, b | 1 <= a < |g| && 1 <= b < |g| && visited[a] && !visited[b]
      ensures Le(dis'[a], dis'[b])
    {
      assert Le(dis[a], dis[b]) && Le(dis[a], dis[u]);
    }
  }

  /** An edge that changes no distance is already closed: an unsettled target
      is no farther than through `u`, a settled one is no farther than `u`. */
  lemma KeepShortest(g: Graph, dis: seq<Dist>, visited: seq<bool>, u: nat, k: nat)
    requires WellFormed(g) && |dis| == |g| && |visited| == |g|
    requires IsVertex(g, u) && visited[u] && dis[u].Finite? && k < |g[u].adj|
    requires NonNegativeWeights(g)
    requires forall a :: 1 <= a < |g| && visited[a] ==> Le(dis[a], dis[u])
    requires !visited[g[u].adj[k]] ==> !Less(Add(dis[u], g[u].adjWeight[k]), dis[g[u].adj[k]])
    ensures DisNotAbove(g, dis, dis) && ClosedEdge(g, dis, u, k)
  {
    assert g[u].adjWeight[k] >= 0;
    if visited[g[u].adj[k]] {
      assert Le(dis[g[u].adj[k]], dis[u]);
    }
  }

  /** Relaxing the edges `k..` of the latest settled vertex `u` closes them
      all, keeping the order and the walks. */
  lemma {:induction false} RelaxFromShortest(g: Graph, source: nat, st: TreeState, u: nat, k: nat)
    requires Inv(g, source, st) && IsVertex(g, u) && st.visited[u] && st.dis[u].Finite?
    requires k <= |g[u].adj|
    requires RelaxedExcept(g, st.dis, st.preds, st.visited, u, k)
    requires NonNegativeWeights(g) && SettleOrder(g, st.dis, st.visited) && Realised(g, source, st.dis)
    requires forall a :: 1 <= a < |g| && st.visited[a] ==> Le(st.dis[a], st.dis[u])
    requires ClosedExcept(g, st.dis, st.visited, u) && forall j :: 0 <= j < k ==> ClosedEdge(g, st.dis, u, j)
    ensures var r := RelaxFrom(g, source, st, u, k);
      SettleOrder(g, r.dis, r.visited) && Realised(g, source, r.dis) && ClosedExcept(g, r.dis, r.visited, 0)
    decreases |g[u].adj| - k
  {
    if k == |g[u].adj| {
      AllEdgesOfUClosed(g, st.dis, st.visited, u);
    } else {
      var st1 := RelaxEdge(g, source, st, u, k);
      RelaxEdgeKeepsRelaxed(g, source, st, u, k);
      EdgeShortest(g, source, st, u, k);
      ClosedCarry(g, st.dis, st.visited, st1.dis, u, k);
      assert forall a :: 1 <= a < |g| && st1.visited[a] ==> Le(st1.dis[a], st1.dis[u]) by {
        assert forall a :: 0 <= a < |g| && st.visited[a] ==> st1.dis[a] == st.dis[a];
      }
      RelaxFromShortest(g, source, st1, u, k + 1);
    }
  }

  /** Settling the minimum keeps settled distances below unsettled ones and
      leaves open only the edges of the vertex just settled. */
  lemma SettleShortest(g: Graph, source: nat, st: TreeState)
    requires Inv(g, source, st) && st.heap.size >= 1
    requires SettleOrder(g, st.dis, st.visited) && ClosedExcept(g, st.dis, st.visited, 0)
    ensures var st1 := Settle(g, source, st);
      && SettleOrder(g, st1.dis, st1.visited) && ClosedExcept(g, st1.dis, st1.visited, st.heap.q[1])
      && forall a :: 1 <= a < |g| && st1.visited[a] ==> Le(st1.dis[a], st1.dis[st.heap.q[1]])
  {
    var st1 := Settle(g, source, st);
    var u := st.heap.q[1];
    forall a, b | 1 <= a < |g| && 1 <= b < |g| && st1.visited[a] && !st1.visited[b]
      ensures Le(st1.dis[a], st1.dis[b])
    {
      if a != u { assert st.visited[a]; }
    }
    forall a | 1 <= a < |g| && st1.visited[a] ensures Le(st1.dis[a], st1.dis[u]) {
      if a != u { assert st.visited[a]; }
    }
  }

  /** One iteration of the main loop keeps the order and the walks and closes
      the settled vertex's edges. */
  lemma StepShortest(g: Graph, source: nat, st: TreeState)
    requires Inv(g, source, st) && st.heap.size >= 1
    requires RelaxedExcept(g, st.dis, st.preds, st.visited, 0, 0)
    requires NonNegativeWeights(g) && SettleOrder(g, st.dis, st.visited) && Realised(g, source, st.dis)
    requires ClosedExcept(g, st.dis, st.visited, 0)
    ensures var r := Step(g, source, st);
      SettleOrder(g, r.dis, r.visited) && Realised(g, source, r.dis) && ClosedExcept(g, r.dis, r.visited, 0)
  {
    var u := st.heap.q[1];
    var st1 := Settle(g, source, st);
    SettleShortest(g, source, st);
    SettleKeepsRelaxed(g, st.dis, st.preds, st.visited, u);
    if st.dis[u] == Infinity {
      forall a, j | 1 <= a < |g| && st1.visited[a] && 0 <= j < |g[a].adj|
        ensures ClosedEdge(g, st1.dis, a, j)
      {
      }
    } else {
      RelaxFromShortest(g, source, st1, u, 0);
    }
  }

  /** The whole loop keeps the order and the walks, and ends with every edge closed. */
  lemma {:induction false} RunShortest(g: Graph, source: nat, st: TreeState)
    requires Inv(g, source, st) && RelaxedExcept(g, st.dis, st.preds, st.visited, 0, 0)
    requires NonNegativeWeights(g) && SettleOrder(g, st.dis, st.visited) && Realised(g, source, st.dis)
    requires ClosedExcept(g, st.dis, st.visited, 0)
    ensures var r := Run(g, source, st);
      Realised(g, source, r.dis) && ClosedExcept(g, r.dis, r.visited, 0)
    decreases st.heap.size
  {
    if !IsEmpty(st.heap) {
      StepShortest(g, source, st);
      RunShortest(g, source, Step(g, source, st));
    }
  }

  /** Before the loop nothing is settled and only the source, at distance 0
      over the empty walk, has a finite distance. */
  lemma StartShortest(g: Graph, source: nat)
    requires WellFormed(g) && IsVertex(g, source)
    ensures var st := Start(g, source);
      SettleOrder(g, st.dis, st.visited) && Realised(g, source, st.dis) && ClosedExcept(g, st.dis, st.visited, 0)
  {
    assert ValidWalk(g, source, []) && WalkEnd(g, source, []) == source && WalkLength(g, source, []) == 0;
  }

  /** Under non-negative weights the pass leaves shortest distances: every
      finite distance is the length of a walk from the source and no walk to
      that vertex is shorter, and an infinite one means no walk reaches it. */
  lemma PassShortest(g: Graph, source: nat)
    requires WellFormed(g) && IsVertex(g, source)
    ensures var r := Run(g, source, Start(g, source));
      NonNegativeWeights(g) ==> ShortestDistances(g, source, r.dis)
  {
    if NonNegativeWeights(g) {
      var r := Run(g, source, Start(g, source));
      StartShortest(g, source);
      RunShortest(g, source, Start(g, source));
      ClosedIsShortest(g, source, r.dis);
    }
  }

  /** `useDijkstraToFindShortestPathTree`: once every vertex is settled, the
      predecessors of each vertex are exactly the reached vertices with an
      edge to it that is as long as the difference of their distances,
      each listed once. Under non-negative weights the distances are the
      shortest walk lengths from the source. */
  function ShortestPathTree(g: Graph, source: nat): (r: TreeState)
    requires WellFormed(g) && IsVertex(g, source)
    ensures Sized(g, r) && r.dis[source] == Finite(0)
    ensures NonNegativeWeights(g) ==> ShortestDistances(g, source, r.dis)
    ensures forall v :: IsVertex(g, v) ==> r.visited[v]
    ensures forall v, p :: IsVertex(g, v) ==>
      (p in r.preds[v] <==> IsVertex(g, p) && r.dis[p].Finite? && PredWitness(g, r.dis, p, v))
    ensures forall v, i, j :: IsVertex(g, v) && 0 <= i < j < |r.preds[v]| ==> r.preds[v][i] != r.preds[v][j]
  {
    var r := Run(g, source, Start(g, source));
    PredsExact(g, r.dis, r.preds, r.visited);
    PassShortest(g, source);
    r
  }

  /** With every vertex settled and every edge relaxed, the recorded
      predecessors are exactly the tight edges' tails. */
  lemma PredsExact(g: Graph, dis: seq<Dist>, preds: seq<seq<nat>>, visited: seq<bool>)
    requires WellFormed(g) && |dis| == |g| && |preds| == |g| && |visited| == |g|
    requires PredsInv(g, dis, preds, visited) && RelaxedExcept(g, dis, preds, visited, 0, 0)
    requires forall v :: IsVertex(g, v) ==> visited[v]
    ensures forall v, p :: IsVertex(g, v) ==>
      (p in preds[v] <==> IsVertex(g, p) && dis[p].Finite? && PredWitness(g, dis, p, v))
  {
    forall v, p | IsVertex(g, v)
      ensures p in preds[v] <==> IsVertex(g, p) && dis[p].Finite? && PredWitness(g, dis, p, v)
    {
      if p in preds[v] {
        var i :| 0 <= i < |preds[v]| && preds[v][i] == p;
      }
      if IsVertex(g, p) && dis[p].Finite? && PredWitness(g, dis, p, v) {
        var k :| 0 <= k < |g[p].adj| && k < |g[p].adjWeight| && g[p].adj[k] == v
          && dis[v] == Add(dis[p], g[p].adjWeight[k]);
        assert Relaxed(g, dis, preds, visited, p, k);
      }
    }
  }

  /** Vertices each of which is a recorded predecessor of the next. */
  predicate PredChain(g: Graph, preds: seq<seq<nat>>, c: seq<nat>) {
    && (forall i :: 0 <= i < |c| ==> IsVertex(g, c[i]) && c[i] < |preds|)
    && (forall i :: 0 <= i < |c| - 1 ==> c[i] in preds[c[i + 1]])
  }

  /** With positive weights a predecessor is strictly nearer the source. */
  lemma PredNearer(g: Graph, source: nat, v: nat, p: nat)
    requires WellFormed(g) && IsVertex(g, source) && PositiveWeights(g) && IsVertex(g, v)
    requires p in ShortestPathTree(g, source).preds[v]
    ensures Less(ShortestPathTree(g, source).dis[p], ShortestPathTree(g, source).dis[v])
  {
    var r := ShortestPathTree(g, source);
    var k :| 0 <= k < |g[p].adj| && k < |g[p].adjWeight| && g[p].adj[k] == v
      && r.dis[v] == Add(r.dis[p], g[p].adjWeight[k]);
    assert g[p].adjWeight[k] > 0;
  }

  /** Every recorded predecessor is strictly nearer than its successor. */
  ghost predicate PredsBelow(g: Graph, dis: seq<Dist>, preds: seq<seq<nat>>)
    requires |dis| == |g| && |preds| == |g|
  {
    forall v, p :: IsVertex(g, v) && p in preds[v] ==> p < |g| && Less(dis[p], dis[v])
  }

  lemma TreePredsBelow(g: Graph, source: nat)
    requires WellFormed(g) && IsVertex(g, source) && PositiveWeights(g)
    ensures var r := ShortestPathTree(g, source);
      PredsBelow(g, r.dis, r.preds)
  {
    var r := ShortestPathTree(g, source);
    forall v, p | IsVertex(g, v) && p in r.preds[v]
      ensures p < |g| && Less(r.dis[p], r.dis[v])
    {
      PredNearer(g, source, v, p);
    }
  }

  /** Distances strictly rise along a chain of predecessors that are each nearer than the next. */
  lemma {:induction false} PredChainRises(g: Graph, dis: seq<Dist>, preds: seq<seq<nat>>, c: seq<nat>)
    requires |dis| == |g| && |preds| == |g| && PredsBelow(g, dis, preds)
    requires |c| >= 2 && PredChain(g, preds, c)
    ensures Less(dis[c[0]], dis[c[|c| - 1]])
    decreases |c|
  {
    assert Less(dis[c[0]], dis[c[1]]);
    if |c| > 2 {
      assert PredChain(g, preds, c[1..]) by {
        assert forall i :: 0 <= i < |c| - 1 ==> c[1..][i] == c[i + 1];
      }
      PredChainRises(g, dis, preds, c[1..]);
      assert c[1..][|c[1..]| - 1] == c[|c| - 1];
    }
  }

  /** With positive weights the predecessor lists form no cycle: following
      predecessors never returns to where it started. */
  lemma PredsAcyclic(g: Graph, source: nat, c: seq<nat>)
    requires WellFormed(g) && IsVertex(g, source) && PositiveWeights(g)
    requires |c| >= 2 && PredChain(g, ShortestPathTree(g, source).preds, c)
    ensures c[0] != c[|c| - 1]
  {
    var r := ShortestPathTree(g, source);
    TreePredsBelow(g, source);
    PredChainRises(g, r.dis, r.preds, c);
  }
}

=== FILE: reward_fifo.dfy ===
/**
  The label-correcting (FIFO queue) shortest-path pass of the maximum-reward
  program, and the `relax` step it uses. A vertex whose distance drops is
  queued unless it is queued already; the pass ends when the queue empties.

  The visit counter meant to detect negative cycles is reset but never
  incremented, so the rejection it guards can never fire. The pass may run
  forever on a negative cycle; the model takes a step budget `fuel`.
*/
module MaximumRewardFifo {
  import opened Vertices

  /** `relax`: lowers `v`'s distance through `u` when that is strictly
      shorter (and makes `u` its only predecessor), records `u` as one more
      predecessor on a tie, and reports whether the distance dropped. */
  function Relax(dis: seq<Dist>, preds: seq<seq<nat>>, u: nat, v: nat, w: int)
    : (r: (bool, seq<Dist>, seq<seq<nat>>))
    requires u < |dis| && v < |dis| && |preds| == |dis|
    ensures |r.1| == |dis| && |r.2| == |preds|
    ensures r.0 <==> Less(Add(dis[u], w), dis[v])
    ensures Le(r.1[v], Add(dis[u], w)) && Le(r.1[v], dis[v])
    ensures forall y :: 0 <= y < |dis| && y != v ==> r.1[y] == dis[y] && r.2[y] == preds[y]
    ensures r.0 ==> r.1[v] == Add(dis[u], w) && r.2[v] == [u]
    ensures !r.0 ==> r.1 == dis
    ensures !r.0 && dis[v] == Add(dis[u], w) ==> r.2[v] == preds[v] + [u]
    ensures !r.0 && dis[v] != Add(dis[u], w) ==> r.2 == preds
  {
    var nd := Add(dis[u], w);
    if Less(nd, dis[v]) then (true, dis[v := nd], preds[v := AddPred([], u)])
    else if dis[v] == nd then (false, dis, preds[v := AddPred(preds[v], u)])
    else (false, dis, preds)
  }

  datatype FifoState = FifoState(
    dis: seq<Dist>,
    preds: seq<seq<nat>>,
    numPath: seq<int>,
    inQueue: seq<bool>,
    count: seq<nat>,
    queue: seq<nat>)

  datatype FifoResult = Done(ok: bool, st: FifoState) | OutOfFuel

  ghost predicate Sized(g: Graph, st: FifoState) {
    && |st.dis| == |g| && |st.preds| == |g| && |st.numPath| == |g|
    && |st.inQueue| == |g| && |st.count| == |g|
  }

  /** The queue holds distinct vertices, exactly those flagged `inQueue`. */
  ghost predicate QueueInv(g: Graph, st: FifoState)
    requires Sized(g, st)
  {
    && (forall i :: 0 <= i < |st.queue| ==> IsVertex(g, st.queue[i]))
    && (forall i, j :: 0 <= i < j < |st.queue| ==> st.queue[i] != st.queue[j])
    && (forall v :: 0 <= v < |g| ==> (st.inQueue[v] <==> v in st.queue))
  }

  /** Every edge out of a vertex that is not queued, other than the edges
      `k..` of `u`, is closed. */
  ghost predicate ClosedOut(g: Graph, st: FifoState, u: nat, k: nat)
    requires WellFormed(g) && Sized(g, st)
  {
    forall a, j :: 1 <= a < |g| && !st.inQueue[a] && 0 <= j < |g[a].adj| && (a != u || j < k) ==>
      ClosedEdge(g, st.dis, a, j)
  }

  /** The pass's invariant. */
  ghost predicate Inv(g: Graph, source: nat, st: FifoState) {
    && WellFormed(g) && IsVertex(g, source) && Sized(g, st) && QueueInv(g, st)
    && (forall v :: 0 <= v < |g| ==> st.count[v] == 0)
    && Le(st.dis[source], Finite(0))
    && (forall v :: 1 <= v < |g| && st.dis[v].Finite? ==> Reached(g, source, v, st.dis[v].value))
  }

  /** Relaxes the edge `k` of `u` and queues its target if its distance dropped. */
  function RelaxEdge(g: Graph, source: nat, st: FifoState, u: nat, k: nat): (r: FifoState)
    requires Inv(g, source, st) && IsVertex(g, u) && k < |g[u].adj|
    ensures Inv(g, source, r) && r.numPath == st.numPath && r.count == st.count
    ensures var v := g[u].adj[k];
      && Le(r.dis[v], Add(st.dis[u], g[u].adjWeight[k]))
      && (forall y :: 0 <= y < |g| ==> Le(r.dis[y], st.dis[y]))
      && (forall y :: 0 <= y < |g| && y != v ==> r.dis[y] == st.dis[y] && r.inQueue[y] == st.inQueue[y])
      && (r.dis[v] != st.dis[v] ==> r.inQueue[v])
      && (st.inQueue[v] ==> r.inQueue[v])
      && (r.dis[v] == st.dis[v] ==> r.inQueue == st.inQueue)
  {
    var x := Relax(st.dis, st.preds, u, g[u].adj[k], g[u].adjWeight[k]);
    if x.0 then Lower(g, source, st, u, k, x.1, x.2)
    else st.(dis := x.1, preds := x.2)
  }

  /** The distance of the target of edge `k` of `u` dropped to `dis'`: it is
      queued unless it is queued already. */
  function Lower(g: Graph, source: nat, st: FifoState, u: nat, k: nat, dis': seq<Dist>, preds': seq<seq<nat>>): (r: FifoState)
    requires Inv(g, source, st) && IsVertex(g, u) && k < |g[u].adj|
    requires var v := g[u].adj[k];
      && Less(Add(st.dis[u], g[u].adjWeight[k]), st.dis[v])
      && dis' == st.dis[v := Add(st.dis[u], g[u].adjWeight[k])] && |preds'| == |g|
    ensures Inv(g, source, r) && r.numPath == st.numPath && r.count == st.count
    ensures var v := g[u].adj[k];
      r.dis == dis' && r.preds == preds' && r.inQueue == st.inQueue[v := true]
  {
    var v := g[u].adj[k];
    var r := st.(dis := dis', preds := preds', inQueue := st.inQueue[v := true],
                 queue := if st.inQueue[v] then st.queue else st.queue + [v]);
    assert st.dis[u].Finite?;
    ReachedStep(g, source, u, st.dis[u].value, k);
    assert QueueInv(g, r) by {
      forall y | 0 <= y < |g| ensures r.inQueue[y] <==> y in r.queue {
        assert y in r.queue <==> y in st.queue || y == v;
      }
    }
    r
  }

  /** Relaxes the edges `k..` of the dequeued vertex `u`. */
  function RelaxAll(g: Graph, source: nat, st: FifoState, u: nat, k: nat): (r: FifoState)
    requires Inv(g, source, st) && IsVertex(g, u) && k <= |g[u].adj|
    requires ClosedOut(g, st, u, k)
    ensures Inv(g, source, r) && r.numPath == st.numPath
    ensures ClosedOut(g, r, 0, 0)
    decreases |g[u].adj| - k
  {
    if k == |g[u].adj| then
      assert ClosedOut(g, st, 0, 0) by {
        forall a, j | 1 <= a < |g| && !st.inQueue[a] && 0 <= j < |g[a].adj|
          ensures ClosedEdge(g, st.dis, a, j)
        {
        }
      }
      st
    else
      var st1 := RelaxEdge(g, source, st, u, k);
      RelaxEdgeKeepsClosed(g, source, st, u, k);
      RelaxAll(g, source, st1, u, k + 1)
  }

  /** An edge relaxation closes that edge and leaves the others closed:
      a lowered target is queued, and lowering a target only helps edges into it. */
  lemma RelaxEdgeKeepsClosed(g: Graph, source: nat, st: FifoState, u: nat, k: nat)
    requires Inv(g, source, st) && IsVertex(g, u) && k < |g[u].adj|
    requires ClosedOut(g, st, u, k)
    ensures ClosedOut(g, RelaxEdge(g, source, st, u, k), u, k + 1)
  {
    var r := RelaxEdge(g, source, st, u, k);
    var v := g[u].adj[k];
    forall a, j | 1 <= a < |g| && !r.inQueue[a] && 0 <= j < |g[a].adj| && (a != u || j < k + 1)
      ensures ClosedEdge(g, r.dis, a, j)
    {
      var t := g[a].adj[j];
      var w := g[a].adjWeight[j];
      if a != u || j != k {
        assert a != v || r.dis[v] == st.dis[v];
        assert ClosedEdge(g, st.dis, a, j);
        assert r.dis[a] == st.dis[a];
        LeTransitive(r.dis[t], st.dis[t], Add(st.dis[a], w));
      }
    }
  }

  /** The pass from a given state, for at most `fuel` dequeues. */
  function Loop(g: Graph, source: nat, st: FifoState, fuel: nat): (r: FifoResult)
    requires Inv(g, source, st) && ClosedOut(g, st, 0, 0)
    ensures r.Done? ==> r.ok && Inv(g, source, r.st) && r.st.queue == [] && r.st.numPath == st.numPath
    ensures r.Done? ==> forall a, j :: 1 <= a < |g| && 0 <= j < |g[a].adj| ==> ClosedEdge(g, r.st.dis, a, j)
    decreases fuel
  {
    if st.queue == [] then
      assert forall a :: 1 <= a < |g| ==> !st.inQueue[a];
      Done(true, st)
    else if fuel == 0 then OutOfFuel
    else
      var u := st.queue[0];
      var st1 := st.(queue := st.queue[1..], inQueue := st.inQueue[u := false]);
      assert QueueInv(g, st1) by {
        forall y | 0 <= y < |g| ensures st1.inQueue[y] <==> y in st1.queue {
          assert y in st.queue <==> y == u || y in st1.queue;
          assert u !in st1.queue;
        }
      }
      if st1.count[u] >= NumNodes(g) then
        assert false;
        Done(false, st1)
      else
        Loop(g, source, RelaxAll(g, source, st1, u, 0), fuel - 1)
  }

  /** The state the pass starts from: every distance reset to infinity but the
      source's 0, the source alone in the queue with one path, all counters 0.
      Predecessor lists are not reset. */
  function Start(g: Graph, source: nat, preds: seq<seq<nat>>, numPath: seq<int>): (st: FifoState)
    requires WellFormed(g) && IsVertex(g, source) && |preds| == |g| && |numPath| == |g|
    ensures Inv(g, source, st) && ClosedOut(g, st, 0, 0)
    ensures st.queue == [source] && st.preds == preds && st.numPath == numPath[source := 1]
    ensures forall v :: 0 <= v < |g| ==> st.dis[v] == if v == source then Finite(0) else Infinity
  {
    var n := |g|;
    var st := FifoState(
      seq(n, v => if v == source then Finite(0) else Infinity),
      preds, numPath[source := 1],
      seq(n, v => v == source), seq(n, _ => 0), [source]);
    assert Reached(g, source, source, 0) by {
      assert ValidWalk(g, source, []) && WalkEnd(g, source, []) == source && WalkLength(g, source, []) == 0;
    }
    st
  }

  /** `computeNumberShortestPathToEachVertex` of the maximum-reward program:
      when the pass finishes it reports `true`, and the distances are then
      shortest walk lengths from the source. */
  function Compute(g: Graph, source: nat, preds: seq<seq<nat>>, numPath: seq<int>, fuel: nat): (r: FifoResult)
    requires WellFormed(g) && IsVertex(g, source) && |preds| == |g| && |numPath| == |g|
    ensures r.Done? ==> r.ok && Sized(g, r.st) && r.st.queue == []
    ensures r.Done? ==> r.st.numPath == numPath[source := 1]
  {
    Loop(g, source, Start(g, source, preds, numPath), fuel)
  }

  /** A finished pass computes shortest distances (so no negative cycle is
      reachable from the source). */
  lemma ComputeShortest(g: Graph, source: nat, preds: seq<seq<nat>>, numPath: seq<int>, fuel: nat)
    requires WellFormed(g) && IsVertex(g, source) && |preds| == |g| && |numPath| == |g|
    ensures var r := Compute(g, source, preds, numPath, fuel);
      r.Done? ==> ShortestDistances(g, source, r.st.dis)
  {
    var r := Compute(g, source, preds, numPath, fuel);
    if r.Done? {
      ClosedIsShortest(g, source, r.st.dis);
    }
  }
}

=== FILE: vertex.dfy ===
/**
  Vertex records and the graph they form.

  A vertex keeps its topology (id, adjacency as two parallel sequences of
  neighbour ids and weights, reward). Everything an algorithm run writes
  (distance, predecessors, visited flags, path counts, ...) lives in the
  run's own state record, not here; this module only supplies the types,
  the distance order and the operations the vertex itself offers.
*/
module Vertices {

  /** A tentative distance. `Infinity` stands for the "no distance yet" value
      (Integer.MAX_VALUE / Long.MAX_VALUE in the code). */
  datatype Dist = Finite(value: int) | Infinity

  /** Strict order on distances; every finite value is below Infinity. */
  predicate Less(a: Dist, b: Dist) {
    match (a, b)
    case (Finite(x), Finite(y)) => x < y
    case (Finite(_), Infinity) => true
    case (Infinity, _) => false
  }

  predicate Le(a: Dist, b: Dist) {
    !Less(b, a)
  }

  /** `n` copies of `x`: a freshly allocated per-vertex field. */
  function Constant<T>(n: nat, x: T): (s: seq<T>)
    ensures |s| == n && forall i :: 0 <= i < n ==> s[i] == x
  {
    if n == 0 then [] else Constant(n - 1, x) + [x]
  }

  /** `dis + w`; an infinite distance stays infinite. */
  function Add(d: Dist, w: int): Dist {
    match d
    case Finite(x) => Finite(x + w)
    case Infinity => Infinity
  }

  lemma LeTransitive(a: Dist, b: Dist, c: Dist)
    requires Le(a, b) && Le(b, c)
    ensures Le(a, c)
  {
  }

  /** The comparator on vertices: the sign of `this.dis - o.dis`. */
  function CompareTo(a: Dist, b: Dist): (r: int)
    ensures r == -1 || r == 0 || r == 1
    ensures r < 0 <==> Less(a, b)
    ensures r > 0 <==> Less(b, a)
    ensures r == 0 <==> a == b
  {
    match (a, b)
    case (Finite(x), Finite(y)) => if x - y > 0 then 1 else if x - y < 0 then -1 else 0
    case (Finite(_), Infinity) => -1
    case (Infinity, Finite(_)) => 1
    case (Infinity, Infinity) => 0
  }

  /** The comparator is antisymmetric and zero on equal distances. */
  lemma CompareToAntisymmetric(a: Dist, b: Dist)
    ensures CompareTo(a, a) == 0
    ensures CompareTo(b, a) == -CompareTo(a, b)
  {
  }

  /** The static part of a vertex. `adj[k]` is reached with weight `adjWeight[k]`. */
  datatype Vertex = Vertex(index: nat, adj: seq<nat>, adjWeight: seq<int>, reward: int)

  /** A freshly constructed vertex: no edges and no reward yet. */
  function NewVertex(index: nat): (v: Vertex)
    ensures v.index == index
    ensures v.adj == [] && v.adjWeight == []
    ensures v.reward == 0
  {
    Vertex(index, [], [], 0)
  }

  /** The adjacency as (neighbour, weight) pairs: the two parallel sequences zipped. */
  function Edges(v: Vertex): seq<(nat, int)>
    requires |v.adj| == |v.adjWeight|
  {
    seq(|v.adj|, k requires 0 <= k < |v.adj| => (v.adj[k], v.adjWeight[k]))
  }

  /** Appends one adjacency entry; the neighbour and its weight share a position. */
  function AddAdj(v: Vertex, to: nat, weight: int): (r: Vertex)
    requires |v.adj| == |v.adjWeight|
    ensures |r.adj| == |r.adjWeight|
    ensures r.index == v.index && r.reward == v.reward
    ensures Edges(r) == Edges(v) + [(to, weight)]
  {
    var r := v.(adj := v.adj + [to], adjWeight := v.adjWeight + [weight]);
    assert Edges(r) == Edges(v) + [(to, weight)];
    r
  }

  /** The predecessor list's linear membership scan. */
  function HasPred(preds: seq<nat>, u: nat): (b: bool)
    ensures b <==> u in preds
  {
    if |preds| == 0 then false
    else if preds[0] == u then true
    else HasPred(preds[1..], u)
  }

  /** Appends a predecessor; no deduplication. */
  function AddPred(preds: seq<nat>, u: nat): (r: seq<nat>)
    ensures |r| == |preds| + 1 && r[..|preds|] == preds
    ensures HasPred(r, u)
    ensures forall x :: HasPred(r, x) <==> HasPred(preds, x) || x == u
  {
    preds + [u]
  }

  /** The vertices of a graph; slot 0 is an unused placeholder. */
  type Graph = seq<Vertex>

  function NumNodes(g: Graph): (n: nat)
    requires |g| >= 1
    ensures n + 1 == |g|
    ensures forall v :: IsVertex(g, v) <==> 1 <= v <= n
  {
    |g| - 1
  }

  predicate IsVertex(g: Graph, v: int) {
    1 <= v < |g|
  }

  /** Ids match positions, adjacency sequences are parallel and every
      neighbour is a real vertex. */
  predicate WellFormed(g: Graph) {
    && |g| >= 1
    && (forall i :: 0 <= i < |g| ==> g[i].index == i && |g[i].adj| == |g[i].adjWeight|)
    && (forall i, k :: 0 <= i < |g| && 0 <= k < |g[i].adj| ==> 1 <= g[i].adj[k] < |g|)
  }

  /** A graph of `n` fresh vertices. */
  function NewGraph(n: nat): (g: Graph)
    ensures WellFormed(g) && |g| == n + 1
    ensures forall i :: 0 <= i < |g| ==> g[i] == NewVertex(i)
  {
    seq(n + 1, i requires 0 <= i < n + 1 => NewVertex(i))
  }

  /** The adjacency entry `k` of `u` is an edge `u -> v` of weight `w`. */
  predicate EdgeAt(g: Graph, u: nat, k: nat, v: nat, w: int) {
    && u < |g| && k < |g[u].adj| && k < |g[u].adjWeight|
    && g[u].adj[k] == v && g[u].adjWeight[k] == w
  }

  /** All adjacency weights are strictly positive. */
  predicate PositiveWeights(g: Graph) {
    forall i, k :: 0 <= i < |g| && 0 <= k < |g[i].adjWeight| ==> g[i].adjWeight[k] > 0
  }

  /** All adjacency weights are non-negative. */
  predicate NonNegativeWeights(g: Graph) {
    forall i, k :: 0 <= i < |g| && 0 <= k < |g[i].adjWeight| ==> g[i].adjWeight[k] >= 0
  }

  /** A walk from `s`: the adjacency positions taken at each step. */
  predicate ValidWalk(g: Graph, s: nat, ks: seq<nat>)
    decreases |ks|
  {
    && s < |g| && |g[s].adj| == |g[s].adjWeight|
    && (ks != [] ==> ks[0] < |g[s].adj| && ValidWalk(g, g[s].adj[ks[0]], ks[1..]))
  }

  /** Where the walk ends. */
  function WalkEnd(g: Graph, s: nat, ks: seq<nat>): (e: nat)
    requires ValidWalk(g, s, ks)
    ensures e < |g|
    decreases |ks|
  {
    if ks == [] then s else WalkEnd(g, g[s].adj[ks[0]], ks[1..])
  }

  /** The sum of the weights along the walk. */
  function WalkLength(g: Graph, s: nat, ks: seq<nat>): int
    requires ValidWalk(g, s, ks)
    decreases |ks|
  {
    if ks == [] then 0 else g[s].adjWeight[ks[0]] + WalkLength(g, g[s].adj[ks[0]], ks[1..])
  }

  /** Extending a walk by one more edge at its end. */
  lemma {:induction false} WalkSnoc(g: Graph, s: nat, ks: seq<nat>, k: nat)
    requires WellFormed(g) && ValidWalk(g, s, ks) && k < |g[WalkEnd(g, s, ks)].adj|
    ensures ValidWalk(g, s, ks + [k])
    ensures WalkEnd(g, s, ks + [k]) == g[WalkEnd(g, s, ks)].adj[k]
    ensures WalkLength(g, s, ks + [k]) == WalkLength(g, s, ks) + g[WalkEnd(g, s, ks)].adjWeight[k]
    decreases |ks|
  {
    if ks != [] {
      assert (ks + [k])[1..] == ks[1..] + [k];
      WalkSnoc(g, g[s].adj[ks[0]], ks[1..], k);
    }
  }

  /** Some walk from `source` ends at `v` and has length `d`. */
  ghost predicate Reached(g: Graph, source: nat, v: nat, d: int) {
    exists ks :: ValidWalk(g, source, ks) && WalkEnd(g, source, ks) == v && WalkLength(g, source, ks) == d
  }

  lemma ReachedStep(g: Graph, source: nat, u: nat, d: int, k: nat)
    requires WellFormed(g) && IsVertex(g, u) && k < |g[u].adj| && Reached(g, source, u, d)
    ensures Reached(g, source, g[u].adj[k], d + g[u].adjWeight[k])
  {
    var ks :| ValidWalk(g, source, ks) && WalkEnd(g, source, ks) == u && WalkLength(g, source, ks) == d;
    WalkSnoc(g, source, ks, k);
  }

  /** Some adjacency entry `p -> v` accounts for `v`'s distance. */
  ghost predicate PredWitness(g: Graph, dis: seq<Dist>, p: nat, v: nat)
    requires p < |g| && v < |dis| && p < |dis|
  {
    exists k :: 0 <= k < |g[p].adj| && k < |g[p].adjWeight| && g[p].adj[k] == v
      && dis[v] == Add(dis[p], g[p].adjWeight[k])
  }

  /** Edge `j` of `u` can no longer lower its target's distance. */
  ghost predicate ClosedEdge(g: Graph, dis: seq<Dist>, u: nat, j: nat)
    requires WellFormed(g) && |dis| == |g| && IsVertex(g, u) && j < |g[u].adj|
  {
    Le(dis[g[u].adj[j]], Add(dis[u], g[u].adjWeight[j]))
  }

  /** With every edge closed, no walk from a vertex at distance at most `c`
      ends above `c` plus the walk's length. */
  lemma {:induction false} ClosedBound(g: Graph, dis: seq<Dist>, s: nat, ks: seq<nat>, c: int)
    requires WellFormed(g) && |dis| == |g| && IsVertex(g, s)
    requires forall a, j :: 1 <= a < |g| && 0 <= j < |g[a].adj| ==> ClosedEdge(g, dis, a, j)
    requires ValidWalk(g, s, ks) && Le(dis[s], Finite(c))
    ensures Le(dis[WalkEnd(g, s, ks)], Finite(c + WalkLength(g, s, ks)))
    decreases |ks|
  {
    if ks != [] {
      var t := g[s].adj[ks[0]];
      var w := g[s].adjWeight[ks[0]];
      assert ClosedEdge(g, dis, s, ks[0]);
      LeTransitive(dis[t], Add(dis[s], w), Finite(c + w));
      ClosedBound(g, dis, t, ks[1..], c + w);
    }
  }

  /** Settled distances never exceed unsettled ones. */
  ghost predicate SettleOrder(g: Graph, dis: seq<Dist>, visited: seq<bool>)
    requires |dis| == |g| && |visited| == |g|
  {
    forall a, b :: 1 <= a < |g| && 1 <= b < |g| && visited[a] && !visited[b] ==> Le(dis[a], dis[b])
  }

  /** Every edge out of a settled vertex other than `x` is closed. */
  ghost predicate ClosedExcept(g: Graph, dis: seq<Dist>, visited: seq<bool>, x: nat)
    requires WellFormed(g) && |dis| == |g| && |visited| == |g|
  {
    forall a, j :: 1 <= a < |g| && a != x && visited[a] && 0 <= j < |g[a].adj| ==> ClosedEdge(g, dis, a, j)
  }

  /** No distance went up from `dis` to `dis'`. */
  ghost predicate DisNotAbove(g: Graph, dis: seq<Dist>, dis': seq<Dist>)
    requires |dis| == |g| && |dis'| == |g|
  {
    forall y :: 0 <= y < |g| ==> Le(dis'[y], dis[y])
  }

  /** Once every edge of `u` is closed, every edge out of a settled vertex is. */
  lemma AllEdgesOfUClosed(g: Graph, dis: seq<Dist>, visited: seq<bool>, u: nat)
    requires WellFormed(g) && |dis| == |g| && |visited| == |g| && IsVertex(g, u)
    requires ClosedExcept(g, dis, visited, u) && forall j :: 0 <= j < |g[u].adj| ==> ClosedEdge(g, dis, u, j)
    ensures ClosedExcept(g, dis, visited, 0)
  {
    forall a, j | 1 <= a < |g| && visited[a] && 0 <= j < |g[a].adj|
      ensures ClosedEdge(g, dis, a, j)
    {
    }
  }

  /** Relaxing edge `k` of `u` without raising any distance keeps the
      edges closed so far closed, and closes edge `k` when the new distances do. */
  lemma ClosedCarry(g: Graph, dis: seq<Dist>, visited: seq<bool>, dis1: seq<Dist>, u: nat, k: nat)
    requires WellFormed(g) && |dis| == |g| && |visited| == |g| && |dis1| == |g|
    requires IsVertex(g, u) && visited[u] && k < |g[u].adj|
    requires forall a :: 0 <= a < |g| && visited[a] ==> dis1[a] == dis[a]
    requires DisNotAbove(g, dis, dis1)
    requires ClosedExcept(g, dis, visited, u) && forall j :: 0 <= j < k ==> ClosedEdge(g, dis, u, j)
    requires ClosedEdge(g, dis1, u, k)
    ensures ClosedExcept(g, dis1, visited, u) && forall j :: 0 <= j < k + 1 ==> ClosedEdge(g, dis1, u, j)
  {
    forall a, j | 1 <= a < |g| && visited[a] && 0 <= j < |g[a].adj| && (a != u || j < k)
      ensures ClosedEdge(g, dis1, a, j)
    {
      var v := g[a].adj[j];
      assert ClosedEdge(g, dis, a, j);
      LeTransitive(dis1[v], dis[v], Add(dis[a], g[a].adjWeight[j]));
    }
  }

  /** Every finite distance is the length of an actual walk from the source. */
  ghost predicate Realised(g: Graph, source: nat, dis: seq<Dist>)
    requires |dis| == |g|
  {
    forall v :: 1 <= v < |g| && dis[v].Finite? ==> Reached(g, source, v, dis[v].value)
  }

  /** `dis` holds shortest walk lengths from `source`: a finite entry is the
      length of some walk and no walk to that vertex is shorter, so an
      infinite entry means no walk reaches the vertex. */
  ghost predicate ShortestDistances(g: Graph, source: nat, dis: seq<Dist>)
    requires |dis| == |g|
  {
    forall v :: IsVertex(g, v) ==>
      && (dis[v].Finite? ==> Reached(g, source, v, dis[v].value))
      && (forall ks :: ValidWalk(g, source, ks) && WalkEnd(g, source, ks) == v ==>
            dis[v].Finite? && dis[v].value <= WalkLength(g, source, ks))
  }

  /** Closed edges, a source at distance at most 0 and a walk behind every
      finite distance make the distances shortest. */
  lemma ClosedIsShortest(g: Graph, source: nat, dis: seq<Dist>)
    requires WellFormed(g) && IsVertex(g, source) && |dis| == |g| && Le(dis[source], Finite(0))
    requires forall a, j :: 1 <= a < |g| && 0 <= j < |g[a].adj| ==> ClosedEdge(g, dis, a, j)
    requires Realised(g, source, dis)
    ensures ShortestDistances(g, source, dis)
  {
    forall v, ks | IsVertex(g, v) && ValidWalk(g, source, ks) && WalkEnd(g, source, ks) == v
      ensures dis[v].Finite? && dis[v].value <= WalkLength(g, source, ks)
    {
      ClosedBound(g, dis, source, ks, 0);
    }
  }
}
